=== FILE: README.md ===
# Lima Calixto catalog — a Dafny model

This project models the logic of the Lima Calixto product catalog, a static web site
written in JavaScript. It covers two parts.

The data pipeline of `script.js`:
- records with mixed English/Portuguese keys are normalised into canonical products;
- a CSV text is parsed into products;
- every product gets a deterministic code such as `CD-0001`, and repeats get letter suffixes;
- the catalog is filtered and sorted;
- the filter state is written to and read back from the query string;
- text is escaped for HTML, and a WhatsApp link is built for a product.

The small pages under `js/`:
- the catalog filter and its category list (`js/filtros.js`);
- the editor page with its access gate (`js/editor.js`);
- the user registry: adding, deleting and registering users (`js/usuarios.js`,
  `js/cadastro-usuario.js`);
- the login check with routing by level (`js/login.js`);
- product edits: save, delete and append (`js/admin.js`, `js/cadastro.js`);
- the image viewer's index state machine (`js/lightbox.js`);
- the share-link builder (`js/compartilhar-catalago.js`).

## How the model is built

- **JavaScript values.** Values read from JSON are a `JsValue` datatype (`JsCore`):
  undefined, null, booleans, numbers, NaN, strings, arrays and objects.
  - `??`, `||`, truthiness, `String(v)` and property access follow the language on that domain.
  - Reading a property of null or undefined is a `TypeError`.
  - A handler that can throw returns `Result<T>` (`Outcomes`).
- **The host runtime.** What the source leaves to the JavaScript engine is a `Runtime`
  value passed in. Every property holds for all runtimes. It supplies:
  - per-character upper and lower case maps;
  - `Number(s)` and `parseFloat(s)`, with `None` standing for NaN;
  - `String(number)`;
  - `encodeURIComponent`;
  - the form encoding of `URLSearchParams`.
- **Storage.** `localStorage` reads are `Option` values, where `None` means nothing is
  stored. Each edit returns the list the page then persists.
- **Events.** DOM events become the function that handles them; the state they touch
  is an explicit record (the filter state, the user list, the viewer).
- **Strings.** A string is a sequence of Unicode scalar values.

Modules, one per source concern:

| module | file | models |
|---|---|---|
| `Outcomes`, `JsCore` | outcomes.dfy, js_core.dfy | results, JavaScript values and the runtime |
| `Text`, `Seqs`, `Sorting` | text.dfy, seqs.dfy, sorting.dfy | `trim`, `split`, `includes`, `repeat`, `filter`, `new Set`, `Array.prototype.sort` |
| `Normalize` | normalize.dfy | `normalizeProductsArray` |
| `Csv` | csv.dfy | `parseCSVToProducts` |
| `ProductCodes` | product_codes.dfy | `categoryAcronym`, `zeroPad`, `assignProductCodes` |
| `CatalogQuery` | catalog_query.dfy | `state`, `applyFilters`, `applySort` |
| `UrlState` | url_state.dfy | `writeStateToUrl`, `readStateFromUrlOnInit` |
| `HtmlEscape` | escape_html.dfy | `escapeHtml` |
| `WhatsAppLink` | whatsapp_link.dfy | `makeWhatsAppLink` |
| `ProductFilter` | product_filter.dfy | js/filtros.js |
| `EditorPage` | editor_page.dfy | js/editor.js |
| `Users` | users.dfy | js/usuarios.js, js/cadastro-usuario.js |
| `Login` | login.dfy | js/login.js |
| `ProductEdits` | product_edits.dfy | js/admin.js, js/cadastro.js |
| `Lightbox` | lightbox.dfy | js/lightbox.js |
| `ShareLinks` | share.dfy | js/compartilhar-catalago.js |

Where the code and its documentation differ, the model follows the code:
- The fallback name is `Produto <i+1>`.
- Ids, names, descriptions, prices and images each have three alias keys, and the
  category has two.
- "No bound" is written differently in the two files. `script.js` keeps it as `null`.
  `js/filtros.js` turns an empty minimum into 0 and an empty or zero maximum into `Infinity`.

## Model

| member | source | states |
|---|---|---|
| Text.Trim | script.js:122 | the result is a slice of the input with only whitespace before and after it, starts and ends with non-whitespace, and is empty exactly when the input is all whitespace |
| Text.Words | script.js:37 | `split(/\s+/).filter(Boolean)`: every word is non-empty and free of whitespace, there are no words exactly when the text is all whitespace, and a non-empty text without whitespace is a single word |
| Text.WordsSplit | script.js:37 | a whitespace character splits the text: the words of `a + [c] + b` are those of `a` followed by those of `b`, which with the single-word case fixes the words of every text |
| Text.WordsKeepAllText | script.js:37 | concatenating the words gives the text with its whitespace removed, so splitting loses no other character |
| Text.Includes | script.js:340 | `includes` holds exactly when the query occurs at some position of the text |
| Text.SplitOn | script.js:183 | `split(',')` gives at least one piece, no piece holds the separator, and joining the pieces with it gives the line back |
| Text.SplitJoin | script.js:183 | splitting the join of separator-free pieces gives the pieces back |
| Text.Decimal | script.js:30 | `String(n)` of a whole number below 10^21 is a digit string without leading zeros whose value is n |
| Text.ZeroPadValue | script.js:29-32 | padding a digit string with zeros keeps it all digits and keeps its value |
| Text.ZeroPad | script.js:29-32 | `zeroPad` is as long as the width or the input, whichever is longer, ends with the input, and has only '0' before it; longer inputs are never cut |
| Text.FirstDigitRun | script.js:59 | `match(/(\d+)/)` is absent exactly when the text has no digit; otherwise it is a non-empty digit run that starts the first digit of the text and cannot be extended |
| Text.FirstDigitRunUnique | script.js:59 | the first digit run is unique: its position and its text are determined by the input |
| JsCore.GetProp | script.js:117 | reading a property throws exactly when the value is null or undefined |
| Seqs.TryFilter | js/filtros.js:12-18 | `filter` with a callback that may throw: it throws exactly when the callback throws on some element; otherwise it keeps, in order, the elements the callback accepts |
| Seqs.TryFilterDecides | js/editor.js:77-81 | when the callback never throws and agrees with a predicate, the filter keeps exactly the elements satisfying the predicate |
| Seqs.Dedup | js/filtros.js:26 | `[...new Set(xs)]` holds each element of the input exactly once and nothing else |
| Seqs.DedupFirstOccurrenceOrder | js/filtros.js:26 | the distinct values come in the order of their first occurrence in the input |
| Sorting.SortBy | script.js:345-346 | the sort is a permutation of the input and non-decreasing in the key |
| Sorting.SortStable | script.js:345-346 | the sort is stable: the elements with any one key keep their relative order |
| Normalize.FirstPresent | script.js:117-122 | `a ?? b ?? c ?? d` is the value of the first key that is neither null nor undefined, and the default when all are |
| Normalize.MapReading | script.js:116 | `arr.map` of a callback that reads properties throws exactly when some element is null or undefined; otherwise it has one result per element, in order |
| Normalize.NormalizeProducts | script.js:114-125 | a non-array gives the empty list; an array gives one product per element in order, and throws exactly when an element is null or undefined |
| Normalize.NormalizeOne | script.js:116-123 | the normalised record always has an id, name, description and category that are neither null nor undefined, and no code yet |
| Normalize.NormalizeOneFields | script.js:117-120 | each field takes its aliases in priority order (`id`/`ID`/`_id`, `name`/`nome`/`title`, `description`/`descricao`/`desc`, `category`/`categoria`); empty strings count as present; the defaults are `ext-<i>`, `Produto <i+1>`, the empty string and "Personalizados" |
| Normalize.NormalizeOnePrice | script.js:121 | the price is the numeric value of the first price alias present, and 0 when there is none or it does not convert, so it is never NaN |
| Normalize.NormalizeOneImage | script.js:122 | the image is the trimmed text of the first image alias present |
| Csv.SplitLines | script.js:181 | `split(/\r?\n/)` gives at least one line, and no line holds a line feed |
| Csv.SplitLinesOfCrlf | script.js:181 | a text whose lines are joined with CRLF splits back into exactly those lines |
| Csv.SplitLinesOfLf | script.js:181 | a text whose lines are joined with LF splits back into exactly those lines, when no line but the last ends in CR |
| Csv.DropCr | script.js:181 | a line loses at most one trailing CR |
| Csv.NonBlankLines | script.js:181 | the kept lines are a subsequence of the split, none of them blank, and every non-blank line of the split is among them |
| Csv.Headers | script.js:183 | header j is the trimmed, lower-cased j-th comma field of the first line |
| Csv.Cells | script.js:186 | column j is the trimmed j-th comma field of a row |
| Csv.RecordFields | script.js:187-188 | the record's keys are exactly the headers, and each holds the cell of the last column with that header |
| Csv.RecordField | script.js:187-188 | a field of a record is the trimmed cell under its last column, or the empty string when the row is shorter; names that are no header are absent |
| Csv.ParseCsvToProducts | script.js:180-192 | an empty text gives no products; otherwise there is one product per non-blank line after the header, each the normalisation of its row's record |
| ProductCodes.CategoryAcronym | script.js:35-44 | the acronym has one to three characters, and is "PRD" for a falsy or all-whitespace category |
| ProductCodes.AcronymOfOneWord | script.js:39-42 | a single word keeps only Latin letters (A–Z, a–z, U+00C0–U+00FF), takes the first three upper-cased, and gives "PRD" when none remain |
| ProductCodes.AcronymOfSeveralWords | script.js:43 | several words give the upper-cased first characters of the first three words, with no letter filtering |
| ProductCodes.BaseNumber | script.js:57-62 | the number is the value of the first digit run of the id; it is i+1 when the id is null, undefined or has no digit |
| ProductCodes.BaseCode | script.js:64-66 | a base code is `categoryAcronym(category \|\| 'PRD')`, a dash and a run of at least four digits whose value is the product's base number, which matches the source for base numbers below 10^21 |
| ProductCodes.CodeFor | script.js:66-76 | the first occurrence of a base code keeps it bare, and the k-th repeat appends a dash and the k-th capital letter |
| ProductCodes.CodeExtendsBase | script.js:66-76 | every code begins with its product's base code |
| ProductCodes.SuffixCodes | script.js:53-76 | the loop computes, for every position, the code the occurrence count gives it |
| ProductCodes.AssignProductCodes | script.js:51-80 | the batch keeps its length and order, and every product changes only in its code |
| ProductCodes.CodesDistinct | script.js:66-76 | two positions never get the same code |
| ProductCodes.AssignedCodesDistinct | script.js:51-80 | the codes of a batch are pairwise distinct |
| ProductCodes.CodesStableUnderAppend | script.js:54-79 | appending products to a batch does not change the codes of the earlier ones, so codes are determined by the batch's prefix |
| CatalogQuery.LowerIncludes | script.js:340 | `(v \|\| '').toLowerCase().includes(q)` throws exactly on a truthy non-string, and otherwise tests the lower-cased text |
| CatalogQuery.Verdict | script.js:334-341 | when the name and description are readable, the callback returns whether the product matches every active criterion |
| CatalogQuery.TextVerdict | script.js:339-340 | an empty query matches every product |
| CatalogQuery.VerdictDecidesMatches | script.js:334-341 | the callback, when it returns, accepts exactly the products in the category with the price within both bounds whose name or description contains the query; it throws only on a name or description that is a truthy non-string |
| CatalogQuery.ApplyFilters | script.js:333-343 | the result throws exactly when the callback throws on some product; otherwise it is the products the callback accepts, in order |
| CatalogQuery.FilterKeepsMatches | script.js:333-343 | with readable names and descriptions, the result is exactly the matching products in order |
| CatalogQuery.InitialKeepsAll | script.js:83-91 | the initial state keeps every product |
| CatalogQuery.ApplySort | script.js:344-348 | "price-asc" and "price-desc" give a permutation ordered by price in that direction; any other value returns the list itself |
| CatalogQuery.ApplySortStable | script.js:345-346 | products of equal price keep their relative order |
| UrlState.EncodeParams | script.js:308-313 | at most the five parameters are set |
| UrlState.Serialize | script.js:314 | the query string is empty exactly when no parameter is set |
| UrlState.NewUrl | script.js:314-316 | the address is the bare path exactly when no parameter is set, and otherwise the path, `?` and the query string |
| UrlState.EncodeEmptyIffDefault | script.js:308-315 | no parameter is set exactly when the query is empty, the category is empty or "todas", both bounds are null, and the sort is empty or "default" |
| UrlState.Get | script.js:324-328 | a value found by `params.get` is the value of a parameter with that name |
| UrlState.GetAbsent | script.js:324-328 | `params.get` is absent exactly when no parameter has that name |
| UrlState.GetFirst | script.js:324-328 | `params.get` gives the value of the first parameter with that name |
| UrlState.GetEncoded | script.js:306-313 | each parameter is present exactly when its field is not the default, and holds the field's text |
| UrlState.NumberOrNull | script.js:326-327 | `Number(s) \|\| null` is absent exactly when the text does not convert or converts to 0 |
| UrlState.ReadState | script.js:321-330 | absent parameters leave their fields unchanged; present ones set the field to the value read |
| UrlState.ReadNothing | script.js:321-330 | an empty query string leaves the state unchanged |
| UrlState.InitialRoundTrip | script.js:83-91 | the initial state encodes to the bare path and reads back as itself |
| UrlState.RoundTrip | script.js:306-330 | reading back what was written restores the state when its bounds are non-zero and the numbers convert back |
| UrlState.ZeroBoundLost | script.js:311-326 | a minimum of 0 is written as a parameter but reads back as null |
| HtmlEscape.ReplaceAll | script.js:21 | `replaceAll` leaves a text without the pattern unchanged |
| HtmlEscape.ChainIsOnePass | script.js:21 | the five `replaceAll` calls in a row replace each character by its entity independently, because `&` goes first |
| HtmlEscape.EscapeHtml | script.js:20-22 | a falsy value escapes to the empty text |
| HtmlEscape.EscapedIsInert | script.js:20-22 | the escaped text holds no `<`, `>`, `"` or `'` |
| HtmlEscape.UnescapeEscape | script.js:21 | decoding the entities gives the text back, so escaping loses nothing |
| HtmlEscape.EscapeHtmlReadsBack | script.js:20-22 | the page shows exactly the text of the value |
| WhatsAppLink.ShownCode | script.js:512 | the code appears exactly when it is present and non-empty |
| WhatsAppLink.MakeWhatsAppLink | script.js:511-515 | the link is `https://wa.me/`, the encoded number, `?text=` and the encoded message, with nothing after it |
| WhatsAppLink.QuoteTextReadsBack | script.js:512-513 | the name and the shown code can be read back from the message when the name holds no `"` and the code no `)` |
| WhatsAppLink.LinkReadsBack | script.js:514 | decoding the link gives back the number and the message |
| ProductFilter.MinBound | js/filtros.js:8 | the minimum is the parsed value, and 0 when the input does not parse |
| ProductFilter.MaxBound | js/filtros.js:9 | there is no maximum exactly when the input does not parse or parses to 0; otherwise it is the parsed value |
| ProductFilter.Keep | js/filtros.js:12-18 | the callback throws exactly on a null or undefined product |
| ProductFilter.ApplyFilters | js/filtros.js:6-21 | the filter throws exactly when some product is null or undefined; otherwise it is a subsequence of the products |
| ProductFilter.KeepIsWanted | js/filtros.js:13-17 | the callback accepts a product exactly when the lower-cased `nome + ' ' + descricao` contains the search, the price is within the bounds, and the category is "Todos" or equal |
| ProductFilter.ApplyFiltersKeepsWanted | js/filtros.js:6-18 | the filter keeps exactly the wanted products, in order |
| ProductFilter.UntouchedFormKeepsNonNegativePrices | js/filtros.js:8-15 | with every field empty and "Todos" selected, the filter keeps exactly the products whose price is at least 0 |
| ProductFilter.Categories | js/filtros.js:26 | one category per product, in order |
| ProductFilter.DistinctCategories | js/filtros.js:26 | throws exactly on a null or undefined product; otherwise it is the distinct categories |
| ProductFilter.DistinctCategoriesInOrder | js/filtros.js:26 | each category appears once, in first-occurrence order, and every category of a product is listed |
| ProductFilter.CategoryOptions | js/filtros.js:24-33 | the options are the existing ones followed by the distinct categories |
| EditorPage.EditorAccess | js/editor.js:2-6 | access is granted exactly when the first stored user with the logged-in name has level "editor"; nothing logged in is refused |
| EditorPage.AccessForEditors | js/editor.js:4-6 | with unique names, access is granted exactly to a stored editor |
| EditorPage.LoginOpensEditorPage | js/editor.js:4-6 | with unique names, a login routed to the editor page is exactly a login the editor page lets in |
| EditorPage.Display | js/editor.js:33-37 | each text field falls back to its fixed text when falsy, and the price shows 0 unless it is a number |
| EditorPage.Render | js/editor.js:29-57 | rendering throws exactly on a null record; otherwise there is one card per product in order, and the total is the number of products shown |
| EditorPage.CategoryOptions | js/editor.js:59-71 | the select holds "todos" followed by the distinct categories |
| EditorPage.Selected | js/editor.js:74 | an empty or missing selection means "todos", and any other selection is kept as it is |
| EditorPage.Keep | js/editor.js:77-81 | the callback throws exactly on a null record or a name that is not a string |
| EditorPage.ApplyFilters | js/editor.js:73-84 | the filter throws exactly when a record is null or has a non-string name; otherwise it is a subsequence of the products |
| EditorPage.ApplyFiltersKeepsShown | js/editor.js:77-81 | with string names, the filter keeps, in order, exactly the products in the selected category whose lower-cased name contains the term |
| EditorPage.LoadPage | js/editor.js:1-95 | the page is access-denied exactly when the gate refuses; otherwise it greets the user and shows the category options and the rendered filtered list |
| ProductEdits.Record | js/admin.js:34-40 | a record has exactly the five fields, holding the given values |
| ProductEdits.RecordOf | js/admin.js:34-40 | the saved record has exactly nome, descricao, categoria, preco and imagem; the name, description and image are trimmed and the price parsed |
| ProductEdits.Save | js/admin.js:33-43 | saving replaces exactly the product at the index; the length and all other products stay the same |
| ProductEdits.SaveIdempotent | js/admin.js:33-43 | saving the same form twice equals saving it once |
| ProductEdits.Delete | js/admin.js:45-49 | deleting drops one product: the length falls by one, the rest keep their order, and only the product at the index is lost |
| ProductEdits.DeleteShifts | js/admin.js:45-49 | products before the index keep their positions, and those after move up by one |
| ProductEdits.Submit | js/cadastro.js:15-26 | the new record is appended after the stored list, which is empty when nothing is stored |
| ProductEdits.Records | js/cadastro.js:15-21 | one record per form, in order |
| ProductEdits.SubmitAllAppends | js/cadastro.js:24-26 | n submissions append n records after the stored ones, in submission order |
| Seqs.Load | js/usuarios.js:3 | `JSON.parse(localStorage.getItem(key)) \|\| []`: nothing stored reads as the empty list, and a stored list reads as itself |
| Users.FindByName | js/usuarios.js:75 | `find` by name returns the first user with that name, or nothing exactly when no user has it |
| Users.FindUnique | js/usuarios.js:75 | with unique names, `find` returns the one user with the name |
| Users.AddMessage | js/usuarios.js:69-86 | the message starts with ✅ exactly after a successful addition, and with ❌ after a refusal |
| Users.AddUser | js/usuarios.js:61-89 | blank fields are refused, then a name in use; only otherwise is exactly one user appended, with the trimmed name and password; a refusal leaves the list unchanged |
| Users.AddKeepsNamesUnique | js/usuarios.js:75-83 | adding keeps names unique |
| Users.UserCards | js/usuarios.js:8-44 | nothing is rendered without a logged-in user; otherwise there is one card per user in order, and deletion is offered exactly for users other than the logged-in one |
| Users.DeleteUser | js/usuarios.js:32-39 | a confirmed deletion of an offered card removes exactly that user; anything else leaves the list unchanged |
| Users.DeleteKeepsSelf | js/usuarios.js:29-39 | deleting never removes the logged-in user, and keeps names unique |
| Users.Register | js/cadastro-usuario.js:1-34 | exactly one of the success and error messages is shown; success appends exactly the new user to what was stored; an error leaves storage unchanged |
| Users.RegisterSucceedsIff | js/cadastro-usuario.js:10-28 | registration succeeds exactly when every field is filled in and the name is free, and it keeps names unique |
| Login.FindCredentials | js/login.js:9 | the lookup returns the first user matching both the name and the password, or nothing exactly when none does |
| Login.RouteOf | js/login.js:15-21 | level "admin" routes to the admin page, "editor" to the editor page, and any other level to neither |
| Login.SubmitLogin | js/login.js:1-25 | the login succeeds exactly when a stored user has the trimmed name and password, and the logged-in name is that name |
| Login.LoginRoute | js/login.js:9-21 | the route comes from the level of the first user matching both fields |
| Login.LoginRoutesByOwnLevel | js/login.js:9-21 | with unique names, the user who logs in is routed by their own level |
| Lightbox.JsRem | js/lightbox.js:41 | JavaScript's `%` agrees with the mathematical remainder on non-negative operands; on a negative dividend it lies in `(-n, 0]`, and in both cases it differs from the dividend by a multiple of `n`, which fixes its value |
| Lightbox.Move | js/lightbox.js:41-45 | an empty list or a NaN index throws and leaves NaN; from a position of the list, the step lands on the next or previous position, wrapping around; from a cleared index it lands where index 0 would lead; landing on a present product shows it without throwing |
| Lightbox.Button | js/lightbox.js:50-58 | the buttons step even while the viewer is hidden: from a position of a list without holes they land on the next or previous position and show the viewer |
| Lightbox.Show | js/lightbox.js:21-26 | the index is set first; showing succeeds exactly on a present product of the list, and then makes the viewer visible with the counter "Imagem i+1 de n" |
| Lightbox.Close | js/lightbox.js:29-32 | closing hides the viewer and clears the index to null |
| Lightbox.Key | js/lightbox.js:35-47 | keys are ignored while hidden, Escape closes the viewer, and on a visible viewer ArrowRight steps to the next product and ArrowLeft to the previous one, wrapping around, without throwing |
| Lightbox.Swipe | js/lightbox.js:79-91 | swipes are ignored while hidden, a move within 50 pixels either way changes nothing, and on a visible viewer a swipe more than 50 pixels to the left steps to the next product and one more than 50 pixels to the right to the previous one, without throwing |
| Lightbox.FindByName | js/lightbox.js:16 | `findIndex` by name returns the first position with the same name, or -1 when there is none; it throws exactly when it reaches a null record before a match, or the product clicked is null |
| Lightbox.Open | js/lightbox.js:14-18 | opening takes the whole product list and shows the position found, or throws |
| Lightbox.PrevUndoesNext | js/lightbox.js:41-44 | `(i - 1 + n) % n` undoes `(i + 1) % n`, and the other way round |
| Lightbox.MoveVisible | js/lightbox.js:40-45 | on a visible, consistent viewer a step never throws and lands on the next or previous position, within the list |
| Lightbox.EventsKeepValid | js/lightbox.js:35-91 | every event keeps the viewer consistent: while visible it shows a position of the list and the counter names it |
| Lightbox.OpenKeepsValid | js/lightbox.js:14-26 | opening the hidden viewer on a list without holes keeps it consistent |
| Lightbox.ArrowsUndo | js/lightbox.js:40-45 | the left arrow undoes the right arrow, and the other way round |
| ShareLinks.Emojis | js/compartilhar-catalago.js:5-18 | a known campaign gives its two emoji; an unknown or absent one falls back to "geral"; a name inherited from `Object.prototype` throws |
| ShareLinks.ShareLink | js/compartilhar-catalago.js:17-34 | WhatsApp gives `https://wa.me/?text=` and the encoded message; Telegram encodes the address and the title as two parameters; e-mail has the title as subject and the message as body; any other platform gives null |
| ShareLinks.TitleHasNoLineBreak | js/compartilhar-catalago.js:19 | no title holds a line break, so the message splits back into the title and the address |
| ShareLinks.ReadWhatsApp | js/compartilhar-catalago.js:24-25 | a WhatsApp link reads back as the title and the address |
| ShareLinks.ReadTelegram | js/compartilhar-catalago.js:26-27 | a Telegram link reads back as the address and the title |
| ShareLinks.ReadEmail | js/compartilhar-catalago.js:28-29 | an e-mail link reads back as the title and the address |
| ShareLinks.ShareLinkReadsBack | js/compartilhar-catalago.js:17-34 | every link built reads back as its platform, the campaign's title and the address |

## Left out

- DOM rendering and event wiring are not modelled: card HTML, modals, menus, messages and `alert`/`confirm` dialogs. A confirmation answer is a parameter.
- Browser I/O is not modelled: `fetch`, `FileReader`, JSON export, `window.open`, the clipboard, and `location`/`history`. Stored lists are values passed in and returned.
- JSON serialisation is not modelled, so NaN is not turned into null when stored.
- Timers and clocks are not modelled: the clock on the editor and users pages, and `setTimeout`.
- The theme toggle, logout and the admin-control visibility are not modelled. They are UI preferences with no logic on the catalog.
- js/compartilhar-catalgo.js, js/produtos.js and js/mensagem-whatsapp.js are not part of this model. They hold menu and share glue, rendering, and number formatting.
- The statement at js/lightbox.js:93 is not modelled. It reads an undefined `produto` when the script loads, which is an error, not behaviour.
- Floating-point arithmetic, `toLocaleString` and `toFixed` are not modelled. Prices are reals, and `Infinity` is an absent upper bound.
- `Number`, `parseFloat`, `String(number)`, case mapping and `encodeURIComponent` are runtime parameters, and so is the form encoding `URLSearchParams` applies when it serialises. Case mapping is per character, so expansions such as `ß` to `SS` are not modelled.
- Parsing a query string, `new URLSearchParams(location.search)` at script.js:323, is not modelled. `ReadState` takes the list of name/value pairs, so `UrlState.RoundTrip` goes from the pairs `EncodeParams` writes back to the state, and assumes that parsing undoes `Serialize`.
- `encodeURIComponent` can throw a `URIError` on a lone surrogate. This is not modelled, because strings hold Unicode scalar values.
- Object identity is not modelled: values compare structurally. This matters for `new Set` over object-valued categories, and for `Lightbox.StrictEquals`, where `===` at js/lightbox.js:16 compares object-valued names by reference.
- ProductCodes.CategoryAcronym: `w[0]` at script.js:43 takes a word's first UTF-16 code unit, while the model takes its first character. For a word starting with a character outside the Basic Multilingual Plane, such as the category `"a 😀b"`, the source yields a lone high surrogate (`"A\uD83D"`) and the model yields `"A😀"`. A Dafny string holds Unicode scalar values, so it cannot hold a lone surrogate.
- ProductCodes.AcronymOfSeveralWords: states the first character of each word, not its first UTF-16 code unit, for the reason given for `ProductCodes.CategoryAcronym`.
- ProductCodes.BaseNumber: the digit run is taken exactly; `Number(m[1])` loses precision above 2^53.
- ProductCodes.BaseCode: the number after the dash is written as plain digits for every id. JavaScript's `String(num)` at script.js:30 switches to exponent form from 10^21 on, so the id `"1000000000000000000000"` gets `PRD-1e+21` in the source, and a digit run of more than 308 digits gets `PRD-Infinity`. The model writes the digits of the exact value instead.
- Text.Decimal: renders every whole number as plain digits, which matches `String(n)` only below 10^21.
- ProductCodes.AssignProductCodes: requires a batch of at most `MaxBatch` (55232) products. `String.fromCharCode(64 + n)` reaches the surrogate range beyond that, and a Dafny string cannot hold it.
- ProductCodes.AssignProductCodes: a non-array input, where the source returns without effect, is not modelled. The function takes a product sequence.
- CatalogQuery.ApplyFilters: the `!p` guard at script.js:335 is not modelled. The list holds normalised products, which are never null.
- UrlState.RoundTrip: excludes zero bounds, which `ZeroBoundLost` shows are lost. It also excludes an empty category or sort, which are written as nothing. And it assumes `Number(String(x))` gives x back.
- WhatsAppLink.MakeWhatsAppLink: the product is always present, as all callers pass one, so the `product &&` guard is not modelled.
- WhatsAppLink.LinkReadsBack: assumes decoding undoes `encodeURIComponent` and the encoded number holds no `?`.
- ShareLinks.ShareLinkReadsBack: assumes decoding undoes `encodeURIComponent` and that the encoding never yields `&`.
- Lightbox.OpenKeepsValid: requires a hidden viewer. Products are clicked on the page behind the viewer.
- Users.UserCards: records stored as null, which would make the page throw, are not modelled. Users are typed records.

=== FILE: catalog_query.dfy ===
/**
 * The catalog's filter and sort engine (script.js:82-91, 332-348): the filter
 * state, `applyFilters`, which keeps the products matching every active criterion,
 * and `applySort`, a stable sort by price in either direction.
 */
module CatalogQuery {
  import opened Outcomes
  import opened JsCore
  import Text
  import Seqs
  import opened Normalize
  import Sorting

  /** The sentinel category meaning "no category filter". */
  const AllCategories: string := "todas"

  /** The sort value meaning "keep the filtered order". */
  const DefaultSort: string := "default"

  const PriceAsc: string := "price-asc"
  const PriceDesc: string := "price-desc"

  /** The filter part of the page state: the search text, the selected category, the
      price bounds (null when unset) and the sort option. */
  datatype FilterState = FilterState(
    query: string,
    category: string,
    minPrice: Option<real>,
    maxPrice: Option<real>,
    sort: string)

  /** The state when the page loads (script.js:83-91), and after "clear filters". */
  const Initial: FilterState := FilterState("", AllCategories, None, None, DefaultSort)

  /* ---------------- applyFilters ---------------- */

  /** `(v || '').toLowerCase().includes(q)`. A truthy value that is not a string has
      no `toLowerCase` method, so the call throws. */
  function LowerIncludes(rt: Runtime, v: JsValue, q: string): (r: Result<bool>)
    ensures r.TypeError? <==> Truthy(v) && !v.Str?
    ensures !Truthy(v) ==> r == Ok(Text.Includes("", q))
    ensures v.Str? ==> r == Ok(Text.Includes(Lower(rt, v.s), q))
  {
    var s := Or(v, Str(""));
    if s.Str? then Ok(Text.Includes(Lower(rt, s.s), q)) else TypeError
  }

  /** The text criterion, `!q || nameMatches || descriptionMatches`, evaluated left
      to right: the description is only looked at when the name does not match. */
  function TextVerdict(rt: Runtime, q: string, p: Product): (r: Result<bool>)
    ensures q == "" ==> r == Ok(true)
  {
    if q == "" then
      Ok(true)
    else
      match LowerIncludes(rt, p.name, q)
      case TypeError => TypeError
      case Ok(inName) =>
        if inName then Ok(true) else LowerIncludes(rt, p.description, q)
  }

  /** The callback of `applyFilters` (script.js:334-341). The category and price
      criteria cannot throw; the text criterion can. */
  function Verdict(rt: Runtime, st: FilterState, p: Product): (r: Result<bool>)
    ensures Readable(p.name) && Readable(p.description) ==> r == Ok(Matches(rt, st, p))
  {
    var categoryOk := st.category == AllCategories || ToStr(rt, p.category) == st.category;
    var minOk := st.minPrice.None? || p.price >= st.minPrice.value;
    var maxOk := st.maxPrice.None? || p.price <= st.maxPrice.value;
    match TextVerdict(rt, st.query, p)
    case TypeError => TypeError
    case Ok(textOk) => Ok(categoryOk && minOk && maxOk && textOk)
  }

  /** A value that is either an empty-ish value or a string: what the text criterion
      can read without throwing. */
  predicate Readable(v: JsValue) {
    !Truthy(v) || v.Str?
  }

  /** The lower-cased text of a name or description field as the page sees it. */
  function FieldText(rt: Runtime, v: JsValue): string {
    if v.Str? then Lower(rt, v.s) else ""
  }

  /** The filter as the catalog describes it: every active criterion holds. */
  predicate Matches(rt: Runtime, st: FilterState, p: Product) {
    && (st.category == AllCategories || ToStr(rt, p.category) == st.category)
    && (st.minPrice.Some? ==> st.minPrice.value <= p.price)
    && (st.maxPrice.Some? ==> p.price <= st.maxPrice.value)
    && (st.query == "" || Text.Includes(FieldText(rt, p.name), st.query)
                       || Text.Includes(FieldText(rt, p.description), st.query))
  }

  /** The callback decides `Matches` whenever it returns; it throws exactly when the
      query is non-empty and it has to read a name or description that is a truthy
      non-string (a number, say): the name always, the description only when the
      name does not match. */
  lemma VerdictDecidesMatches(rt: Runtime, st: FilterState, p: Product)
    ensures Verdict(rt, st, p).Ok? ==> (Verdict(rt, st, p).value <==> Matches(rt, st, p))
    ensures Verdict(rt, st, p).TypeError? <==>
      && st.query != ""
      && (|| !Readable(p.name)
          || (!Text.Includes(FieldText(rt, p.name), st.query) && !Readable(p.description)))
    ensures Readable(p.name) && Readable(p.description) ==> Verdict(rt, st, p).Ok?
  {
  }

  /** `list.filter(callback)`, with the exception of the first throwing call
      propagated. */
  method ApplyFilters(rt: Runtime, st: FilterState, list: seq<Product>) returns (r: Result<seq<Product>>)
    ensures r.TypeError? <==> exists i :: 0 <= i < |list| && Verdict(rt, st, list[i]).TypeError?
    ensures r.Ok? ==> r.value == Seqs.Filter(list, p => Verdict(rt, st, p) == Ok(true))
  {
    var kept: seq<Product> := [];
    var i := 0;
    while i < |list|
      invariant 0 <= i <= |list|
      invariant forall j :: 0 <= j < i ==> Verdict(rt, st, list[j]).Ok?
      invariant kept == Seqs.Filter(list[..i], p => Verdict(rt, st, p) == Ok(true))
    {
      var v := Verdict(rt, st, list[i]);
      if v.TypeError? {
        return TypeError;
      }
      assert list[..i + 1] == list[..i] + [list[i]];
      Seqs.FilterAppend(list[..i], [list[i]], p => Verdict(rt, st, p) == Ok(true));
      if v.value {
        kept := kept + [list[i]];
      }
      i := i + 1;
    }
    assert list[..i] == list;
    r := Ok(kept);
  }

  /** Without text that could throw, the filter keeps, in order, exactly the
      products that match. */
  lemma FilterKeepsMatches(rt: Runtime, st: FilterState, list: seq<Product>)
    requires forall i :: 0 <= i < |list| ==> Readable(list[i].name) && Readable(list[i].description)
    ensures Seqs.Filter(list, p => Verdict(rt, st, p) == Ok(true)) == Seqs.Filter(list, p => Matches(rt, st, p))
  {
    forall i | 0 <= i < |list|
      ensures (Verdict(rt, st, list[i]) == Ok(true)) == Matches(rt, st, list[i])
    {
      VerdictDecidesMatches(rt, st, list[i]);
    }
    FilterSameDecisions(list, p => Verdict(rt, st, p) == Ok(true), p => Matches(rt, st, p));
  }

  /** Two filters that decide alike on every element give the same result. */
  lemma {:induction false} FilterSameDecisions(list: seq<Product>, f: Product -> bool, g: Product -> bool)
    requires forall i :: 0 <= i < |list| ==> f(list[i]) == g(list[i])
    ensures Seqs.Filter(list, f) == Seqs.Filter(list, g)
    decreases |list|
  {
    if |list| > 0 {
      FilterSameDecisions(list[..|list| - 1], f, g);
    }
  }

  /** The initial state keeps every product. */
  lemma InitialKeepsAll(rt: Runtime, list: seq<Product>)
    ensures Seqs.Filter(list, p => Verdict(rt, Initial, p) == Ok(true)) == list
  {
    Seqs.FilterKeepsAll(list, p => Verdict(rt, Initial, p) == Ok(true));
  }

  /* ---------------- applySort ---------------- */

  /** The sort key: the price, negated for the descending order. */
  function PriceKey(desc: bool): Product -> real {
    (p: Product) => if desc then -p.price else p.price
  }

  /** `applySort(list)` (script.js:344-348). `slice().sort(...)` returns a fresh
      array and leaves `list` alone; any other sort value returns `list` itself. */
  function ApplySort(st: FilterState, list: seq<Product>): (r: seq<Product>)
    ensures multiset(r) == multiset(list)
    ensures st.sort == PriceAsc ==> forall i, j :: 0 <= i < j < |r| ==> r[i].price <= r[j].price
    ensures st.sort == PriceDesc ==> forall i, j :: 0 <= i < j < |r| ==> r[i].price >= r[j].price
    ensures st.sort != PriceAsc && st.sort != PriceDesc ==> r == list
  {
    if st.sort == PriceAsc then
      var r := Sorting.SortBy(list, PriceKey(false));
      assert forall i, j :: 0 <= i < j < |r| ==> PriceKey(false)(r[i]) <= PriceKey(false)(r[j]);
      r
    else if st.sort == PriceDesc then
      var r := Sorting.SortBy(list, PriceKey(true));
      assert forall i, j :: 0 <= i < j < |r| ==> PriceKey(true)(r[i]) <= PriceKey(true)(r[j]);
      r
    else
      list
  }

  /** Selects the products with price `v`. */
  function PriceIs(v: real): Product -> bool {
    (p: Product) => p.price == v
  }

  /** Both price sorts are stable: products with the same price appear in the order
      they had in `list`. */
  lemma ApplySortStable(st: FilterState, list: seq<Product>, v: real)
    ensures Seqs.Filter(ApplySort(st, list), PriceIs(v)) == Seqs.Filter(list, PriceIs(v))
  {
    if st.sort == PriceAsc || st.sort == PriceDesc {
      var desc := st.sort == PriceDesc;
      var key := PriceKey(desc);
      var w := if desc then -v else v;
      Sorting.SortStable(list, key, w);
      FilterSameDecisions(ApplySort(st, list), PriceIs(v), Sorting.KeyIs(key, w));
      FilterSameDecisions(list, PriceIs(v), Sorting.KeyIs(key, w));
    }
  }
}

=== FILE: csv.dfy ===
/**
 * `parseCSVToProducts(txt)` (script.js:180-192): a comma-separated table with a
 * header row becomes one record per data row, keyed by the trimmed, lower-cased
 * header names, and the records go through product normalisation. There is no
 * quoting: every comma separates two cells.
 */
module Csv {
  import opened Outcomes
  import opened JsCore
  import Text
  import Seqs
  import opened Normalize

  /** `s` without one trailing carriage return. */
  function DropCr(s: string): (r: string)
    ensures s == r || s == r + "\r"
  {
    if |s| > 0 && s[|s| - 1] == '\r' then s[..|s| - 1] else s
  }

  /** `txt.split(/\r?\n/)`: the pieces between line feeds, where a carriage return
      right before a line feed belongs to the separator. */
  function SplitLines(txt: string): (lines: seq<string>)
    ensures |lines| >= 1
    ensures forall i :: 0 <= i < |lines| ==> '\n' !in lines[i]
  {
    var parts := Text.SplitOn(txt, '\n');
    seq(|parts|, i requires 0 <= i < |parts| =>
      if i < |parts| - 1 then DropCr(parts[i]) else parts[i])
  }

  /** Each line followed by a carriage return, except the last. */
  function WithCr(lines: seq<string>): (r: seq<string>)
    ensures |r| == |lines|
  {
    seq(|lines|, i requires 0 <= i < |lines| => if i < |lines| - 1 then lines[i] + "\r" else lines[i])
  }

  lemma {:induction false} JoinCrlf(lines: seq<string>)
    requires |lines| >= 1
    ensures Text.Join(lines, "\r\n") == Text.Join(WithCr(lines), "\n")
    decreases |lines|
  {
    if |lines| > 1 {
      JoinCrlf(lines[1..]);
      assert WithCr(lines)[1..] == WithCr(lines[1..]);
    }
  }

  lemma DropCrAdded(l: string)
    ensures DropCr(l + "\r") == l
  {
    assert (l + "\r")[..|l|] == l;
  }

  /** Splitting recovers the lines of a text written with CRLF line endings, as long
      as no line contains a line feed. */
  lemma SplitLinesOfCrlf(lines: seq<string>)
    requires |lines| >= 1
    requires forall i :: 0 <= i < |lines| ==> '\n' !in lines[i]
    ensures SplitLines(Text.Join(lines, "\r\n")) == lines
  {
    var crs := WithCr(lines);
    forall i | 0 <= i < |crs|
      ensures '\n' !in crs[i]
      ensures i < |crs| - 1 ==> DropCr(crs[i]) == lines[i]
    {
      if i < |crs| - 1 {
        assert crs[i] == lines[i] + "\r";
        DropCrAdded(lines[i]);
      }
    }
    var txt := Text.Join(lines, "\r\n");
    JoinCrlf(lines);
    Text.SplitJoin(crs, '\n');
    assert Text.SplitOn(txt, '\n') == crs;
    var r := SplitLines(txt);
    assert |r| == |lines|;
    forall i | 0 <= i < |r|
      ensures r[i] == lines[i]
    {
      if i == |r| - 1 {
        assert r[i] == crs[i];
      }
    }
  }

  /** Splitting recovers the lines of a text written with LF line endings, as long
      as no line contains a line feed and no line but the last ends in a carriage
      return, which would be taken for part of the separator. */
  lemma SplitLinesOfLf(lines: seq<string>)
    requires |lines| >= 1
    requires forall i :: 0 <= i < |lines| ==> '\n' !in lines[i]
    requires forall i :: 0 <= i < |lines| - 1 ==> DropCr(lines[i]) == lines[i]
    ensures SplitLines(Text.Join(lines, "\n")) == lines
  {
    Text.SplitJoin(lines, '\n');
  }

  /** `l.trim() !== ''`. */
  predicate IsNonBlank(l: string) {
    Text.Trim(l) != ""
  }

  /** The lines that hold something besides whitespace, in order. */
  function NonBlankLines(txt: string): (lines: seq<string>)
    ensures forall i :: 0 <= i < |lines| ==> !Text.AllSpace(lines[i]) && '\n' !in lines[i]
    ensures Seqs.IsSubseq(lines, SplitLines(txt))
    ensures forall i :: 0 <= i < |SplitLines(txt)| && !Text.AllSpace(SplitLines(txt)[i]) ==>
      SplitLines(txt)[i] in lines
  {
    var all := SplitLines(txt);
    Seqs.FilterIsSubseq(all, IsNonBlank);
    Seqs.FilterMembers(all, IsNonBlank);
    Seqs.Filter(all, IsNonBlank)
  }

  /** The header row: each cell trimmed, then lower-cased. */
  function Headers(rt: Runtime, line: string): (hs: seq<string>)
    ensures |hs| == |Text.SplitOn(line, ',')|
    ensures forall j :: 0 <= j < |hs| ==> hs[j] == Lower(rt, Text.Trim(Text.SplitOn(line, ',')[j]))
  {
    var cells := Text.SplitOn(line, ',');
    seq(|cells|, j requires 0 <= j < |cells| => Lower(rt, Text.Trim(cells[j])))
  }

  /** A data row: each cell trimmed. */
  function Cells(line: string): (cs: seq<string>)
    ensures |cs| == |Text.SplitOn(line, ',')|
    ensures forall j :: 0 <= j < |cs| ==> cs[j] == Text.Trim(Text.SplitOn(line, ',')[j])
  {
    var cells := Text.SplitOn(line, ',');
    seq(|cells|, j requires 0 <= j < |cells| => Text.Trim(cells[j]))
  }

  /** `cols[j] ?? ''`. */
  function Cell(cols: seq<string>, j: nat): string {
    if j < |cols| then cols[j] else ""
  }

  /** Column `j` is the last one among the first `n` whose header is `h`. */
  ghost predicate LastColumn(headers: seq<string>, n: nat, h: string, j: int) {
    && 0 <= j < n <= |headers|
    && headers[j] == h
    && forall k :: j < k < n ==> headers[k] != h
  }

  /** The object the loop `for (j ...) obj[headers[j]] = cols[j] ?? ''` builds from
      its first `n` columns: a later column with the same header overwrites an
      earlier one. */
  function RecordFields(headers: seq<string>, cols: seq<string>, n: nat): (m: map<string, JsValue>)
    requires n <= |headers|
    ensures m.Keys == set j | 0 <= j < n :: headers[j]
    ensures forall h, j :: LastColumn(headers, n, h, j) ==> h in m && m[h] == Str(Cell(cols, j))
  {
    if n == 0 then
      map[]
    else
      var prev := RecordFields(headers, cols, n - 1);
      var m := prev[headers[n - 1] := Str(Cell(cols, n - 1))];
      assert forall h, j :: LastColumn(headers, n, h, j) && j < n - 1 ==> LastColumn(headers, n - 1, h, j);
      assert (set j | 0 <= j < n :: headers[j]) == (set j | 0 <= j < n - 1 :: headers[j]) + {headers[n - 1]};
      m
  }

  /** The record of one data row. */
  function Record(headers: seq<string>, line: string): (v: JsValue)
    ensures v.Obj?
  {
    Obj(RecordFields(headers, Cells(line), |headers|))
  }

  /** The records of the data rows, in order. */
  function Records(headers: seq<string>, rows: seq<string>): (items: seq<JsValue>)
    ensures |items| == |rows|
    ensures forall i :: 0 <= i < |rows| ==> items[i] == Record(headers, rows[i]) && items[i].Obj?
  {
    seq(|rows|, i requires 0 <= i < |rows| => Record(headers, rows[i]))
  }

  /** Normalisation of a list of objects, which cannot throw. */
  function NormalizeObjects(rt: Runtime, items: seq<JsValue>): (ps: seq<Product>)
    requires forall i :: 0 <= i < |items| ==> items[i].Obj?
    ensures |ps| == |items|
    ensures forall i :: 0 <= i < |items| ==> ps[i] == NormalizeOne(rt, items[i], i)
  {
    var r := NormalizeProducts(rt, Arr(items));
    assert r.Ok?;
    r.value
  }

  /** `parseCSVToProducts(txt)` (script.js:180-192). No input makes it throw: every
      record is an object, so normalisation never meets null or undefined. */
  function ParseCsvToProducts(rt: Runtime, txt: string): (ps: seq<Product>)
    ensures var lines := NonBlankLines(txt);
      |ps| == if |lines| == 0 then 0 else |lines| - 1
    ensures var lines := NonBlankLines(txt);
      forall i :: 0 <= i < |ps| ==>
        ps[i] == NormalizeOne(rt, Record(Headers(rt, lines[0]), lines[i + 1]), i)
  {
    var lines := NonBlankLines(txt);
    if |lines| == 0 then
      []
    else
      NormalizeObjects(rt, Records(Headers(rt, lines[0]), lines[1..]))
  }

  /** What a field of a record holds: the trimmed cell under the last column with
      that header, or the empty string when the row is shorter than the header;
      names that are no header are absent. */
  lemma RecordField(headers: seq<string>, line: string, h: string)
    ensures var v := Record(headers, line);
      && (h !in headers ==> Prop(v, h) == Undefined)
      && forall j :: LastColumn(headers, |headers|, h, j) ==>
           Prop(v, h) == Str(if j < |Text.SplitOn(line, ',')| then Text.Trim(Text.SplitOn(line, ',')[j]) else "")
  {
    var m := RecordFields(headers, Cells(line), |headers|);
    if h !in headers {
      assert h !in m.Keys;
    }
  }
}

=== FILE: editor_page.dfy ===
/**
 * The editor page (js/editor.js): a read-only product list for users of level
 * "editor", with a category select and a name search. Products are the raw records
 * stored under "produtos"; users are the registry of the Users module.
 *
 * The clock, the theme toggle, logout and the card HTML are left out; a card is
 * modelled by the values it displays.
 */
module EditorPage {
  import opened Outcomes
  import opened JsCore
  import Text
  import Seqs
  import Normalize
  import opened Users
  import Login
  import ProductFilter

  /** The level the page requires. */
  const EditorLevel: string := "editor"

  /** The value of the "all categories" option. */
  const AllOption: string := "todos"

  /** The access gate (js/editor.js:2-15): the first stored user whose name is the
      logged-in name must exist and have level "editor". Nothing logged in matches
      no user. */
  function EditorAccess(users: seq<User>, loggedIn: Option<string>): (ok: bool)
    ensures loggedIn.None? ==> !ok
    ensures loggedIn.Some? ==> (ok <==>
      exists i :: 0 <= i < |users| && users[i].usuario == loggedIn.value && users[i].nivel == EditorLevel
        && forall j :: 0 <= j < i ==> users[j].usuario != loggedIn.value)
  {
    if loggedIn.None? then
      false
    else
      match FindByName(users, loggedIn.value)
      case None => false
      case Some(k) => users[k].nivel == EditorLevel
  }

  /** With unique names, the gate opens exactly for a stored editor. */
  lemma AccessForEditors(users: seq<User>, name: string)
    requires UniqueNames(users)
    ensures EditorAccess(users, Some(name)) <==>
      exists i :: 0 <= i < |users| && users[i] == User(name, users[i].senha, EditorLevel)
  {
    if exists i :: 0 <= i < |users| && users[i] == User(name, users[i].senha, EditorLevel) {
      var i :| 0 <= i < |users| && users[i] == User(name, users[i].senha, EditorLevel);
      FindUnique(users, name, i);
    }
  }

  /** Logging in as an editor opens the editor page: among unique names, the login
      form sends to the editor page exactly the users the page lets in. */
  lemma LoginOpensEditorPage(stored: Option<seq<User>>, nameInput: string, passwordInput: string)
    requires UniqueNames(Seqs.Load(stored))
    requires Login.SubmitLogin(stored, nameInput, passwordInput).LoggedIn?
    ensures var outcome := Login.SubmitLogin(stored, nameInput, passwordInput);
      outcome.route == Login.EditorPage <==> EditorAccess(Seqs.Load(stored), Some(outcome.usuario))
  {
    var users := Seqs.Load(stored);
    var name, password := Text.Trim(nameInput), Text.Trim(passwordInput);
    var k := Login.FindCredentials(users, name, password).value;
    assert users[k].usuario == name;
    FindUnique(users, name, k);
    assert Login.SubmitLogin(stored, nameInput, passwordInput) == Login.LoggedIn(name, Login.RouteOf(users[k].nivel));
  }

  /** What a card shows of a product (js/editor.js:33-37). */
  datatype Card = Card(nome: JsValue, descricao: JsValue, categoria: JsValue, preco: JsValue, imagem: JsValue)

  /** The fallback texts of the card. */
  const NoName: string := "Produto sem nome"
  const NoDescription: string := "Descrição não informada"
  const NoCategory: string := "Categoria não definida"
  const PlaceholderImage: string := "imagens/placeholder.jpg"

  /** A card's values: each text field falls back when falsy (`||`), the price shows
      0 unless it is a number (NaN included). */
  function Display(p: JsValue): (c: Card)
    ensures c.nome == (if Truthy(Prop(p, "nome")) then Prop(p, "nome") else Str(NoName))
    ensures c.descricao == (if Truthy(Prop(p, "descricao")) then Prop(p, "descricao") else Str(NoDescription))
    ensures c.categoria == (if Truthy(Prop(p, "categoria")) then Prop(p, "categoria") else Str(NoCategory))
    ensures c.preco == (if IsNumber(Prop(p, "preco")) then Prop(p, "preco") else Num(0.0))
    ensures c.imagem == (if Truthy(Prop(p, "imagem")) then Prop(p, "imagem") else Str(PlaceholderImage))
    ensures Truthy(c.nome) && Truthy(c.descricao) && Truthy(c.categoria) && Truthy(c.imagem)
  {
    Card(
      Or(Prop(p, "nome"), Str(NoName)),
      Or(Prop(p, "descricao"), Str(NoDescription)),
      Or(Prop(p, "categoria"), Str(NoCategory)),
      if IsNumber(Prop(p, "preco")) then Prop(p, "preco") else Num(0.0),
      Or(Prop(p, "imagem"), Str(PlaceholderImage)))
  }

  /** The rendered list (js/editor.js:29-57): one card per product, in order, and the
      total, which counts the products shown. */
  datatype Listing = Listing(cards: seq<Card>, total: nat)

  /** Reading a field of a null record throws. */
  function Render(products: seq<JsValue>): (r: Result<Listing>)
    ensures r.Ok? <==> forall i :: 0 <= i < |products| ==> !IsNullish(products[i])
    ensures r.Ok? ==> r.value.total == |products| == |r.value.cards|
    ensures r.Ok? ==> forall i :: 0 <= i < |products| ==> r.value.cards[i] == Display(products[i])
  {
    match Normalize.MapReading(products, 0, (p, i) => Display(p))
    case TypeError => TypeError
    case Ok(cards) => Ok(Listing(cards, |cards|))
  }

  /** The category select (js/editor.js:59-71): reset to the "todos" option, then
      the distinct categories. */
  function CategoryOptions(products: seq<JsValue>): (r: Result<seq<JsValue>>)
    ensures r.Ok? <==> forall i :: 0 <= i < |products| ==> !IsNullish(products[i])
    ensures r.Ok? ==> r.value == [Str(AllOption)] + ProductFilter.DistinctCategories(products).value
  {
    match ProductFilter.DistinctCategories(products)
    case TypeError => TypeError
    case Ok(added) => Ok([Str(AllOption)] + added)
  }

  /** The selection as `aplicarFiltros` reads it: a missing or empty select means
      "todos", a missing search box means the empty text. */
  function Selected(select: Option<string>): (c: string)
    ensures c != ""
    ensures select.None? || select == Some("") ==> c == AllOption
    ensures select.Some? && select.value != "" ==> c == select.value
  {
    match select
    case Some(v) => if v != "" then v else AllOption
    case None => AllOption
  }

  function SearchTerm(rt: Runtime, search: Option<string>): string {
    match search
    case Some(v) => Lower(rt, v)
    case None => ""
  }

  /** The filter callback (js/editor.js:77-81). Both tests run before the `&&`
      combines them, so a record whose name is not a string throws, whatever its
      category. */
  function Keep(rt: Runtime, category: string, term: string, p: JsValue): (r: Result<bool>)
    ensures r.TypeError? <==> IsNullish(p) || !Prop(p, "nome").Str?
  {
    if IsNullish(p) then
      TypeError
    else
      var categoryOk := category == AllOption || Prop(p, "categoria") == Str(category);
      match Prop(p, "nome")
      case Str(name) => Ok(categoryOk && Text.Includes(Lower(rt, name), term))
      case _ => TypeError
  }

  /** Products whose category is the selected one (or all, for "todos") and whose
      lower-cased name contains the term. */
  predicate Shown(rt: Runtime, category: string, term: string, p: JsValue) {
    && (category != AllOption ==> Prop(p, "categoria") == Str(category))
    && Prop(p, "nome").Str? && Text.Includes(Lower(rt, Prop(p, "nome").s), term)
  }

  /** `aplicarFiltros()` (js/editor.js:73-84). */
  function ApplyFilters(rt: Runtime, select: Option<string>, search: Option<string>, products: seq<JsValue>)
    : (r: Result<seq<JsValue>>)
    ensures r.TypeError? <==> exists i :: 0 <= i < |products| && (IsNullish(products[i]) || !Prop(products[i], "nome").Str?)
    ensures r.Ok? ==> Seqs.IsSubseq(r.value, products)
  {
    var category, term := Selected(select), SearchTerm(rt, search);
    Seqs.TryFilter(products, p => Keep(rt, category, term, p))
  }

  /** When every record has a string name, the filter keeps exactly the products
      shown, in order. */
  lemma ApplyFiltersKeepsShown(rt: Runtime, select: Option<string>, search: Option<string>, products: seq<JsValue>)
    requires forall i :: 0 <= i < |products| ==> !IsNullish(products[i]) && Prop(products[i], "nome").Str?
    ensures ApplyFilters(rt, select, search, products) ==
      Ok(Seqs.Filter(products, p => Shown(rt, Selected(select), SearchTerm(rt, search), p)))
  {
    var category, term := Selected(select), SearchTerm(rt, search);
    Seqs.TryFilterDecides(products, p => Keep(rt, category, term, p), p => Shown(rt, category, term, p));
  }

  /** The page: access denied, or the greeting, the category options and the
      filtered listing. */
  datatype Page = AccessDenied | Editor(greeting: string, options: seq<JsValue>, listing: Listing)

  /** Loading the page (js/editor.js:1-95): missing storage reads as empty lists. */
  function LoadPage(rt: Runtime, loggedIn: Option<string>, users: Option<seq<User>>,
                    products: Option<seq<JsValue>>, select: Option<string>, search: Option<string>)
    : (r: Result<Page>)
    ensures r == Ok(AccessDenied) <==> !EditorAccess(Seqs.Load(users), loggedIn)
    ensures r.Ok? && r.value.Editor? ==>
      && r.value.greeting == "👋 Bem-vindo, " + loggedIn.value
      && CategoryOptions(products.GetOr([])) == Ok(r.value.options)
      && exists shown :: (&& ApplyFilters(rt, select, search, products.GetOr([])) == Ok(shown)
                          && Render(shown) == Ok(r.value.listing) && r.value.listing.total == |shown|)
  {
    if !EditorAccess(Seqs.Load(users), loggedIn) then
      Ok(AccessDenied)
    else
      var list := products.GetOr([]);
      match CategoryOptions(list)
      case TypeError => TypeError
      case Ok(options) =>
        match ApplyFilters(rt, select, search, list)
        case TypeError => TypeError
        case Ok(shown) =>
          match Render(shown)
          case TypeError => TypeError
          case Ok(listing) => Ok(Editor("👋 Bem-vindo, " + loggedIn.value, options, listing))
  }
}

=== FILE: escape_html.dfy ===
/**
 * `escapeHtml(s)` (script.js:20-22): the text of a value made safe to place inside
 * HTML, by five `replaceAll` calls in a row, `&` first.
 */
module HtmlEscape {
  import opened JsCore
  import Text

  /** `s.replaceAll(c, rep)` for a one-character pattern. */
  function ReplaceAll(s: string, c: char, rep: string): (r: string)
    ensures c !in s ==> r == s
    decreases |s|
  {
    if |s| == 0 then ""
    else (if s[0] == c then rep else [s[0]]) + ReplaceAll(s[1..], c, rep)
  }

  /** The five replacements, in the source's order. */
  function ReplaceChain(s: string): string {
    var s1 := ReplaceAll(s, '&', "&amp;");
    var s2 := ReplaceAll(s1, '<', "&lt;");
    var s3 := ReplaceAll(s2, '>', "&gt;");
    var s4 := ReplaceAll(s3, '"', "&quot;");
    ReplaceAll(s4, '\'', "&#039;")
  }

  /** `escapeHtml(v)`: falsy values (null, undefined, 0, NaN, false, "") become the
      empty text, anything else its `String(v)`, then escaped. */
  function EscapeHtml(rt: Runtime, v: JsValue): (r: string)
    ensures !Truthy(v) ==> r == ""
  {
    ReplaceChain(ToStr(rt, Or(v, Str(""))))
  }

  /* ---------------- the escape as one pass ---------------- */

  /** The entity each character becomes. */
  function EscapeChar(c: char): string {
    if c == '&' then "&amp;"
    else if c == '<' then "&lt;"
    else if c == '>' then "&gt;"
    else if c == '"' then "&quot;"
    else if c == '\'' then "&#039;"
    else [c]
  }

  /** Every character replaced by its entity, in one pass. */
  function Escape(s: string): (r: string)
    ensures '<' !in r && '>' !in r && '"' !in r && '\'' !in r
    decreases |s|
  {
    if |s| == 0 then "" else EntityIsInert(s[0]); EscapeChar(s[0]) + Escape(s[1..])
  }

  /** No entity holds a character that needs escaping, other than `&`. */
  lemma EntityIsInert(c: char)
    ensures var e := EscapeChar(c);
      '<' !in e && '>' !in e && '"' !in e && '\'' !in e
  {
  }

  lemma {:induction false} ReplaceAllAppend(a: string, b: string, c: char, rep: string)
    ensures ReplaceAll(a + b, c, rep) == ReplaceAll(a, c, rep) + ReplaceAll(b, c, rep)
    decreases |a|
  {
    if |a| == 0 {
      assert a + b == b;
    } else {
      assert (a + b)[1..] == a[1..] + b;
      ReplaceAllAppend(a[1..], b, c, rep);
    }
  }

  /** A lone character is replaced by its replacement. */
  lemma ReplaceOne(c: char, rep: string)
    ensures ReplaceAll([c], c, rep) == rep
  {
    assert [c][1..] == [];
  }

  /** A lone character other than the pattern is kept. */
  lemma ReplaceOther(c: char, d: char, rep: string)
    requires c != d
    ensures ReplaceAll([c], d, rep) == [c]
  {
  }

  /** The chain applied to one character gives its entity: no replacement touches
      the output of an earlier one. */
  lemma ChainOfChar(c: char)
    ensures ReplaceChain([c]) == EscapeChar(c)
  {
    if c == '&' {
      ReplaceOne(c, "&amp;");
      assert '<' !in "&amp;" && '>' !in "&amp;" && '"' !in "&amp;" && '\'' !in "&amp;";
    } else if c == '<' {
      ReplaceOther(c, '&', "&amp;");
      ReplaceOne(c, "&lt;");
      assert '>' !in "&lt;" && '"' !in "&lt;" && '\'' !in "&lt;";
    } else if c == '>' {
      ReplaceOther(c, '&', "&amp;");
      ReplaceOther(c, '<', "&lt;");
      ReplaceOne(c, "&gt;");
      assert '"' !in "&gt;" && '\'' !in "&gt;";
    } else if c == '"' {
      ReplaceOther(c, '&', "&amp;");
      ReplaceOther(c, '<', "&lt;");
      ReplaceOther(c, '>', "&gt;");
      ReplaceOne(c, "&quot;");
      assert '\'' !in "&quot;";
    } else if c == '\'' {
      ReplaceOther(c, '&', "&amp;");
      ReplaceOther(c, '<', "&lt;");
      ReplaceOther(c, '>', "&gt;");
      ReplaceOther(c, '"', "&quot;");
      ReplaceOne(c, "&#039;");
    } else {
      ReplaceOther(c, '&', "&amp;");
      ReplaceOther(c, '<', "&lt;");
      ReplaceOther(c, '>', "&gt;");
      ReplaceOther(c, '"', "&quot;");
      ReplaceOther(c, '\'', "&#039;");
    }
  }

  /** The chain of the same text split in two is the chains of the two pieces. */
  lemma ChainAppend(a: string, b: string)
    ensures ReplaceChain(a + b) == ReplaceChain(a) + ReplaceChain(b)
  {
    var a1, b1 := ReplaceAll(a, '&', "&amp;"), ReplaceAll(b, '&', "&amp;");
    ReplaceAllAppend(a, b, '&', "&amp;");
    var a2, b2 := ReplaceAll(a1, '<', "&lt;"), ReplaceAll(b1, '<', "&lt;");
    ReplaceAllAppend(a1, b1, '<', "&lt;");
    var a3, b3 := ReplaceAll(a2, '>', "&gt;"), ReplaceAll(b2, '>', "&gt;");
    ReplaceAllAppend(a2, b2, '>', "&gt;");
    var a4, b4 := ReplaceAll(a3, '"', "&quot;"), ReplaceAll(b3, '"', "&quot;");
    ReplaceAllAppend(a3, b3, '"', "&quot;");
    ReplaceAllAppend(a4, b4, '\'', "&#039;");
  }

  /** The five `replaceAll` calls in a row replace each character of the input by its
      entity, independently of its neighbours. */
  lemma {:induction false} ChainIsOnePass(s: string)
    ensures ReplaceChain(s) == Escape(s)
    decreases |s|
  {
    if |s| > 0 {
      assert s == [s[0]] + s[1..];
      ChainAppend([s[0]], s[1..]);
      ChainOfChar(s[0]);
      ChainIsOnePass(s[1..]);
    }
  }

  /** The escaped text holds no `<`, `>`, `"` or `'`. */
  lemma EscapedIsInert(rt: Runtime, v: JsValue)
    ensures var r := EscapeHtml(rt, v);
      '<' !in r && '>' !in r && '"' !in r && '\'' !in r
  {
    ChainIsOnePass(ToStr(rt, Or(v, Str(""))));
  }

  /* ---------------- decoding ---------------- */

  /** The browser's reading of the five entities back into characters. */
  function Unescape(s: string): string
    decreases |s|
  {
    if |s| == 0 then ""
    else if Text.StartsWith(s, "&amp;") then ['&'] + Unescape(s[5..])
    else if Text.StartsWith(s, "&lt;") then ['<'] + Unescape(s[4..])
    else if Text.StartsWith(s, "&gt;") then ['>'] + Unescape(s[4..])
    else if Text.StartsWith(s, "&quot;") then ['"'] + Unescape(s[6..])
    else if Text.StartsWith(s, "&#039;") then ['\''] + Unescape(s[6..])
    else [s[0]] + Unescape(s[1..])
  }

  /** Decoding an entity followed by more text yields its character first. */
  lemma UnescapeChar(c: char, t: string)
    ensures Unescape(EscapeChar(c) + t) == [c] + Unescape(t)
  {
    if c == '&' {
      UnescapeAmp(t);
    } else if c == '<' {
      UnescapeLt(t);
    } else if c == '>' {
      UnescapeGt(t);
    } else if c == '"' {
      UnescapeQuot(t);
    } else if c == '\'' {
      UnescapeApos(t);
    } else {
      UnescapeOther(c, t);
    }
  }

  /** A character that starts no entity decodes as itself. */
  lemma UnescapeOther(c: char, t: string)
    requires c != '&'
    ensures Unescape([c] + t) == [c] + Unescape(t)
  {
    var s := [c] + t;
    NotEntityStart(s, "&amp;");
    NotEntityStart(s, "&lt;");
    NotEntityStart(s, "&gt;");
    NotEntityStart(s, "&quot;");
    NotEntityStart(s, "&#039;");
    assert s[1..] == t;
  }

  /** A text whose first character differs from that of `p` does not start with `p`. */
  lemma NotEntityStart(s: string, p: string)
    requires |s| > 0 && |p| > 0 && s[0] != p[0]
    ensures !Text.StartsWith(s, p)
  {
    if |p| <= |s| {
      assert s[..|p|][0] == s[0];
    }
  }

  lemma UnescapeAmp(t: string)
    ensures Unescape("&amp;" + t) == ['&'] + Unescape(t)
  {
    var s := "&amp;" + t;
    assert s[..5] == "&amp;" && s[5..] == t;
  }

  lemma UnescapeLt(t: string)
    ensures Unescape("&lt;" + t) == ['<'] + Unescape(t)
  {
    var s := "&lt;" + t;
    assert s[1] == 'l';
    assert s[..4] == "&lt;" && s[4..] == t;
  }

  lemma UnescapeGt(t: string)
    ensures Unescape("&gt;" + t) == ['>'] + Unescape(t)
  {
    var s := "&gt;" + t;
    assert s[1] == 'g';
    assert s[..4] == "&gt;" && s[4..] == t;
  }

  lemma UnescapeQuot(t: string)
    ensures Unescape("&quot;" + t) == ['"'] + Unescape(t)
  {
    var s := "&quot;" + t;
    assert s[1] == 'q';
    assert s[..6] == "&quot;" && s[6..] == t;
  }

  lemma UnescapeApos(t: string)
    ensures Unescape("&#039;" + t) == ['\''] + Unescape(t)
  {
    var s := "&#039;" + t;
    assert s[1] == '#';
    assert s[..6] == "&#039;" && s[6..] == t;
  }

  /** Decoding the escaped text gives the text back: escaping loses nothing. */
  lemma {:induction false} UnescapeEscape(s: string)
    ensures Unescape(Escape(s)) == s
    decreases |s|
  {
    if |s| > 0 {
      UnescapeChar(s[0], Escape(s[1..]));
      UnescapeEscape(s[1..]);
      assert s == [s[0]] + s[1..];
    }
  }

  /** The page shows exactly the text of the value. */
  lemma EscapeHtmlReadsBack(rt: Runtime, v: JsValue)
    ensures Unescape(EscapeHtml(rt, v)) == ToStr(rt, Or(v, Str("")))
  {
    ChainIsOnePass(ToStr(rt, Or(v, Str(""))));
    UnescapeEscape(ToStr(rt, Or(v, Str(""))));
  }
}

=== FILE: js_core.dfy ===
/**
 * The slice of JavaScript's value semantics that the catalog code depends on:
 * dynamically typed values as JSON and the DOM hand them over, the operators `??`
 * and `||`, the conversions `String(v)` and `Number(v)`, and property reads, which
 * throw a TypeError on null and undefined.
 *
 * What the engine computes natively (case mapping, number parsing and printing,
 * percent-encoding) is not modelled: it is a `Runtime`, a record of functions every
 * operation takes as a parameter, so that each property holds whatever those
 * functions do.
 */
module JsCore {
  import opened Outcomes
  import Text

  /** The engine's built-ins, left uninterpreted. Numbers are finite reals; a parse
      that yields NaN returns None. */
  datatype Runtime = Runtime(
    upper: char -> char,                  // toUpperCase, character by character
    lower: char -> char,                  // toLowerCase, character by character
    toNumber: string -> Option<real>,     // Number(s)
    parseFloat: string -> Option<real>,   // parseFloat(s)
    numberToString: real -> string,       // String(n)
    encodeUri: string -> string,          // encodeURIComponent(s)
    formEncode: string -> string)         // how URLSearchParams serialises a name or value

  /** `s.toUpperCase()`. */
  function Upper(rt: Runtime, s: string): string {
    Text.MapChars(rt.upper, s)
  }

  /** `s.toLowerCase()`. */
  function Lower(rt: Runtime, s: string): string {
    Text.MapChars(rt.lower, s)
  }

  /** A JavaScript value. Arrays and objects are compared structurally here, where
      the engine compares them by identity; the modelled code only ever compares
      them with strings. */
  datatype JsValue =
    | Undefined
    | Null
    | Bool(b: bool)
    | Num(n: real)
    | NaN
    | Str(s: string)
    | Arr(items: seq<JsValue>)
    | Obj(fields: map<string, JsValue>)

  predicate IsNullish(v: JsValue) {
    v.Undefined? || v.Null?
  }

  /** `a ?? b`: only null and undefined count as absent. */
  function Coalesce(a: JsValue, b: JsValue): JsValue {
    if IsNullish(a) then b else a
  }

  /** JavaScript truthiness. */
  predicate Truthy(v: JsValue) {
    match v
    case Undefined => false
    case Null => false
    case Bool(b) => b
    case Num(n) => n != 0.0
    case NaN => false
    case Str(s) => s != ""
    case Arr(_) => true
    case Obj(_) => true
  }

  /** `a || b`. */
  function Or(a: JsValue, b: JsValue): JsValue {
    if Truthy(a) then a else b
  }

  /** `typeof v === "number"`. */
  predicate IsNumber(v: JsValue) {
    v.Num? || v.NaN?
  }

  /** A number as a value: `Num(n)`, or NaN when the parse failed. */
  function FromNumber(n: Option<real>): JsValue {
    match n
    case Some(x) => Num(x)
    case None => NaN
  }

  /** `String(v)` (also `v.toString()` and template interpolation `${v}`). An array
      prints as its elements joined by commas, null and undefined as empty. */
  function ToStr(rt: Runtime, v: JsValue): string
    decreases v
  {
    match v
    case Undefined => "undefined"
    case Null => "null"
    case Bool(b) => if b then "true" else "false"
    case Num(n) => rt.numberToString(n)
    case NaN => "NaN"
    case Str(s) => s
    case Arr(xs) =>
      Text.Join(seq(|xs|, i requires 0 <= i < |xs| =>
        if IsNullish(xs[i]) then "" else ToStr(rt, xs[i])), ",")
    case Obj(_) => "[object Object]"
  }

  /** `Number(v)`; None is NaN. Arrays and objects convert through their string form. */
  function ToNumber(rt: Runtime, v: JsValue): Option<real> {
    match v
    case Undefined => None
    case Null => Some(0.0)
    case Bool(b) => Some(if b then 1.0 else 0.0)
    case Num(n) => Some(n)
    case NaN => None
    case Str(s) => rt.toNumber(s)
    case Arr(_) => rt.toNumber(ToStr(rt, v))
    case Obj(_) => rt.toNumber(ToStr(rt, v))
  }

  /** `v[key]` on a value that is not null or undefined: an own field of an object,
      undefined otherwise (none of the keys the catalog reads exists on the
      prototypes of strings, numbers, booleans or arrays). */
  function Prop(v: JsValue, key: string): JsValue {
    match v
    case Obj(m) => if key in m then m[key] else Undefined
    case _ => Undefined
  }

  /** `v[key]` in general: reading a property of null or undefined throws. */
  function GetProp(v: JsValue, key: string): (r: Result<JsValue>)
    ensures r.TypeError? <==> IsNullish(v)
  {
    if IsNullish(v) then TypeError else Ok(Prop(v, key))
  }
}

=== FILE: lightbox.dfy ===
/**
 * The image viewer (js/lightbox.js): opened on a product, it steps through the
 * product list with the arrow keys, the two buttons and horizontal swipes, wrapping
 * around at both ends, and closes with Escape.
 *
 * The viewer's state is the list it steps through, the current index (`null` after
 * closing), whether it is visible, and the counter text. Showing a product reads
 * its `imagem` and `descricao`, which throws on a missing product; an event handler
 * that throws keeps whatever it assigned before the throw.
 */
module Lightbox {
  import opened Outcomes
  import opened JsCore
  import Text

  /** The current index: a number, `null` after closing (`Cleared`), or NaN once
      stepping through an empty list has divided by zero. */
  datatype Position = Cleared | At(i: int) | NotANumber

  datatype Viewer = Viewer(items: seq<JsValue>, index: Position, visible: bool, counter: string)

  /** An event's effect: the new state, and whether the handler threw. */
  datatype Step = Step(viewer: Viewer, threw: bool)

  /** The state when the page loads (js/lightbox.js:10-11). */
  const Initial: Viewer := Viewer([], At(0), false, "")

  /** How far a touch must travel to count as a swipe, in pixels. */
  const SwipeThreshold: real := 50.0

  /** The counter text (js/lightbox.js:24). */
  function Counter(i: nat, n: nat): string {
    "Imagem " + Text.Decimal(i + 1) + " de " + Text.Decimal(n)
  }

  /** JavaScript's `%` on integers: the remainder takes the sign of the dividend. */
  function JsRem(a: int, n: int): (r: int)
    requires n > 0
    ensures a >= 0 ==> 0 <= r < n && r == a % n
    ensures a < 0 ==> -n < r <= 0
    ensures (a - r) % n == 0
  {
    if a >= 0 then
      ModUnique(a - a % n, n, a / n, 0);
      a % n
    else
      ModUnique(a + (-a) % n, n, -((-a) / n), 0);
      -((-a) % n)
  }

  /** The remainder is the only one: `a == n * q + r` with `0 <= r < n` fixes `a % n`. */
  lemma ModUnique(a: int, n: int, q: int, r: int)
    requires n > 0 && 0 <= r < n && a == n * q + r
    ensures a % n == r
  {
    var q0, r0 := a / n, a % n;
    assert a == n * q0 + r0;
    assert n * (q - q0) == r0 - r;
    SmallMultiple(n, q - q0);
  }

  /** The only multiple of `n` strictly between `-n` and `n` is 0. */
  lemma SmallMultiple(n: int, k: int)
    requires n > 0 && -n < n * k < n
    ensures k == 0
  {
    if k >= 1 {
      assert n * k == n * (k - 1) + n;
      NonNegativeProduct(n, k - 1);
    } else if k <= -1 {
      assert n * k == -(n * (-k - 1)) - n;
      NonNegativeProduct(n, -k - 1);
    }
  }

  lemma NonNegativeProduct(a: int, b: int)
    requires a >= 0 && b >= 0
    ensures a * b >= 0
  {
  }

  /** `atualizarLightbox(produtosLightbox[i])` after `produtoAtualIndex = i`: a
      position holding a product shows it; anything else throws after the index was
      set. */
  function Show(v: Viewer, i: int): (s: Step)
    ensures s.viewer.items == v.items && s.viewer.index == At(i)
    ensures !s.threw <==> 0 <= i < |v.items| && !IsNullish(v.items[i])
    ensures !s.threw ==> s.viewer.visible && s.viewer.counter == Counter(i, |v.items|)
    ensures s.threw ==> s.viewer == v.(index := At(i))
  {
    if 0 <= i < |v.items| && !IsNullish(v.items[i]) then
      Step(v.(index := At(i), visible := true, counter := Counter(i, |v.items|)), false)
    else
      Step(v.(index := At(i)), true)
  }

  /** One step forward, `(i + 1) % n`, or back, `(i - 1 + n) % n`; `null` counts as
      0, and an empty list gives NaN, which then reads as no product. */
  function Move(v: Viewer, forward: bool): (s: Step)
    ensures s.viewer.items == v.items
    ensures |v.items| == 0 || v.index.NotANumber? ==> s.threw && s.viewer == v.(index := NotANumber)
    ensures v.index.At? && 0 <= v.index.i < |v.items| ==>
      s.viewer.index == At(if forward then Next(v.index.i, |v.items|) else Prev(v.index.i, |v.items|))
    ensures v.index.Cleared? && |v.items| > 0 ==>
      s.viewer.index == At(if forward then Next(0, |v.items|) else Prev(0, |v.items|))
    ensures s.viewer.index.At? && 0 <= s.viewer.index.i < |v.items| && !IsNullish(v.items[s.viewer.index.i]) ==>
      !s.threw && s.viewer.visible
  {
    var n := |v.items|;
    var i := match v.index case Cleared => 0 case At(k) => k case NotANumber => 0;
    if n == 0 || v.index.NotANumber? then
      Step(v.(index := NotANumber), true)
    else
      Show(v, if forward then JsRem(i + 1, n) else JsRem(i - 1 + n, n))
  }

  /** `fecharLightbox()` (js/lightbox.js:29-32). */
  function Close(v: Viewer): (w: Viewer)
    ensures !w.visible && w.index == Cleared && w.items == v.items
  {
    v.(visible := false, index := Cleared)
  }

  /** The keyboard handler (js/lightbox.js:35-47): ignored while hidden. */
  function Key(v: Viewer, key: string): (s: Step)
    ensures !v.visible ==> s == Step(v, false)
    ensures v.visible && key == "Escape" ==> s == Step(Close(v), false)
    ensures Valid(v) && v.visible && key == "ArrowRight" ==>
      !s.threw && s.viewer.visible && s.viewer.items == v.items && s.viewer.index == At(Next(v.index.i, |v.items|))
    ensures Valid(v) && v.visible && key == "ArrowLeft" ==>
      !s.threw && s.viewer.visible && s.viewer.items == v.items && s.viewer.index == At(Prev(v.index.i, |v.items|))
  {
    if !v.visible then Step(v, false)
    else if key == "Escape" then Step(Close(v), false)
    else if key == "ArrowRight" then Move(v, true)
    else if key == "ArrowLeft" then Move(v, false)
    else Step(v, false)
  }

  /** The previous and next buttons (js/lightbox.js:50-58), which do not look at
      whether the viewer is visible. */
  function Button(v: Viewer, forward: bool): (s: Step)
    ensures s.viewer.items == v.items
    ensures v.index.At? && 0 <= v.index.i < |v.items| && AllPresent(v.items) ==>
      (&& !s.threw && s.viewer.visible
       && s.viewer.index == At(if forward then Next(v.index.i, |v.items|) else Prev(v.index.i, |v.items|)))
  {
    Move(v, forward)
  }

  /** The end of a touch (js/lightbox.js:79-91): more than the threshold to the left
      steps forward, more than the threshold to the right steps back; ignored while
      hidden. */
  function Swipe(v: Viewer, startX: real, endX: real): (s: Step)
    ensures !v.visible ==> s == Step(v, false)
    ensures startX - SwipeThreshold <= endX <= startX + SwipeThreshold ==> s == Step(v, false)
    ensures Valid(v) && v.visible && endX < startX - SwipeThreshold ==>
      !s.threw && s.viewer.visible && s.viewer.items == v.items && s.viewer.index == At(Next(v.index.i, |v.items|))
    ensures Valid(v) && v.visible && endX > startX + SwipeThreshold ==>
      !s.threw && s.viewer.visible && s.viewer.items == v.items && s.viewer.index == At(Prev(v.index.i, |v.items|))
  {
    if !v.visible then Step(v, false)
    else if endX < startX - SwipeThreshold then Move(v, true)
    else if endX > startX + SwipeThreshold then Move(v, false)
    else Step(v, false)
  }

  /** `products.findIndex(p => p.nome === product.nome)`. Reading a name off a null
      record or a null product throws. */
  function FindByName(products: seq<JsValue>, product: JsValue): (r: Result<int>)
    ensures r.Ok? && r.value >= 0 ==>
      && r.value < |products| && StrictEquals(Prop(products[r.value], "nome"), Prop(product, "nome"))
      && forall j :: 0 <= j < r.value ==> !StrictEquals(Prop(products[j], "nome"), Prop(product, "nome"))
    ensures r.Ok? && r.value < 0 ==>
      (&& r.value == -1
       && forall j :: 0 <= j < |products| ==> !StrictEquals(Prop(products[j], "nome"), Prop(product, "nome")))
    ensures r.TypeError? <==>
      exists j :: (&& 0 <= j < |products| && (IsNullish(products[j]) || IsNullish(product))
                   && forall k :: 0 <= k < j ==> !StrictEquals(Prop(products[k], "nome"), Prop(product, "nome")))
  {
    if |products| == 0 then
      Ok(-1)
    else if IsNullish(products[0]) || IsNullish(product) then
      TypeError
    else if StrictEquals(Prop(products[0], "nome"), Prop(product, "nome")) then
      Ok(0)
    else
      var rest := FindByName(products[1..], product);
      assert forall j :: 1 <= j < |products| ==> products[j] == products[1..][j - 1];
      match rest
      case TypeError =>
        var j :| 0 <= j < |products[1..]| && (IsNullish(products[1..][j]) || IsNullish(product))
          && forall k :: 0 <= k < j ==> !StrictEquals(Prop(products[1..][k], "nome"), Prop(product, "nome"));
        assert forall k :: 0 <= k < j + 1 ==> !StrictEquals(Prop(products[k], "nome"), Prop(product, "nome"));
        TypeError
      case Ok(k) =>
        if k < 0 then Ok(-1) else Ok(k + 1)
  }

  /** `a === b` on the values a name can hold: NaN equals nothing. */
  predicate StrictEquals(a: JsValue, b: JsValue) {
    !a.NaN? && a == b
  }

  /** `abrirLightbox(product)` (js/lightbox.js:14-18): the viewer takes the whole
      product list and shows the first product with the same name. */
  function Open(v: Viewer, products: seq<JsValue>, product: JsValue): (s: Step)
    ensures s.viewer.items == products
    ensures FindByName(products, product).Ok? ==> s == Show(v.(items := products), FindByName(products, product).value)
    ensures FindByName(products, product).TypeError? ==> s == Step(v.(items := products), true)
  {
    var w := v.(items := products);
    match FindByName(products, product)
    case TypeError => Step(w, true)
    case Ok(k) => Show(w, k)
  }

  /* ---------------- properties ---------------- */

  predicate AllPresent(items: seq<JsValue>) {
    forall i :: 0 <= i < |items| ==> !IsNullish(items[i])
  }

  /** A consistent viewer over a list without holes: while visible, it shows a
      position of the list and the counter names it. */
  predicate Valid(v: Viewer) {
    && AllPresent(v.items)
    && (v.visible ==> v.index.At? && 0 <= v.index.i < |v.items| && v.counter == Counter(v.index.i, |v.items|))
  }

  /** The next and previous positions of a visible viewer. */
  function Next(i: nat, n: nat): (j: nat)
    requires i < n
    ensures j < n
  {
    (i + 1) % n
  }

  function Prev(i: nat, n: nat): (j: nat)
    requires i < n
    ensures j < n
  {
    (i - 1 + n) % n
  }

  lemma ModBelow(a: int, n: int)
    requires 0 <= a < n
    ensures a % n == a
  {
  }

  lemma ModOnce(a: int, n: int)
    requires 0 < n <= a < 2 * n
    ensures a % n == a - n
  {
    assert a == n * 1 + (a - n);
  }

  /** Stepping back undoes stepping forward, and the other way round. */
  lemma PrevUndoesNext(i: nat, n: nat)
    requires i < n
    ensures Prev(Next(i, n), n) == i && Next(Prev(i, n), n) == i
  {
    var j := if i + 1 < n then i + 1 else 0;
    if i + 1 < n {
      ModBelow(i + 1, n);
      ModOnce(i + n, n);
    } else {
      ModOnce(i + 1, n);
      ModBelow(n - 1, n);
    }
    assert Next(i, n) == j;
    var k := if i > 0 then i - 1 else n - 1;
    if i > 0 {
      ModOnce(i - 1 + n, n);
      ModBelow(i, n);
    } else {
      ModBelow(n - 1, n);
      ModOnce(n, n);
    }
    assert Prev(i, n) == k;
  }

  /** On a visible, consistent viewer a step never throws and lands on the next or
      previous position. */
  lemma MoveVisible(v: Viewer, forward: bool)
    requires Valid(v) && v.visible
    ensures var s := Move(v, forward);
      && !s.threw && Valid(s.viewer) && s.viewer.visible
      && s.viewer.index == At(if forward then Next(v.index.i, |v.items|) else Prev(v.index.i, |v.items|))
  {
  }

  /** Every event keeps a viewer consistent; on a visible viewer the keys and swipes
      never throw. */
  lemma EventsKeepValid(v: Viewer, key: string, startX: real, endX: real, forward: bool)
    requires Valid(v)
    ensures Valid(Key(v, key).viewer) && !Key(v, key).threw
    ensures Valid(Swipe(v, startX, endX).viewer) && !Swipe(v, startX, endX).threw
    ensures Valid(Button(v, forward).viewer)
    ensures Valid(Close(v))
  {
    if v.visible {
      MoveVisible(v, true);
      MoveVisible(v, false);
    }
  }

  /** Opening on a list without holes keeps the viewer consistent. Products are
      clicked on the page behind the viewer, so it is hidden when one is opened. */
  lemma OpenKeepsValid(v: Viewer, products: seq<JsValue>, product: JsValue)
    requires Valid(v) && !v.visible && AllPresent(products)
    ensures Valid(Open(v, products, product).viewer)
  {
  }

  /** The left arrow undoes the right arrow, and the other way round. */
  lemma ArrowsUndo(v: Viewer)
    requires Valid(v) && v.visible
    ensures Key(Key(v, "ArrowRight").viewer, "ArrowLeft").viewer == v
    ensures Key(Key(v, "ArrowLeft").viewer, "ArrowRight").viewer == v
  {
    MoveVisible(v, true);
    MoveVisible(v, false);
    PrevUndoesNext(v.index.i, |v.items|);
    MoveVisible(Move(v, true).viewer, false);
    MoveVisible(Move(v, false).viewer, true);
  }
}

=== FILE: login.dfy ===
/**
 * The login form (js/login.js): the trimmed name and password are looked up in the
 * stored user list; the first user matching both is logged in and sent to the page
 * of its level.
 */
module Login {
  import opened Outcomes
  import Text
  import Seqs
  import opened Users

  /** Where a successful login leads. An unknown level only raises an alert, after
      the name has already been stored as logged in. */
  datatype Route = AdminPage | EditorPage | UnknownLevel

  /** What the form leaves behind: on success, the name stored under
      "usuarioLogado" and the route; on failure, the error message shown and
      nothing stored. */
  datatype LoginOutcome = Rejected | LoggedIn(usuario: string, route: Route)

  /** A user whose name and password are both the given ones. */
  predicate Matches(u: User, name: string, password: string) {
    u.usuario == name && u.senha == password
  }

  /** `users.find(u => u.usuario === name && u.senha === password)`, as an index. */
  function FindCredentials(users: seq<User>, name: string, password: string): (r: Option<nat>)
    ensures r.None? <==> forall i :: 0 <= i < |users| ==> !Matches(users[i], name, password)
    ensures r.Some? ==> r.value < |users| && Matches(users[r.value], name, password)
    ensures r.Some? ==> forall j :: 0 <= j < r.value ==> !Matches(users[j], name, password)
  {
    if |users| == 0 then None
    else if Matches(users[0], name, password) then Some(0)
    else
      match FindCredentials(users[1..], name, password)
      case None =>
        assert forall j :: 1 <= j < |users| ==> users[j] == users[1..][j - 1];
        None
      case Some(k) =>
        assert users[k + 1] == users[1..][k];
        Some(k + 1)
  }

  /** The route of a level: "admin" and "editor" have their pages. */
  function RouteOf(level: string): (r: Route)
    ensures r == AdminPage <==> level == "admin"
    ensures r == EditorPage <==> level == "editor"
  {
    if level == "admin" then AdminPage
    else if level == "editor" then EditorPage
    else UnknownLevel
  }

  /** The submit handler (js/login.js:1-25). */
  function SubmitLogin(stored: Option<seq<User>>, nameInput: string, passwordInput: string): (r: LoginOutcome)
    ensures var users := Seqs.Load(stored);
      var name, password := Text.Trim(nameInput), Text.Trim(passwordInput);
      && (r.LoggedIn? <==> exists i :: 0 <= i < |users| && Matches(users[i], name, password))
      && (r.LoggedIn? ==> r.usuario == name)
  {
    var users := Seqs.Load(stored);
    match FindCredentials(users, Text.Trim(nameInput), Text.Trim(passwordInput))
    case None => Rejected
    case Some(k) => LoggedIn(users[k].usuario, RouteOf(users[k].nivel))
  }

  /** The route comes from the level of the first user matching both fields. */
  lemma LoginRoute(stored: Option<seq<User>>, nameInput: string, passwordInput: string)
    requires SubmitLogin(stored, nameInput, passwordInput).LoggedIn?
    ensures var users := Seqs.Load(stored);
      var name, password := Text.Trim(nameInput), Text.Trim(passwordInput);
      exists i :: 0 <= i < |users| && Matches(users[i], name, password)
        && (forall j :: 0 <= j < i ==> !Matches(users[j], name, password))
        && SubmitLogin(stored, nameInput, passwordInput).route == RouteOf(users[i].nivel)
  {
    var users := Seqs.Load(stored);
    var k := FindCredentials(users, Text.Trim(nameInput), Text.Trim(passwordInput)).value;
    assert Matches(users[k], Text.Trim(nameInput), Text.Trim(passwordInput));
  }

  /** With unique names, the user logged in is the one with that name, so the level
      the login routes by is that user's level. */
  lemma LoginRoutesByOwnLevel(stored: Option<seq<User>>, nameInput: string, passwordInput: string, i: nat)
    requires UniqueNames(Seqs.Load(stored))
    requires i < |Seqs.Load(stored)| && Matches(Seqs.Load(stored)[i], Text.Trim(nameInput), Text.Trim(passwordInput))
    ensures SubmitLogin(stored, nameInput, passwordInput) ==
      LoggedIn(Seqs.Load(stored)[i].usuario, RouteOf(Seqs.Load(stored)[i].nivel))
  {
    var users := Seqs.Load(stored);
    var k := FindCredentials(users, Text.Trim(nameInput), Text.Trim(passwordInput));
    assert k.Some?;
    assert k.value == i;
  }
}

=== FILE: normalize.dfy ===
/**
 * Product normalisation (script.js:108-125): records with English or Portuguese
 * keys, fields possibly missing, become canonical products. Each canonical field
 * has an ordered list of accepted keys, tried left to right with `??`, and a
 * default when none is present.
 */
module Normalize {
  import opened Outcomes
  import opened JsCore
  import Text

  /** A canonical product. `code` is absent until the code assigner has run
      over the whole batch. */
  datatype Product = Product(
    id: JsValue,
    name: JsValue,
    description: JsValue,
    category: JsValue,
    price: real,
    image: string,
    code: Option<string>)

  const IdKeys: seq<string> := ["id", "ID", "_id"]
  const NameKeys: seq<string> := ["name", "nome", "title"]
  const DescriptionKeys: seq<string> := ["description", "descricao", "desc"]
  const CategoryKeys: seq<string> := ["category", "categoria"]
  const PriceKeys: seq<string> := ["price", "preco", "valor"]
  const ImageKeys: seq<string> := ["image", "imagem", "photo"]

  const FallbackCategory: string := "Personalizados"

  /** `keys[k]` is the first key whose value in `it` is neither null nor undefined. */
  ghost predicate FirstPresentAt(it: JsValue, keys: seq<string>, k: int) {
    && 0 <= k < |keys|
    && !IsNullish(Prop(it, keys[k]))
    && forall j :: 0 <= j < k ==> IsNullish(Prop(it, keys[j]))
  }

  /** `it[keys[0]] ?? it[keys[1]] ?? ... ?? fallback`. */
  function FirstPresent(it: JsValue, keys: seq<string>, fallback: JsValue): (r: JsValue)
    ensures forall k :: FirstPresentAt(it, keys, k) ==> r == Prop(it, keys[k])
    ensures (forall k :: 0 <= k < |keys| ==> IsNullish(Prop(it, keys[k]))) ==> r == fallback
    decreases |keys|
  {
    if |keys| == 0 then
      fallback
    else
      var rest := FirstPresent(it, keys[1..], fallback);
      assert forall k :: 1 <= k < |keys| && FirstPresentAt(it, keys, k) ==>
        FirstPresentAt(it, keys[1..], k - 1);
      Coalesce(Prop(it, keys[0]), rest)
  }

  /** A present fallback makes the field present. */
  lemma {:induction false} FallbackKeepsPresent(it: JsValue, keys: seq<string>, fallback: JsValue)
    requires !IsNullish(fallback)
    ensures !IsNullish(FirstPresent(it, keys, fallback))
    decreases |keys|
  {
    if |keys| > 0 {
      FallbackKeepsPresent(it, keys[1..], fallback);
    }
  }

  /** The record built for element `idx` of the input (script.js:117-123). */
  function NormalizeOne(rt: Runtime, it: JsValue, idx: nat): (p: Product)
    ensures !IsNullish(p.id) && !IsNullish(p.name) && !IsNullish(p.description) && !IsNullish(p.category)
    ensures p.code.None?
  {
    Build(rt, it, "ext-" + Text.Decimal(idx), "Produto " + Text.Decimal(idx + 1))
  }

  /** The record read off `it`, with the given default id and name. */
  function Build(rt: Runtime, it: JsValue, defaultId: string, defaultName: string): (p: Product)
    ensures !IsNullish(p.id) && !IsNullish(p.name) && !IsNullish(p.description) && !IsNullish(p.category)
    ensures p.code.None?
  {
    var id := FirstPresent(it, IdKeys, Str(defaultId));
    var name := FirstPresent(it, NameKeys, Str(defaultName));
    var description := FirstPresent(it, DescriptionKeys, Str(""));
    var category := FirstPresent(it, CategoryKeys, Str(FallbackCategory));
    var priceValue := FirstPresent(it, PriceKeys, Num(0.0));
    var imageValue := FirstPresent(it, ImageKeys, Str(""));
    FallbackKeepsPresent(it, IdKeys, Str(defaultId));
    FallbackKeepsPresent(it, NameKeys, Str(defaultName));
    FallbackKeepsPresent(it, DescriptionKeys, Str(""));
    FallbackKeepsPresent(it, CategoryKeys, Str(FallbackCategory));
    Product(
      id := id,
      name := name,
      description := description,
      category := category,
      price := ToNumber(rt, priceValue).GetOr(0.0),   // Number(..) || 0: NaN and 0 both give 0
      image := Text.Trim(ToStr(rt, imageValue)),
      code := None)
  }

  /** `xs.map((it, i) => build(it, i))` with indices counted from `start`, for a
      callback that reads a property of its element first: the first element that is
      null or undefined throws, and nothing is returned. */
  function MapReading<T>(xs: seq<JsValue>, start: nat, build: (JsValue, nat) -> T): (r: Result<seq<T>>)
    ensures r.Ok? <==> forall i :: 0 <= i < |xs| ==> !IsNullish(xs[i])
    ensures r.Ok? ==> |r.value| == |xs|
    ensures r.Ok? ==> forall i :: 0 <= i < |xs| ==> r.value[i] == build(xs[i], start + i)
    decreases |xs|
  {
    if |xs| == 0 then
      Ok([])
    else if IsNullish(xs[0]) then
      TypeError
    else
      var tail := MapReading(xs[1..], start + 1, build);
      assert forall i :: 1 <= i < |xs| ==> xs[i] == xs[1..][i - 1];
      match tail
      case TypeError => TypeError
      case Ok(rest) =>
        var r := [build(xs[0], start)] + rest;
        assert forall i :: 1 <= i < |xs| ==> r[i] == rest[i - 1];
        Ok(r)
  }

  /** `normalizeProductsArray(arr)` (script.js:114-125). Anything but an array gives
      the empty list; an array gives one product per element, in order, element `i`
      built by `NormalizeOne` with index `i`, unless an element is null or undefined. */
  function NormalizeProducts(rt: Runtime, arr: JsValue): (r: Result<seq<Product>>)
    ensures !arr.Arr? ==> r == Ok([])
    ensures arr.Arr? ==> (r.Ok? <==> forall i :: 0 <= i < |arr.items| ==> !IsNullish(arr.items[i]))
    ensures arr.Arr? && r.Ok? ==> |r.value| == |arr.items|
    ensures arr.Arr? && r.Ok? ==>
      forall i :: 0 <= i < |arr.items| ==> r.value[i] == NormalizeOne(rt, arr.items[i], i)
  {
    if !arr.Arr? then Ok([]) else MapReading(arr.items, 0, (it, i) => NormalizeOne(rt, it, i))
  }

  /** What each canonical field holds, key by key, in the source's priority order:
      the first alias that is neither null nor undefined wins (an empty string or a
      zero counts as present), and the default applies only when every alias is
      absent. The price is never NaN: a value that does not convert gives 0. The
      image is trimmed. */
  lemma NormalizeOneFields(rt: Runtime, it: JsValue, idx: nat)
    requires !IsNullish(it)
    ensures var p := NormalizeOne(rt, it, idx);
      && p.id == (if !IsNullish(Prop(it, "id")) then Prop(it, "id")
                  else if !IsNullish(Prop(it, "ID")) then Prop(it, "ID")
                  else if !IsNullish(Prop(it, "_id")) then Prop(it, "_id")
                  else Str("ext-" + Text.Decimal(idx)))
      && p.name == (if !IsNullish(Prop(it, "name")) then Prop(it, "name")
                    else if !IsNullish(Prop(it, "nome")) then Prop(it, "nome")
                    else if !IsNullish(Prop(it, "title")) then Prop(it, "title")
                    else Str("Produto " + Text.Decimal(idx + 1)))
      && p.description == (if !IsNullish(Prop(it, "description")) then Prop(it, "description")
                           else if !IsNullish(Prop(it, "descricao")) then Prop(it, "descricao")
                           else if !IsNullish(Prop(it, "desc")) then Prop(it, "desc")
                           else Str(""))
      && p.category == (if !IsNullish(Prop(it, "category")) then Prop(it, "category")
                        else if !IsNullish(Prop(it, "categoria")) then Prop(it, "categoria")
                        else Str(FallbackCategory))
      && p.code.None?
  {
    var p := NormalizeOne(rt, it, idx);
    IdKeysFirstPresent(it, IdKeys);
    IdKeysFirstPresent(it, NameKeys);
    IdKeysFirstPresent(it, DescriptionKeys);
    CategoryKeysFirstPresent(it);
  }

  lemma IdKeysFirstPresent(it: JsValue, keys: seq<string>)
    requires |keys| == 3
    ensures !IsNullish(Prop(it, keys[0])) ==> FirstPresentAt(it, keys, 0)
    ensures IsNullish(Prop(it, keys[0])) && !IsNullish(Prop(it, keys[1])) ==> FirstPresentAt(it, keys, 1)
    ensures IsNullish(Prop(it, keys[0])) && IsNullish(Prop(it, keys[1])) && !IsNullish(Prop(it, keys[2])) ==>
      FirstPresentAt(it, keys, 2)
  {
  }

  lemma CategoryKeysFirstPresent(it: JsValue)
    ensures !IsNullish(Prop(it, "category")) ==> FirstPresentAt(it, CategoryKeys, 0)
    ensures IsNullish(Prop(it, "category")) && !IsNullish(Prop(it, "categoria")) ==>
      FirstPresentAt(it, CategoryKeys, 1)
  {
  }

  /** The price is the numeric value of the first price alias present (0 when none
      is), and 0 whenever that value does not convert to a number. */
  lemma NormalizeOnePrice(rt: Runtime, it: JsValue, idx: nat)
    requires !IsNullish(it)
    ensures var p := NormalizeOne(rt, it, idx);
      var v := if !IsNullish(Prop(it, "price")) then Prop(it, "price")
               else if !IsNullish(Prop(it, "preco")) then Prop(it, "preco")
               else if !IsNullish(Prop(it, "valor")) then Prop(it, "valor")
               else Num(0.0);
      && (ToNumber(rt, v).None? ==> p.price == 0.0)
      && (ToNumber(rt, v).Some? ==> p.price == ToNumber(rt, v).value)
  {
    IdKeysFirstPresent(it, PriceKeys);
  }

  /** The image is the string form of the first image alias present, with no
      whitespace left at either end. */
  lemma NormalizeOneImage(rt: Runtime, it: JsValue, idx: nat)
    requires !IsNullish(it)
    ensures var p := NormalizeOne(rt, it, idx);
      var v := if !IsNullish(Prop(it, "image")) then Prop(it, "image")
               else if !IsNullish(Prop(it, "imagem")) then Prop(it, "imagem")
               else if !IsNullish(Prop(it, "photo")) then Prop(it, "photo")
               else Str("");
      && p.image == Text.Trim(ToStr(rt, v))
      && (|p.image| == 0 || (!Text.IsJsSpace(p.image[0]) && !Text.IsJsSpace(p.image[|p.image| - 1])))
  {
    IdKeysFirstPresent(it, ImageKeys);
  }
}

=== FILE: outcomes.dfy ===
/**
 * Absence and failure, as the catalog's JavaScript expresses them.
 * - Option<T>: a value that may be missing (null, undefined, NaN, an unset key).
 * - Result<T>: a computation that either returns or throws the one exception the
 *   modelled code can raise, a TypeError (reading a property of null/undefined, or
 *   calling a string method on a value that is not a string).
 */
module Outcomes {

  datatype Option<T> = None | Some(value: T) {

    /** The wrapped value, or `default` when absent (`x ?? default`, `x || []`). */
    function GetOr(default: T): T {
      match this
      case Some(v) => v
      case None => default
    }
  }

  datatype Result<T> = Ok(value: T) | TypeError
}

=== FILE: product_codes.dfy ===
/**
 * The product-code assigner (script.js:27-80). Every product of a batch gets a code
 * `<acronym>-<number>`: the acronym comes from its category, the number is the first
 * digit run of its id (or its position), zero-padded to four digits. The first
 * product with a given base code keeps it bare; the k-th repeat gets `-` and the
 * character with code 64 + k appended (A, B, ...).
 */
module ProductCodes {
  import opened Outcomes
  import opened JsCore
  import Text
  import Seqs
  import opened Normalize

  /** The acronym used when the category yields none. */
  const DefaultAcronym: string := "PRD"

  /** The width `zeroPad` pads the number to. */
  const CodeWidth: nat := 4

  /** The character class `[A-Za-zÀ-ÿ]`: ASCII letters and U+00C0 to U+00FF. */
  predicate IsAcronymLetter(c: char) {
    ('A' <= c <= 'Z') || ('a' <= c <= 'z') || ('\U{C0}' <= c <= '\U{FF}')
  }

  /** `s.slice(0, n)`. */
  function Take(s: string, n: nat): (r: string)
    ensures |r| == if |s| < n then |s| else n
    ensures r == s[..|r|]
  {
    if |s| < n then s else s[..n]
  }

  /** The first character of each of the first three words. */
  function Initials(words: seq<string>): (r: string)
    requires forall i :: 0 <= i < |words| ==> |words[i]| > 0
    ensures |r| == if |words| < 3 then |words| else 3
    ensures forall i :: 0 <= i < |r| ==> r[i] == words[i][0]
  {
    var n := if |words| < 3 then |words| else 3;
    seq(n, i requires 0 <= i < n => words[i][0])
  }

  /** `categoryAcronym(cat)` (script.js:35-44). */
  function CategoryAcronym(rt: Runtime, cat: JsValue): (r: string)
    ensures 1 <= |r| <= 3
    ensures !Truthy(cat) ==> r == DefaultAcronym
    ensures Truthy(cat) && Text.AllSpace(ToStr(rt, cat)) ==> r == DefaultAcronym
  {
    if !Truthy(cat) then
      DefaultAcronym
    else
      var words := Text.Words(ToStr(rt, cat));
      if |words| == 0 then
        DefaultAcronym
      else if |words| == 1 then
        OneWordAcronym(rt, words[0])
      else
        Upper(rt, Initials(words))
  }

  /** The acronym of a one-word category: `filtered.slice(0, 3).toUpperCase() || 'PRD'`
      where `filtered` keeps the characters in `[A-Za-zÀ-ÿ]`. */
  function OneWordAcronym(rt: Runtime, w: string): (r: string)
    ensures 1 <= |r| <= 3
  {
    var head := Upper(rt, Take(Seqs.Filter(w, IsAcronymLetter), 3));
    if |head| == 0 then DefaultAcronym else head
  }

  /** A single word: the upper-cased first three of its letters in `[A-Za-zÀ-ÿ]`,
      in their order in the word, or the default when it has none. */
  lemma AcronymOfOneWord(rt: Runtime, w: string)
    ensures var letters := Seqs.Filter(w, IsAcronymLetter);
      |letters| == 0 <==> forall i :: 0 <= i < |w| ==> !IsAcronymLetter(w[i])
    ensures Seqs.Filter(w, IsAcronymLetter) == [] ==> OneWordAcronym(rt, w) == DefaultAcronym
    ensures var letters := Seqs.Filter(w, IsAcronymLetter);
      var r := OneWordAcronym(rt, w);
      |letters| > 0 ==>
        && |r| == (if |letters| < 3 then |letters| else 3)
        && forall i :: 0 <= i < |r| ==> r[i] == rt.upper(letters[i])
    ensures Seqs.IsSubseq(Take(Seqs.Filter(w, IsAcronymLetter), 3), w)
  {
    var letters := Seqs.Filter(w, IsAcronymLetter);
    Seqs.FilterEmpty(w, IsAcronymLetter);
    Seqs.FilterIsSubseq(w, IsAcronymLetter);
    var idx :| Seqs.EmbedsAt(letters, w, idx);
    var t := Take(letters, 3);
    assert Seqs.EmbedsAt(t, w, idx[..|t|]);
  }

  /** Several words: the upper-cased first characters of the first three words,
      whatever those characters are (no letter filtering). */
  lemma AcronymOfSeveralWords(rt: Runtime, cat: JsValue)
    requires Truthy(cat) && |Text.Words(ToStr(rt, cat))| >= 2
    ensures var ws := Text.Words(ToStr(rt, cat));
      var r := CategoryAcronym(rt, cat);
      && |r| == (if |ws| < 3 then |ws| else 3)
      && forall i :: 0 <= i < |r| ==> r[i] == rt.upper(ws[i][0])
  {
  }

  /** The number of a code: the value of the first digit run of `String(id)`, or the
      position plus one when the id is null, undefined or has no digit. */
  function BaseNumber(rt: Runtime, p: Product, i: nat): (n: nat)
    ensures IsNullish(p.id) ==> n == i + 1
    ensures !IsNullish(p.id) && (forall k :: 0 <= k < |ToStr(rt, p.id)| ==> !Text.IsDigit(ToStr(rt, p.id)[k])) ==>
      n == i + 1
    ensures !IsNullish(p.id) ==> forall k, d :: Text.FirstDigitRunAt(ToStr(rt, p.id), k, d) && |d| > 0 ==>
      n == Text.DigitsValue(d)
  {
    if IsNullish(p.id) then
      i + 1
    else
      var s := ToStr(rt, p.id);
      match Text.FirstDigitRun(s)
      case None => i + 1
      case Some(d) =>
        forall k, d' | Text.FirstDigitRunAt(s, k, d') && |d'| > 0
          ensures d' == d
        {
          var k0 :| Text.FirstDigitRunAt(s, k0, d);
          Text.FirstDigitRunUnique(s, k0, d, k, d');
        }
        Text.DigitsValue(d)
  }

  /** The code before collision handling: `${prefix}-${zeroPad(n, 4)}` with
      `prefix = categoryAcronym(p.category || 'PRD')`. */
  function BaseCode(rt: Runtime, p: Product, i: nat): (b: string)
    ensures |b| >= 2 + CodeWidth
    ensures Text.IsDigit(b[|b| - 1])
    ensures exists a :: 1 <= |a| <= 3 && b[..|a| + 1] == a + "-"
    ensures exists d :: (&& Text.AllDigits(d) && |d| >= CodeWidth
                         && b == CategoryAcronym(rt, Or(p.category, Str(DefaultAcronym))) + "-" + d
                         && Text.DigitsValue(d) == BaseNumber(rt, p, i))
  {
    var a := CategoryAcronym(rt, Or(p.category, Str(DefaultAcronym)));
    var n := Text.Decimal(BaseNumber(rt, p, i));
    var digits := Text.ZeroPad(n, CodeWidth);
    Text.ZeroPadValue(n, CodeWidth);
    CodeShape(a, digits);
    a + "-" + digits
  }

  /** An acronym, a dash and at least four digits make a code of the expected shape. */
  lemma CodeShape(a: string, d: string)
    requires 1 <= |a| <= 3 && Text.AllDigits(d) && |d| >= CodeWidth
    ensures var b := a + "-" + d;
      && |b| >= 2 + CodeWidth && Text.IsDigit(b[|b| - 1]) && b[..|a| + 1] == a + "-"
  {
    var b := a + "-" + d;
    assert b[..|a| + 1] == a + "-";
    assert b[|b| - 1] == d[|d| - 1];
  }

  /** The base codes of a batch, position by position. */
  function Bases(rt: Runtime, ps: seq<Product>): (bs: seq<string>)
    ensures |bs| == |ps|
    ensures forall i :: 0 <= i < |ps| ==> bs[i] == BaseCode(rt, ps[i], i)
  {
    seq(|ps|, i requires 0 <= i < |ps| => BaseCode(rt, ps[i], i))
  }

  /** A base code is usable when it ends in a digit, as every `BaseCode` does. */
  predicate EndsInDigit(b: string) {
    |b| > 0 && Text.IsDigit(b[|b| - 1])
  }

  /** How many times `b` occurs among the first `i` base codes. */
  function Seen(bases: seq<string>, i: nat, b: string): nat
    requires i <= |bases|
  {
    multiset(bases[..i])[b]
  }

  /** The largest batch whose suffix characters `64 + k` are all below the surrogate
      range, so that each is a single character. */
  const MaxBatch: nat := 0xD800 - 64

  /** `String.fromCharCode(64 + k)`. */
  function SuffixChar(k: nat): (c: char)
    requires 1 <= k < MaxBatch
    ensures 'A' <= c && !Text.IsDigit(c)
  {
    (64 + k) as char
  }

  /** The code of position `i`: the bare base for its first occurrence, the base with
      `-` and the suffix character of its repeat count otherwise. */
  function CodeFor(bases: seq<string>, i: nat): (c: string)
    requires i < |bases| <= MaxBatch
    ensures Seen(bases, i, bases[i]) == 0 ==> c == bases[i]
    ensures Seen(bases, i, bases[i]) > 0 ==>
      c == bases[i] + "-" + [SuffixChar(Seen(bases, i, bases[i]))]
  {
    var k := Seen(bases, i, bases[i]);
    assert k <= |bases[..i]|;
    if k == 0 then bases[i] else bases[i] + "-" + [SuffixChar(k)]
  }

  /** The collision handling of `assignProductCodes` (script.js:53-76) over the
      batch's base codes: a running count per base code, kept in a map. */
  method SuffixCodes(bases: seq<string>) returns (codes: seq<string>)
    requires |bases| <= MaxBatch
    ensures |codes| == |bases|
    ensures forall i :: 0 <= i < |bases| ==> codes[i] == CodeFor(bases, i)
  {
    var seen: map<string, nat> := map[];
    codes := [];
    var i := 0;
    while i < |bases|
      invariant 0 <= i <= |bases|
      invariant |codes| == i
      invariant forall j :: 0 <= j < i ==> codes[j] == CodeFor(bases, j)
      invariant forall b :: b in seen <==> Seen(bases, i, b) > 0
      invariant forall b :: b in seen ==> seen[b] == Seen(bases, i, b) - 1
    {
      var base := bases[i];
      var candidate := base;
      if base in seen {
        var n := seen[base] + 1;
        assert n == Seen(bases, i, base) && n <= i;
        seen := seen[base := n];
        candidate := base + "-" + [SuffixChar(n)];
      } else {
        seen := seen[base := 0];
      }
      assert candidate == CodeFor(bases, i);
      SeenStep(bases, i);
      codes := codes + [candidate];
      i := i + 1;
    }
  }

  /** `assignProductCodes(products)` (script.js:51-80), returning the batch with its
      codes instead of writing `p.code` in place: every product keeps all its other
      fields and gets the code of its position. */
  method AssignProductCodes(rt: Runtime, ps: seq<Product>) returns (r: seq<Product>)
    requires |ps| <= MaxBatch
    ensures |r| == |ps|
    ensures forall i :: 0 <= i < |ps| ==> r[i] == ps[i].(code := Some(CodeFor(Bases(rt, ps), i)))
  {
    var bases := Bases(rt, ps);
    var codes := SuffixCodes(bases);
    r := seq(|ps|, i requires 0 <= i < |ps| => ps[i].(code := Some(codes[i])));
  }

  /** One more position counts its own base code once more and nothing else. */
  lemma SeenStep(bases: seq<string>, i: nat)
    requires i < |bases|
    ensures forall b :: Seen(bases, i + 1, b) == Seen(bases, i, b) + (if b == bases[i] then 1 else 0)
  {
    assert bases[..i + 1] == bases[..i] + [bases[i]];
  }

  lemma SeenGrows(bases: seq<string>, i: nat, j: nat)
    requires i < j <= |bases|
    ensures Seen(bases, j, bases[i]) >= Seen(bases, i, bases[i]) + 1
  {
    assert bases[..j] == bases[..i] + bases[i..j];
    assert bases[i] in bases[i..j];
  }

  /** Codes within a batch are pairwise distinct, whatever the categories and ids. */
  lemma CodesDistinct(bases: seq<string>, i: nat, j: nat)
    requires i < j < |bases| <= MaxBatch
    requires EndsInDigit(bases[i]) && EndsInDigit(bases[j])
    ensures CodeFor(bases, i) != CodeFor(bases, j)
  {
    var ki := Seen(bases, i, bases[i]);
    var kj := Seen(bases, j, bases[j]);
    var ci := CodeFor(bases, i);
    var cj := CodeFor(bases, j);
    if bases[i] == bases[j] {
      SeenGrows(bases, i, j);
      if ki > 0 {
        assert ci[|ci| - 1] == SuffixChar(ki) != SuffixChar(kj) == cj[|cj| - 1];
      } else {
        assert ci[|ci| - 1] != cj[|cj| - 1];
      }
    } else if ki == 0 && kj == 0 {
    } else if ki == 0 {
      assert ci[|ci| - 1] == bases[i][|bases[i]| - 1];
      assert cj[|cj| - 1] == SuffixChar(kj);
    } else if kj == 0 {
      assert ci == bases[i] + "-" + [SuffixChar(ki)];
      assert cj == bases[j];
      assert ci[|ci| - 1] == SuffixChar(ki);
      assert Text.IsDigit(cj[|cj| - 1]);
    } else {
      assert ci[..|ci| - 2] == bases[i];
      assert cj[..|cj| - 2] == bases[j];
    }
  }

  /** Every code of a batch differs from every other one. */
  lemma AssignedCodesDistinct(rt: Runtime, ps: seq<Product>, r: seq<Product>)
    requires |ps| <= MaxBatch
    requires |r| == |ps|
    requires forall i :: 0 <= i < |ps| ==> r[i] == ps[i].(code := Some(CodeFor(Bases(rt, ps), i)))
    ensures forall i, j :: 0 <= i < j < |r| ==> r[i].code != r[j].code
  {
    var bases := Bases(rt, ps);
    forall i, j | 0 <= i < j < |r|
      ensures r[i].code != r[j].code
    {
      CodesDistinct(bases, i, j);
    }
  }

  /** A code is its base code, followed by a suffix exactly when an earlier product
      of the batch has the same base code. */
  lemma CodeExtendsBase(bases: seq<string>, i: nat)
    requires i < |bases| <= MaxBatch
    ensures var c := CodeFor(bases, i);
      && c[..|bases[i]|] == bases[i]
      && (c == bases[i] <==> bases[i] !in bases[..i])
      && (c != bases[i] ==> |c| == |bases[i]| + 2 && c[|bases[i]|] == '-' && 'A' <= c[|c| - 1])
  {
    var c := CodeFor(bases, i);
    if bases[i] in bases[..i] {
      assert Seen(bases, i, bases[i]) > 0;
      assert |c| == |bases[i]| + 2;
    }
  }

  /** Appending products to a batch leaves the codes of the earlier ones as they were:
      a code depends on the product and on those before it only. */
  lemma CodesStableUnderAppend(rt: Runtime, ps: seq<Product>, more: seq<Product>, i: nat)
    requires i < |ps| && |ps + more| <= MaxBatch
    ensures CodeFor(Bases(rt, ps + more), i) == CodeFor(Bases(rt, ps), i)
  {
    var a := Bases(rt, ps + more);
    var b := Bases(rt, ps);
    assert a[..i] == b[..i];
    assert a[i] == b[i];
  }
}

=== FILE: product_edits.dfy ===
/**
 * Edits to the product list stored under "produtos": the administration page
 * (js/admin.js) saves a card back over its product or deletes it, the registration
 * page (js/cadastro.js) appends a new product. The stored list is a value (`None`
 * when nothing is stored, read as the empty list); each edit returns the whole list
 * that is then persisted under "produtos". Serialising it as JSON is left out.
 */
module ProductEdits {
  import opened Outcomes
  import opened JsCore
  import Text
  import Seqs

  /** The storage key every edit writes. */
  const ProductsKey: string := "produtos"

  /** The form fields of a product as the inputs hold them. */
  datatype ProductForm = ProductForm(nome: string, descricao: string, categoria: string, preco: string, imagem: string)

  /** A stored product record with exactly the five fields. */
  function Record(nome: string, descricao: string, categoria: string, preco: Option<real>, imagem: string)
    : (v: JsValue)
    ensures v.Obj? && v.fields.Keys == {"nome", "descricao", "categoria", "preco", "imagem"}
    ensures Prop(v, "nome") == Str(nome) && Prop(v, "descricao") == Str(descricao)
    ensures Prop(v, "categoria") == Str(categoria) && Prop(v, "preco") == FromNumber(preco)
    ensures Prop(v, "imagem") == Str(imagem)
  {
    Obj(map[
      "nome" := Str(nome),
      "descricao" := Str(descricao),
      "categoria" := Str(categoria),
      "preco" := FromNumber(preco),
      "imagem" := Str(imagem)])
  }

  /** The record both pages build from a form (js/admin.js:34-40, js/cadastro.js:15-21):
      exactly the five fields, name, description and image trimmed, the category as
      selected, the price parsed (NaN when it does not parse). */
  function RecordOf(rt: Runtime, f: ProductForm): (v: JsValue)
    ensures v.Obj? && v.fields.Keys == {"nome", "descricao", "categoria", "preco", "imagem"}
    ensures Prop(v, "nome") == Str(Text.Trim(f.nome))
    ensures Prop(v, "descricao") == Str(Text.Trim(f.descricao))
    ensures Prop(v, "categoria") == Str(f.categoria)
    ensures Prop(v, "preco") == FromNumber(rt.parseFloat(f.preco))
    ensures Prop(v, "imagem") == Str(Text.Trim(f.imagem))
  {
    Record(Text.Trim(f.nome), Text.Trim(f.descricao), f.categoria, rt.parseFloat(f.preco), Text.Trim(f.imagem))
  }

  /** "Salvar" on card `index` (js/admin.js:33-43): the product at `index` becomes the
      record of the card's form; every other product stays where it was. Cards are
      rendered one per product, so `index` is a position in the list. */
  function Save(rt: Runtime, products: seq<JsValue>, index: nat, f: ProductForm): (r: seq<JsValue>)
    requires index < |products|
    ensures |r| == |products|
    ensures r[index] == RecordOf(rt, f)
    ensures forall i :: 0 <= i < |products| && i != index ==> r[i] == products[i]
  {
    products[index := RecordOf(rt, f)]
  }

  /** "Excluir" on card `index` (js/admin.js:45-49): `splice(index, 1)`. */
  function Delete(products: seq<JsValue>, index: nat): (r: seq<JsValue>)
    requires index < |products|
    ensures |r| == |products| - 1
    ensures Seqs.IsSubseq(r, products)
    ensures multiset(r) + multiset{products[index]} == multiset(products)
  {
    var r := Seqs.RemoveAt(products, index);
    var idx := seq(|r|, k requires 0 <= k < |r| => if k < index then k else k + 1);
    assert Seqs.EmbedsAt(r, products, idx);
    r
  }

  /** Saving the same form twice is the same as saving it once. */
  lemma SaveIdempotent(rt: Runtime, products: seq<JsValue>, index: nat, f: ProductForm)
    requires index < |products|
    ensures Save(rt, Save(rt, products, index, f), index, f) == Save(rt, products, index, f)
  {
  }

  /** Deleting drops exactly the product at `index`: those before keep their
      positions, those after move up by one. */
  lemma DeleteShifts(products: seq<JsValue>, index: nat)
    requires index < |products|
    ensures forall i :: 0 <= i < index ==> Delete(products, index)[i] == products[i]
    ensures forall i :: index < i < |products| ==> Delete(products, index)[i - 1] == products[i]
  {
  }

  /** The registration form (js/cadastro.js:12-26): the new record appended to the
      stored list, or to an empty one when nothing is stored. */
  function Submit(rt: Runtime, stored: Option<seq<JsValue>>, f: ProductForm): (r: seq<JsValue>)
    ensures |r| == |Seqs.Load(stored)| + 1
    ensures r[..|Seqs.Load(stored)|] == Seqs.Load(stored)
    ensures r[|Seqs.Load(stored)|] == RecordOf(rt, f)
  {
    Seqs.Load(stored) + [RecordOf(rt, f)]
  }

  /** Submitting forms one after another, each time reading back what the previous
      submission stored. */
  function SubmitAll(rt: Runtime, stored: Option<seq<JsValue>>, forms: seq<ProductForm>): (r: seq<JsValue>)
    decreases |forms|
  {
    if |forms| == 0 then Seqs.Load(stored)
    else SubmitAll(rt, Some(Submit(rt, stored, forms[0])), forms[1..])
  }

  /** The records of a sequence of forms, in order. */
  function Records(rt: Runtime, forms: seq<ProductForm>): (r: seq<JsValue>)
    ensures |r| == |forms|
    ensures forall k :: 0 <= k < |forms| ==> r[k] == RecordOf(rt, forms[k])
    decreases |forms|
  {
    if |forms| == 0 then [] else [RecordOf(rt, forms[0])] + Records(rt, forms[1..])
  }

  /** n submissions add n records, in submission order, after what was stored. */
  lemma {:induction false} SubmitAllAppends(rt: Runtime, stored: Option<seq<JsValue>>, forms: seq<ProductForm>)
    ensures SubmitAll(rt, stored, forms) == Seqs.Load(stored) + Records(rt, forms)
    decreases |forms|
  {
    if |forms| > 0 {
      var first := RecordOf(rt, forms[0]);
      SubmitAllAppends(rt, Some(Seqs.Load(stored) + [first]), forms[1..]);
      assert Records(rt, forms) == [first] + Records(rt, forms[1..]);
      Seqs.AppendAssoc(Seqs.Load(stored), [first], Records(rt, forms[1..]));
    }
  }
}

=== FILE: product_filter.dfy ===
/**
 * The product page's own filter (js/filtros.js): a search box, a price range and a
 * category select over the raw product records `window.todosProdutos`
 * (`{nome, descricao, categoria, preco, imagem}` as stored), and the category
 * select's options.
 *
 * The inputs are the strings the form fields hold; rendering the result is left out.
 */
module ProductFilter {
  import opened Outcomes
  import opened JsCore
  import Text
  import Seqs

  /** The category option that disables the category test. */
  const AnyCategory: string := "Todos"

  /** `parseFloat(input) || 0`: a missing, unparseable or zero minimum is 0. */
  function MinBound(rt: Runtime, input: string): (m: real)
    ensures rt.parseFloat(input).None? ==> m == 0.0
    ensures rt.parseFloat(input).Some? ==> m == rt.parseFloat(input).value
  {
    match rt.parseFloat(input)
    case Some(v) => if v != 0.0 then v else 0.0
    case None => 0.0
  }

  /** `parseFloat(input) || Infinity`, with None for Infinity: a missing,
      unparseable or zero maximum means no upper bound. */
  function MaxBound(rt: Runtime, input: string): (m: Option<real>)
    ensures m.None? <==> rt.parseFloat(input).None? || rt.parseFloat(input).value == 0.0
    ensures m.Some? ==> m.value == rt.parseFloat(input).value
  {
    match rt.parseFloat(input)
    case Some(v) => if v != 0.0 then Some(v) else None
    case None => None
  }

  /** `precoMin <= p.preco && p.preco <= precoMax`: the price compares as a number,
      and a price that does not convert (undefined, a non-numeric string) fails. */
  predicate InPriceRange(rt: Runtime, price: JsValue, min: real, max: Option<real>) {
    match ToNumber(rt, price)
    case Some(x) => min <= x && (max.None? || x <= max.value)
    case None => false
  }

  /** The filter callback (js/filtros.js:12-18). Name and description are joined
      by a space, whatever their type (`undefined` included), and lower-cased; the
      category must equal the selection exactly unless "Todos" is selected. Only
      reading a field of a null or undefined record throws. */
  function Keep(rt: Runtime, search: string, min: real, max: Option<real>, category: string, p: JsValue)
    : (r: Result<bool>)
    ensures r.TypeError? <==> IsNullish(p)
  {
    if IsNullish(p) then
      TypeError
    else
      var text := Lower(rt, ToStr(rt, Prop(p, "nome")) + " " + ToStr(rt, Prop(p, "descricao")));
      Ok(&& Text.Includes(text, search)
         && InPriceRange(rt, Prop(p, "preco"), min, max)
         && (category == AnyCategory || Prop(p, "categoria") == Str(category)))
  }

  /** `aplicarFiltros()`: the search text is lower-cased, the bounds parsed as above,
      and `window.todosProdutos` filtered. */
  function ApplyFilters(rt: Runtime, searchInput: string, minInput: string, maxInput: string,
                        category: string, products: seq<JsValue>): (r: Result<seq<JsValue>>)
    ensures r.TypeError? <==> exists i :: 0 <= i < |products| && IsNullish(products[i])
    ensures r.Ok? ==> Seqs.IsSubseq(r.value, products)
  {
    var search := Lower(rt, searchInput);
    var min, max := MinBound(rt, minInput), MaxBound(rt, maxInput);
    Seqs.TryFilter(products, p => Keep(rt, search, min, max, category, p))
  }

  /** What the filter keeps, stated field by field: the search text occurs in the
      lower-cased "name description", the price lies in the range, and the
      category is the selected one unless "Todos" is selected. */
  predicate Wanted(rt: Runtime, search: string, min: real, max: Option<real>, category: string, p: JsValue) {
    && Text.Includes(Lower(rt, ToStr(rt, Prop(p, "nome"))) + [rt.lower(' ')] + Lower(rt, ToStr(rt, Prop(p, "descricao"))), search)
    && InPriceRange(rt, Prop(p, "preco"), min, max)
    && (category != AnyCategory ==> Prop(p, "categoria") == Str(category))
  }

  /** Lower-casing works character by character, so it distributes over the join. */
  lemma {:induction false} LowerAppend(rt: Runtime, a: string, b: string)
    ensures Lower(rt, a + b) == Lower(rt, a) + Lower(rt, b)
    decreases |a|
  {
    if |a| > 0 {
      LowerAppend(rt, a[1..], b);
      assert (a + b)[1..] == a[1..] + b;
    } else {
      assert a + b == b;
    }
  }

  /** The lower-cased "name description" is the lower-cased name, the lower-cased
      space and the lower-cased description. */
  lemma LowerJoin(rt: Runtime, a: string, b: string)
    ensures Lower(rt, a + " " + b) == Lower(rt, a) + [rt.lower(' ')] + Lower(rt, b)
  {
    LowerAppend(rt, a + " ", b);
    LowerAppend(rt, a, " ");
    assert Lower(rt, " ") == [rt.lower(' ')];
  }

  /** On a record, the callback returns whether the record is wanted. */
  lemma KeepIsWanted(rt: Runtime, search: string, min: real, max: Option<real>, category: string, p: JsValue)
    requires !IsNullish(p)
    ensures Keep(rt, search, min, max, category, p) == Ok(Wanted(rt, search, min, max, category, p))
  {
    LowerJoin(rt, ToStr(rt, Prop(p, "nome")), ToStr(rt, Prop(p, "descricao")));
  }

  /** With no null records, the filter keeps exactly the wanted products, in order. */
  lemma ApplyFiltersKeepsWanted(rt: Runtime, searchInput: string, minInput: string, maxInput: string,
                                category: string, products: seq<JsValue>)
    requires forall i :: 0 <= i < |products| ==> !IsNullish(products[i])
    ensures var search, min, max := Lower(rt, searchInput), MinBound(rt, minInput), MaxBound(rt, maxInput);
      ApplyFilters(rt, searchInput, minInput, maxInput, category, products) ==
        Ok(Seqs.Filter(products, p => Wanted(rt, search, min, max, category, p)))
  {
    var search, min, max := Lower(rt, searchInput), MinBound(rt, minInput), MaxBound(rt, maxInput);
    var test := p => Keep(rt, search, min, max, category, p);
    var wanted := p => Wanted(rt, search, min, max, category, p);
    forall i | 0 <= i < |products|
      ensures test(products[i]) == Ok(wanted(products[i]))
    {
      KeepIsWanted(rt, search, min, max, category, products[i]);
    }
    Seqs.TryFilterDecides(products, test, wanted);
  }

  /** With the form untouched (empty search, bounds that do not parse, "Todos"), the
      filter still drops every product whose price is not a number of at least 0:
      the minimum defaults to 0, not to "no bound". */
  lemma UntouchedFormKeepsNonNegativePrices(rt: Runtime, products: seq<JsValue>)
    requires rt.parseFloat("").None?
    requires forall i :: 0 <= i < |products| ==> !IsNullish(products[i])
    ensures ApplyFilters(rt, "", "", "", AnyCategory, products) ==
      Ok(Seqs.Filter(products, p => ToNumber(rt, Prop(p, "preco")).Some? && ToNumber(rt, Prop(p, "preco")).value >= 0.0))
  {
    var test := p => Keep(rt, "", 0.0, None, AnyCategory, p);
    var priced := p => ToNumber(rt, Prop(p, "preco")).Some? && ToNumber(rt, Prop(p, "preco")).value >= 0.0;
    forall i | 0 <= i < |products|
      ensures test(products[i]) == Ok(priced(products[i]))
    {
      var p := products[i];
      var text := Lower(rt, ToStr(rt, Prop(p, "nome")) + " " + ToStr(rt, Prop(p, "descricao")));
      assert Text.OccursAt(text, "", 0);
    }
    Seqs.TryFilterDecides(products, test, priced);
  }

  /** `products.map(p => p.categoria)`, for records that are not null. */
  function Categories(products: seq<JsValue>): (cs: seq<JsValue>)
    ensures |cs| == |products|
    ensures forall i :: 0 <= i < |products| ==> cs[i] == Prop(products[i], "categoria")
  {
    seq(|products|, i requires 0 <= i < |products| => Prop(products[i], "categoria"))
  }

  /** `[...new Set(products.map(p => p.categoria))]`: reading the category of a null
      record throws. */
  function DistinctCategories(products: seq<JsValue>): (r: Result<seq<JsValue>>)
    ensures r.Ok? <==> forall i :: 0 <= i < |products| ==> !IsNullish(products[i])
    ensures r.Ok? ==> r.value == Seqs.Dedup(Categories(products))
  {
    if exists i :: 0 <= i < |products| && IsNullish(products[i]) then TypeError
    else Ok(Seqs.Dedup(Categories(products)))
  }

  /** Each category occurs exactly once, and only categories occur, in the order of
      their first occurrence among the products. */
  lemma DistinctCategoriesInOrder(products: seq<JsValue>)
    requires DistinctCategories(products).Ok?
    ensures var cs, d := Categories(products), DistinctCategories(products).value;
      && Seqs.NoDup(d)
      && (forall i :: 0 <= i < |products| ==> Prop(products[i], "categoria") in d)
      && (forall v :: v in d ==> exists i :: 0 <= i < |products| && Prop(products[i], "categoria") == v)
      && (forall i, j :: 0 <= i < j < |d| ==> Seqs.FirstIndex(cs, d[i]) < Seqs.FirstIndex(cs, d[j]))
  {
    var cs := Categories(products);
    Seqs.DedupFirstOccurrenceOrder(cs);
    forall v | v in Seqs.Dedup(cs)
      ensures exists i :: 0 <= i < |products| && Prop(products[i], "categoria") == v
    {
      var i := Seqs.FirstIndex(cs, v);
    }
  }

  /** The category select's options after `popularFiltroCategorias(products)`
      (js/filtros.js:24-33): the distinct categories appended to the options the
      select already has. */
  function CategoryOptions(existing: seq<JsValue>, products: seq<JsValue>): (r: Result<seq<JsValue>>)
    ensures r.Ok? <==> forall i :: 0 <= i < |products| ==> !IsNullish(products[i])
    ensures r.Ok? ==> r.value == existing + DistinctCategories(products).value
  {
    match DistinctCategories(products)
    case TypeError => TypeError
    case Ok(added) => Ok(existing + added)
  }
}

=== FILE: seqs.dfy ===
/**
 * Sequence operations shared by the catalog pages: `Array.prototype.filter`, the
 * distinct values of `[...new Set(xs)]`, and `splice(index, 1)`.
 */
module Seqs {
  import opened Outcomes

  predicate NoDup<T(==)>(s: seq<T>) {
    forall i, j :: 0 <= i < j < |s| ==> s[i] != s[j]
  }

  /** `s.filter(keep)`: the elements `keep` accepts, in their original order. */
  function Filter<T>(s: seq<T>, keep: T -> bool): (r: seq<T>)
    ensures |r| <= |s|
    ensures forall i :: 0 <= i < |r| ==> keep(r[i])
    decreases |s|
  {
    if |s| == 0 then
      []
    else
      var init := s[..|s| - 1];
      var last := s[|s| - 1];
      Filter(init, keep) + (if keep(last) then [last] else [])
  }

  /** `s.filter(test)` with a callback that may throw: the first throwing call ends
      the whole filter with its exception. */
  function TryFilter<T>(s: seq<T>, test: T -> Result<bool>): (r: Result<seq<T>>)
    ensures r.TypeError? <==> exists i :: 0 <= i < |s| && test(s[i]).TypeError?
    ensures r.Ok? ==> r.value == Filter(s, x => test(x) == Ok(true))
    ensures r.Ok? ==> IsSubseq(r.value, s)
    decreases |s|
  {
    FilterIsSubseq(s, x => test(x) == Ok(true));
    if |s| == 0 then
      Ok([])
    else
      var init := s[..|s| - 1];
      var last := s[|s| - 1];
      assert forall i :: 0 <= i < |init| ==> init[i] == s[i];
      match TryFilter(init, test)
      case TypeError =>
        TypeError
      case Ok(kept) =>
        match test(last)
        case TypeError => TypeError
        case Ok(b) => Ok(kept + if b then [last] else [])
  }

  /** When the callback returns `wanted`'s verdict on every element, the filter
      keeps exactly the wanted elements. */
  lemma {:induction false} TryFilterDecides<T>(s: seq<T>, test: T -> Result<bool>, wanted: T -> bool)
    requires forall i :: 0 <= i < |s| ==> test(s[i]) == Ok(wanted(s[i]))
    ensures TryFilter(s, test) == Ok(Filter(s, wanted))
    decreases |s|
  {
    if |s| > 0 {
      var init := s[..|s| - 1];
      assert forall i :: 0 <= i < |init| ==> init[i] == s[i];
      TryFilterDecides(init, test, wanted);
    }
  }

  /** The result holds every accepted element of `s`, and nothing that is not in `s`. */
  lemma {:induction false} FilterMembers<T>(s: seq<T>, keep: T -> bool)
    ensures forall i :: 0 <= i < |Filter(s, keep)| ==> Filter(s, keep)[i] in s
    ensures forall i :: 0 <= i < |s| && keep(s[i]) ==> s[i] in Filter(s, keep)
    decreases |s|
  {
    if |s| > 0 {
      var init := s[..|s| - 1];
      var last := s[|s| - 1];
      FilterMembers(init, keep);
      assert s == init + [last];
      var r := Filter(s, keep);
      var ri := Filter(init, keep);
      assert r == ri + (if keep(last) then [last] else []);
      forall i | 0 <= i < |r|
        ensures r[i] in s
      {
        if i < |ri| {
          assert r[i] == ri[i];
        }
      }
      forall i | 0 <= i < |s| && keep(s[i])
        ensures s[i] in r
      {
        if i < |init| {
          assert s[i] == init[i];
          assert s[i] in ri;
        }
      }
    }
  }

  /** Filtering distributes over concatenation: what is kept from `a + b` is what
      is kept from `a` followed by what is kept from `b`. Together with the one-element
      case this determines the result, order and repetitions included. */
  lemma {:induction false} FilterAppend<T>(a: seq<T>, b: seq<T>, keep: T -> bool)
    ensures Filter(a + b, keep) == Filter(a, keep) + Filter(b, keep)
    decreases |b|
  {
    if |b| == 0 {
      assert a + b == a;
    } else {
      var b' := b[..|b| - 1];
      assert (a + b)[..|a + b| - 1] == a + b';
      assert (a + b)[|a + b| - 1] == b[|b| - 1];
      FilterAppend(a, b', keep);
    }
  }

  lemma FilterSingleton<T>(x: T, keep: T -> bool)
    ensures Filter([x], keep) == if keep(x) then [x] else []
  {
    assert [x][..0] == [];
  }

  /** A filter returns nothing exactly when it accepts no element. */
  lemma FilterEmpty<T>(s: seq<T>, keep: T -> bool)
    ensures |Filter(s, keep)| == 0 <==> forall i :: 0 <= i < |s| ==> !keep(s[i])
  {
    var r := Filter(s, keep);
    FilterMembers(s, keep);
  }

  /** Positions in `b` at which the elements of `a` appear, in increasing order. */
  ghost predicate EmbedsAt<T>(a: seq<T>, b: seq<T>, idx: seq<nat>) {
    && |idx| == |a|
    && (forall k :: 0 <= k < |idx| ==> idx[k] < |b| && a[k] == b[idx[k]])
    && (forall k, l :: 0 <= k < l < |idx| ==> idx[k] < idx[l])
  }

  /** `a` is a subsequence of `b`: `b` with some elements deleted. */
  ghost predicate IsSubseq<T>(a: seq<T>, b: seq<T>) {
    exists idx :: EmbedsAt(a, b, idx)
  }

  /** The indices of the elements `keep` accepts. */
  function KeptIndices<T>(s: seq<T>, keep: T -> bool): (idx: seq<nat>)
    ensures EmbedsAt(Filter(s, keep), s, idx)
    ensures forall k :: 0 <= k < |idx| ==> idx[k] < |s|
    decreases |s|
  {
    if |s| == 0 then
      []
    else
      var init := s[..|s| - 1];
      var prev := KeptIndices(init, keep);
      var kept := keep(s[|s| - 1]);
      EmbedsExtend(Filter(init, keep), s, prev, kept);
      prev + (if kept then [|s| - 1] else [])
  }

  /** An embedding into all but the last element of `s` extends to one into `s`,
      whether or not the last element is added to the embedded sequence. */
  lemma EmbedsExtend<T>(a: seq<T>, s: seq<T>, idx: seq<nat>, withLast: bool)
    requires |s| > 0 && EmbedsAt(a, s[..|s| - 1], idx)
    ensures EmbedsAt(a + (if withLast then [s[|s| - 1]] else []), s, idx + (if withLast then [|s| - 1] else []))
  {
    var a2 := a + (if withLast then [s[|s| - 1]] else []);
    var idx2 := idx + (if withLast then [|s| - 1] else []);
    forall k | 0 <= k < |idx2|
      ensures idx2[k] < |s| && a2[k] == s[idx2[k]]
    {
      if k < |idx| {
        assert idx2[k] == idx[k] && a2[k] == a[k];
        assert s[..|s| - 1][idx[k]] == s[idx[k]];
      }
    }
  }

  /** A filter's result is a subsequence of its input: it keeps the input's order
      and invents nothing. */
  lemma FilterIsSubseq<T>(s: seq<T>, keep: T -> bool)
    ensures IsSubseq(Filter(s, keep), s)
  {
    var idx := KeptIndices(s, keep);
  }

  /** A filter that accepts every element returns its input unchanged. */
  lemma {:induction false} FilterKeepsAll<T>(s: seq<T>, keep: T -> bool)
    requires forall i :: 0 <= i < |s| ==> keep(s[i])
    ensures Filter(s, keep) == s
    decreases |s|
  {
    if |s| > 0 {
      FilterKeepsAll(s[..|s| - 1], keep);
    }
  }

  /** The distinct elements of `s` in order of first occurrence: `[...new Set(s)]`. */
  function Dedup<T(==)>(s: seq<T>): (r: seq<T>)
    ensures NoDup(r)
    ensures forall i :: 0 <= i < |r| ==> r[i] in s
    ensures forall i :: 0 <= i < |s| ==> s[i] in r
    decreases |s|
  {
    if |s| == 0 then
      []
    else
      var init := s[..|s| - 1];
      var last := s[|s| - 1];
      assert s == init + [last];
      var d := Dedup(init);
      if last in d then d else d + [last]
  }

  /** `JSON.parse(localStorage.getItem(key)) || []`: the stored list, or the empty
      list when nothing is stored. */
  function Load<T>(stored: Option<seq<T>>): (xs: seq<T>)
    ensures stored.None? ==> xs == []
    ensures stored.Some? ==> xs == stored.value
  {
    stored.GetOr([])
  }

  /** Where `x` first occurs in `s`. */
  function FirstIndex<T(==)>(s: seq<T>, x: T): (k: nat)
    requires x in s
    ensures k < |s| && s[k] == x
    ensures forall j :: 0 <= j < k ==> s[j] != x
  {
    if s[0] == x then 0 else 1 + FirstIndex(s[1..], x)
  }

  lemma FirstIndexInPrefix<T>(s: seq<T>, n: nat, x: T)
    requires n <= |s| && x in s[..n]
    ensures x in s && FirstIndex(s, x) == FirstIndex(s[..n], x)
  {
    var k := FirstIndex(s[..n], x);
    var m := FirstIndex(s, x);
    assert s[..n][k] == s[k];
    assert forall j :: 0 <= j < k ==> s[j] == s[..n][j];
  }

  /** Distinct values appear in the order of their first occurrence in `s`. */
  lemma {:induction false} DedupFirstOccurrenceOrder<T>(s: seq<T>)
    ensures forall i, j :: 0 <= i < j < |Dedup(s)| ==>
      FirstIndex(s, Dedup(s)[i]) < FirstIndex(s, Dedup(s)[j])
    decreases |s|
  {
    if |s| > 0 {
      var n := |s| - 1;
      var init := s[..n];
      var last := s[n];
      var d := Dedup(init);
      assert s == init + [last];
      DedupFirstOccurrenceOrder(init);
      FirstOrderInPrefix(s, n, d);
      if last !in d {
        FirstIndexOfNew(s);
        FirstOrderAppend(s, d, last);
      }
    }
  }

  /** An order by first occurrence in a prefix of `s` is one in `s` too, and every
      element of it occurs in `s` before the prefix ends. */
  lemma FirstOrderInPrefix<T>(s: seq<T>, n: nat, d: seq<T>)
    requires n <= |s|
    requires forall k :: 0 <= k < |d| ==> d[k] in s[..n]
    requires forall i, j :: 0 <= i < j < |d| ==> FirstIndex(s[..n], d[i]) < FirstIndex(s[..n], d[j])
    ensures forall k :: 0 <= k < |d| ==> d[k] in s && FirstIndex(s, d[k]) < n
    ensures forall i, j :: 0 <= i < j < |d| ==> FirstIndex(s, d[i]) < FirstIndex(s, d[j])
  {
    forall k | 0 <= k < |d|
      ensures d[k] in s && FirstIndex(s, d[k]) == FirstIndex(s[..n], d[k])
    {
      FirstIndexInPrefix(s, n, d[k]);
    }
  }

  /** The last element of `s`, when it does not occur before, first occurs last. */
  lemma FirstIndexOfNew<T>(s: seq<T>)
    requires |s| > 0 && s[|s| - 1] !in s[..|s| - 1]
    ensures FirstIndex(s, s[|s| - 1]) == |s| - 1
  {
  }

  /** A value occurring after all of an ordered `d` may follow it. */
  lemma FirstOrderAppend<T>(s: seq<T>, d: seq<T>, x: T)
    requires x in s
    requires forall k :: 0 <= k < |d| ==> d[k] in s && FirstIndex(s, d[k]) < FirstIndex(s, x)
    requires forall i, j :: 0 <= i < j < |d| ==> FirstIndex(s, d[i]) < FirstIndex(s, d[j])
    ensures forall i, j :: 0 <= i < j < |d + [x]| ==> FirstIndex(s, (d + [x])[i]) < FirstIndex(s, (d + [x])[j])
  {
    var e := d + [x];
    forall i, j | 0 <= i < j < |e|
      ensures FirstIndex(s, e[i]) < FirstIndex(s, e[j])
    {
      assert e[i] == d[i];
      if j < |d| {
        assert e[j] == d[j];
      } else {
        assert e[j] == x;
      }
    }
  }

  lemma AppendAssoc<T>(a: seq<T>, b: seq<T>, c: seq<T>)
    ensures (a + b) + c == a + (b + c)
  {
  }

  /** `s.splice(i, 1)`: `s` without the element at `i`; the others keep their order. */
  function RemoveAt<T>(s: seq<T>, i: nat): (r: seq<T>)
    requires i < |s|
    ensures |r| == |s| - 1
    ensures forall k :: 0 <= k < i ==> r[k] == s[k]
    ensures forall k :: i <= k < |r| ==> r[k] == s[k + 1]
    ensures multiset(r) + multiset{s[i]} == multiset(s)
  {
    assert s == s[..i] + [s[i]] + s[i + 1..];
    s[..i] + s[i + 1..]
  }
}

=== FILE: share.dfy ===
/**
 * Sharing the catalog (js/compartilhar-catalago.js): a button names a platform and a
 * campaign, and the page opens a link that carries a title with the campaign's two
 * emoji and the page's address.
 *
 * `encodeURIComponent` is the runtime's `encodeUri`; opening the link, the alert and
 * the menu's visibility are left out.
 */
module ShareLinks {
  import opened Outcomes
  import opened JsCore
  import Text

  /** The two emoji of each campaign (js/compartilhar-catalago.js:5-15). */
  const EmojisByCampaign: map<string, seq<string>> := map[
    "geral" := ["\U{1F6D2}", "\U{2728}"],
    "presentes" := ["\U{1F381}", "\U{1F49D}"],
    "amor" := ["\U{1F496}", "\U{2764}"],
    "infantil" := ["\U{1F3AA}", "\U{1F9F8}"],
    "festa" := ["\U{1F389}", "\U{1F973}"],
    "cuidados" := ["\U{1F6C0}", "\U{1F9FC}"],
    "personalizados" := ["\U{1F58C}", "\U{1FA84}"],
    "doces" := ["\U{1F36F}", "\U{1F9C1}"],
    "convites" := ["\U{1F4E9}", "\U{1F4DD}"]]

  /** The campaign used when the button's campaign has no emoji of its own. */
  const DefaultCampaign: string := "geral"

  /** Names an object literal inherits from `Object.prototype`: looking one of them
      up yields a function or the prototype itself, which is truthy but has no
      `join`. */
  const InheritedNames: set<string> := {
    "constructor", "hasOwnProperty", "isPrototypeOf", "propertyIsEnumerable",
    "toString", "toLocaleString", "valueOf", "__proto__", "__defineGetter__",
    "__defineSetter__", "__lookupGetter__", "__lookupSetter__"}

  /** `emojisPorCampanha[campanha] || emojisPorCampanha.geral`. A missing attribute
      (`null`) is looked up as the key "null". */
  function Emojis(campaign: Option<string>): (r: Result<seq<string>>)
    ensures campaign.Some? && campaign.value in EmojisByCampaign ==> r == Ok(EmojisByCampaign[campaign.value])
    ensures campaign.Some? && campaign.value in InheritedNames ==> r == TypeError
    ensures (campaign.None? || (campaign.value !in EmojisByCampaign && campaign.value !in InheritedNames)) ==>
      r == Ok(EmojisByCampaign[DefaultCampaign])
  {
    var key := match campaign case Some(c) => c case None => "null";
    if key in EmojisByCampaign then Ok(EmojisByCampaign[key])
    else if key in InheritedNames then TypeError
    else Ok(EmojisByCampaign[DefaultCampaign])
  }

  /** The title and the message (js/compartilhar-catalago.js:19-20). */
  const TitleText: string := "Confira o catálogo Lima Calixto! "

  function Title(emojis: seq<string>): string {
    TitleText + Text.Join(emojis, " ")
  }

  function Message(title: string, url: string): string {
    title + "\n" + url
  }

  /** The fixed beginnings of the three links. */
  const WhatsAppPrefix: string := "https://wa.me/?text="
  const TelegramPrefix: string := "https://t.me/share/url?url="
  const TelegramText: string := "&text="
  const EmailPrefix: string := "mailto:?subject="
  const EmailBody: string := "&body="

  /** `gerarLinkCompartilhamento({plataforma, campanha, url})`
      (js/compartilhar-catalago.js:17-34): the link, or None for a platform it does
      not know (after an alert). */
  function ShareLink(rt: Runtime, platform: Option<string>, campaign: Option<string>, url: string)
    : (r: Result<Option<string>>)
    ensures r.TypeError? <==> Emojis(campaign).TypeError?
    ensures r.Ok? ==>
      var title := Title(Emojis(campaign).value);
      && (r.value.None? <==> platform !in {Some("whatsapp"), Some("telegram"), Some("email")})
      && (platform == Some("whatsapp") ==> r.value == Some(WhatsAppPrefix + rt.encodeUri(Message(title, url))))
      && (platform == Some("telegram") ==>
            r.value == Some(TelegramPrefix + rt.encodeUri(url) + TelegramText + rt.encodeUri(title)))
      && (platform == Some("email") ==>
            r.value == Some(EmailPrefix + rt.encodeUri(title) + EmailBody + rt.encodeUri(Message(title, url))))
  {
    match Emojis(campaign)
    case TypeError => TypeError
    case Ok(emojis) =>
      var title := Title(emojis);
      var message := Message(title, url);
      var encoded := rt.encodeUri(message);
      match platform
      case Some(p) =>
        if p == "whatsapp" then Ok(Some(WhatsAppPrefix + encoded))
        else if p == "telegram" then Ok(Some(TelegramPrefix + rt.encodeUri(url) + TelegramText + rt.encodeUri(title)))
        else if p == "email" then Ok(Some(EmailPrefix + rt.encodeUri(title) + EmailBody + encoded))
        else Ok(None)
      case None => Ok(None)
  }

  /* ---------------- reading a link back ---------------- */

  /** What a recipient sees: the platform, the title and the address. */
  datatype Shared = Shared(platform: string, title: string, url: string)

  /** The title and address a message carries: everything up to the first line
      break, and the rest. */
  function ReadMessage(m: string): Option<(string, string)> {
    Text.SplitFirst(m, '\n')
  }

  /** A two-field query `first + sep + name + second`: the two decoded values. */
  function ReadPair(decode: string -> string, s: string, sepName: string): Option<(string, string)> {
    match Text.SplitFirst(s, '&')
    case None => None
    case Some((first, rest)) =>
      match Text.After(['&'] + rest, sepName)
      case None => None
      case Some(second) => Some((decode(first), decode(second)))
  }

  /** Reads a share link back with the inverse of the percent-encoding. */
  function ReadLink(decode: string -> string, link: string): Option<Shared> {
    match Text.After(link, WhatsAppPrefix)
    case Some(encoded) =>
      (match ReadMessage(decode(encoded))
       case Some((title, url)) => Some(Shared("whatsapp", title, url))
       case None => None)
    case None =>
      match Text.After(link, TelegramPrefix)
      case Some(query) =>
        (match ReadPair(decode, query, TelegramText)
         case Some((url, title)) => Some(Shared("telegram", title, url))
         case None => None)
      case None =>
        match Text.After(link, EmailPrefix)
        case Some(query) =>
          (match ReadPair(decode, query, EmailBody)
           case Some((title, message)) =>
             (match ReadMessage(message)
              case Some((_, url)) => Some(Shared("email", title, url))
              case None => None)
           case None => None)
        case None => None
  }

  /** No emoji set and no title contains a line break. */
  lemma TitleHasNoLineBreak(emojis: seq<string>)
    requires emojis in EmojisByCampaign.Values
    ensures '\n' !in Title(emojis)
  {
    var k :| k in EmojisByCampaign && EmojisByCampaign[k] == emojis;
    EmojiPair(k);
    JoinPair(emojis[0], emojis[1]);
    assert emojis == [emojis[0], emojis[1]];
    var tail := emojis[0] + " " + emojis[1];
    assert '\n' !in tail;
    TitleTextOnOneLine();
    assert Title(emojis) == TitleText + tail;
  }

  lemma TitleTextOnOneLine()
    ensures '\n' !in TitleText
  {
  }

  /** Every campaign has two one-character emoji above the ASCII range. */
  lemma EmojiPair(k: string)
    requires k in EmojisByCampaign
    ensures var v := EmojisByCampaign[k];
      |v| == 2 && |v[0]| == 1 && |v[1]| == 1 && v[0][0] > '~' && v[1][0] > '~'
  {
  }

  lemma JoinPair(a: string, b: string)
    ensures Text.Join([a, b], " ") == a + " " + b
  {
    assert [a, b][1..] == [b];
  }

  /** Every lookup that does not throw yields one of the campaigns' sets. */
  lemma EmojisAreASet(campaign: Option<string>)
    requires Emojis(campaign).Ok?
    ensures Emojis(campaign).value in EmojisByCampaign.Values
  {
  }

  /** The three prefixes are told apart by their first characters. */
  lemma PrefixesDiffer(s: string)
    ensures Text.StartsWith(s, TelegramPrefix) ==> !Text.StartsWith(s, WhatsAppPrefix)
    ensures Text.StartsWith(s, EmailPrefix) ==> !Text.StartsWith(s, WhatsAppPrefix) && !Text.StartsWith(s, TelegramPrefix)
  {
    if Text.StartsWith(s, TelegramPrefix) {
      assert s[8] == TelegramPrefix[8] == 't';
      assert WhatsAppPrefix[8] == 'w';
    }
    if Text.StartsWith(s, EmailPrefix) {
      assert s[0] == EmailPrefix[0] == 'm';
      assert WhatsAppPrefix[0] == 'h' && TelegramPrefix[0] == 'h';
    }
  }

  /** A WhatsApp link carries the message: its first line is the title. */
  lemma ReadWhatsApp(decode: string -> string, e: string, title: string, url: string)
    requires '\n' !in title && decode(e) == Message(title, url)
    ensures ReadLink(decode, WhatsAppPrefix + e) == Some(Shared("whatsapp", title, url))
  {
    assert Text.After(WhatsAppPrefix + e, WhatsAppPrefix) == Some(e);
    Text.SplitFirstJoined(title, '\n', url);
    assert Message(title, url) == title + ['\n'] + url;
  }

  /** A query `first + sepName + second`, where `sepName` starts with `&` and `first`
      holds none, reads back as its two decoded values. */
  lemma ReadPairJoined(decode: string -> string, first: string, sepName: string, second: string)
    requires '&' !in first && |sepName| > 0 && sepName[0] == '&'
    ensures ReadPair(decode, first + sepName + second, sepName) == Some((decode(first), decode(second)))
  {
    var tail := sepName[1..] + second;
    assert sepName == ['&'] + sepName[1..];
    assert first + sepName + second == first + ['&'] + tail;
    Text.SplitFirstJoined(first, '&', tail);
    assert ['&'] + tail == sepName + second;
    Text.AfterJoined(sepName, second);
  }

  /** A Telegram link carries the address, then the title. */
  lemma ReadTelegram(decode: string -> string, e1: string, e2: string, title: string, url: string)
    requires '&' !in e1 && decode(e1) == url && decode(e2) == title
    ensures ReadLink(decode, TelegramPrefix + e1 + TelegramText + e2) == Some(Shared("telegram", title, url))
  {
    var query := e1 + TelegramText + e2;
    var link := TelegramPrefix + query;
    assert TelegramPrefix + e1 + TelegramText + e2 == link;
    PrefixesDiffer(link);
    Text.AfterJoined(TelegramPrefix, query);
    ReadPairJoined(decode, e1, TelegramText, e2);
  }

  /** An e-mail link carries the title as the subject and the message as the body. */
  lemma ReadEmail(decode: string -> string, e1: string, e2: string, title: string, url: string)
    requires '&' !in e1 && '\n' !in title && decode(e1) == title && decode(e2) == Message(title, url)
    ensures ReadLink(decode, EmailPrefix + e1 + EmailBody + e2) == Some(Shared("email", title, url))
  {
    var query := e1 + EmailBody + e2;
    var link := EmailPrefix + query;
    assert EmailPrefix + e1 + EmailBody + e2 == link;
    PrefixesDiffer(link);
    Text.AfterJoined(EmailPrefix, query);
    ReadPairJoined(decode, e1, EmailBody, e2);
    Text.SplitFirstJoined(title, '\n', url);
  }

  /** A link read back names the platform, the title and the address it was made
      for, as long as decoding undoes the percent-encoding and the encoded address
      and title hold no `&` (encodeURIComponent escapes it). */
  lemma ShareLinkReadsBack(rt: Runtime, decode: string -> string, platform: string, campaign: Option<string>, url: string)
    requires ShareLink(rt, Some(platform), campaign, url).Ok?
    requires ShareLink(rt, Some(platform), campaign, url).value.Some?
    requires forall s :: decode(rt.encodeUri(s)) == s
    requires forall s :: '&' !in rt.encodeUri(s)
    ensures ReadLink(decode, ShareLink(rt, Some(platform), campaign, url).value.value) ==
      Some(Shared(platform, Title(Emojis(campaign).value), url))
  {
    var title := Title(Emojis(campaign).value);
    var message := Message(title, url);
    EmojisAreASet(campaign);
    TitleHasNoLineBreak(Emojis(campaign).value);
    assert decode(rt.encodeUri(message)) == message;
    if platform == "whatsapp" {
      ReadWhatsApp(decode, rt.encodeUri(message), title, url);
    } else if platform == "telegram" {
      assert decode(rt.encodeUri(url)) == url && decode(rt.encodeUri(title)) == title;
      ReadTelegram(decode, rt.encodeUri(url), rt.encodeUri(title), title, url);
    } else {
      assert decode(rt.encodeUri(title)) == title;
      ReadEmail(decode, rt.encodeUri(title), rt.encodeUri(message), title, url);
    }
  }
}

=== FILE: sorting.dfy ===
/**
 * A stable sort by a numeric key: what `Array.prototype.sort` does with the
 * comparator `(a, b) => key(a) - key(b)` (stable since ECMAScript 2019).
 */
module Sorting {
  import Seqs

  predicate SortedBy<T>(s: seq<T>, key: T -> real) {
    forall i, j :: 0 <= i < j < |s| ==> key(s[i]) <= key(s[j])
  }

  /** `r` is `s` with `x` inserted at `k`, after the elements whose key does not
      exceed its own and before those whose key does. */
  ghost predicate InsertedAt<T>(s: seq<T>, x: T, key: T -> real, r: seq<T>, k: int) {
    && 0 <= k <= |s|
    && r == s[..k] + [x] + s[k..]
    && (forall j :: 0 <= j < k ==> key(s[j]) <= key(x))
    && (forall j :: k <= j < |s| ==> key(x) < key(s[j]))
  }

  lemma InsertBehindHead<T>(s: seq<T>, x: T, key: T -> real, rest: seq<T>)
    requires |s| > 0 && key(s[0]) <= key(x)
    requires exists k :: InsertedAt(s[1..], x, key, rest, k)
    ensures exists k :: InsertedAt(s, x, key, [s[0]] + rest, k)
  {
    var k :| InsertedAt(s[1..], x, key, rest, k);
    assert [s[0]] + rest == s[..k + 1] + [x] + s[k + 1..];
    assert InsertedAt(s, x, key, [s[0]] + rest, k + 1);
  }

  /** `x` placed before the first element whose key exceeds its own, as a stable
      sort places a later element. */
  function Insert<T>(s: seq<T>, x: T, key: T -> real): (r: seq<T>)
    ensures |r| == |s| + 1
    decreases |s|
  {
    if |s| == 0 then [x]
    else if key(x) < key(s[0]) then [x] + s
    else [s[0]] + Insert(s[1..], x, key)
  }

  /** In a sorted sequence, that place comes after every element whose key does not
      exceed the key of `x` and before every element whose key does. */
  lemma {:induction false} InsertPlace<T>(s: seq<T>, x: T, key: T -> real)
    requires SortedBy(s, key)
    ensures exists k :: InsertedAt(s, x, key, Insert(s, x, key), k)
    decreases |s|
  {
    if |s| == 0 {
      assert Insert(s, x, key) == [x] == s[..0] + [x] + s[0..];
      assert InsertedAt(s, x, key, [x], 0);
    } else if key(x) < key(s[0]) {
      assert Insert(s, x, key) == [x] + s == s[..0] + [x] + s[0..];
      assert forall j :: 0 <= j < |s| ==> key(s[0]) <= key(s[j]);
      assert InsertedAt(s, x, key, [x] + s, 0);
    } else {
      InsertPlace(s[1..], x, key);
      assert Insert(s, x, key) == [s[0]] + Insert(s[1..], x, key);
      InsertBehindHead(s, x, key, Insert(s[1..], x, key));
    }
  }

  /** The elements of `s[..k] + [x] + s[k..]`, position by position. */
  lemma SpliceIndex<T>(s: seq<T>, x: T, k: nat, r: seq<T>)
    requires k <= |s| && r == s[..k] + [x] + s[k..]
    ensures |r| == |s| + 1 && r[k] == x
    ensures forall i :: 0 <= i < k ==> r[i] == s[i]
    ensures forall i :: k < i < |r| ==> r[i] == s[i - 1]
    ensures multiset(r) == multiset(s) + multiset{x}
  {
    assert s == s[..k] + s[k..];
  }

  /** Inserting into a sorted sequence keeps it sorted and adds exactly `x`. */
  lemma InsertSorted<T>(s: seq<T>, x: T, key: T -> real)
    requires SortedBy(s, key)
    ensures SortedBy(Insert(s, x, key), key)
    ensures multiset(Insert(s, x, key)) == multiset(s) + multiset{x}
  {
    var r := Insert(s, x, key);
    InsertPlace(s, x, key);
    var k :| InsertedAt(s, x, key, r, k);
    SpliceIndex(s, x, k, r);
    forall i, j | 0 <= i < j < |r|
      ensures key(r[i]) <= key(r[j])
    {
      if j < k {
        assert r[i] == s[i] && r[j] == s[j];
      } else if i > k {
        assert r[i] == s[i - 1] && r[j] == s[j - 1];
      } else if i == k {
        assert r[j] == s[j - 1];
      } else if j == k {
        assert r[i] == s[i];
      } else {
        assert r[i] == s[i] && r[j] == s[j - 1];
      }
    }
  }

  /** A stable sort of `s` by `key`: insertion sort, element by element. */
  function SortBy<T>(s: seq<T>, key: T -> real): (r: seq<T>)
    ensures SortedBy(r, key)
    ensures multiset(r) == multiset(s)
    decreases |s|
  {
    if |s| == 0 then
      []
    else
      var init, last := s[..|s| - 1], s[|s| - 1];
      var sorted := SortBy(init, key);
      assert s == init + [last];
      assert multiset(s) == multiset(init) + multiset{last};
      InsertSorted(sorted, last, key);
      Insert(sorted, last, key)
  }

  /** Selects the elements whose key is `v`. */
  function KeyIs<T>(key: T -> real, v: real): T -> bool {
    (y: T) => key(y) == v
  }

  /** Inserting `x` keeps the order of the elements with any given key, `x` coming
      after those with a key equal to its own. */
  lemma InsertStable<T>(s: seq<T>, x: T, key: T -> real, v: real)
    requires SortedBy(s, key)
    ensures Seqs.Filter(Insert(s, x, key), KeyIs(key, v)) ==
      Seqs.Filter(s, KeyIs(key, v)) + Seqs.Filter([x], KeyIs(key, v))
  {
    InsertPlace(s, x, key);
    var k :| InsertedAt(s, x, key, Insert(s, x, key), k);
    SpliceStable(s, x, key, v, k);
  }

  lemma SpliceStable<T>(s: seq<T>, x: T, key: T -> real, v: real, k: nat)
    requires k <= |s|
    requires forall j :: k <= j < |s| ==> key(x) < key(s[j])
    ensures Seqs.Filter(s[..k] + [x] + s[k..], KeyIs(key, v)) ==
      Seqs.Filter(s, KeyIs(key, v)) + Seqs.Filter([x], KeyIs(key, v))
  {
    var keep := KeyIs(key, v);
    var a, b := s[..k], s[k..];
    FilterSplice(a, x, b, keep);
    assert s == a + b;
    Seqs.FilterAppend(a, b, keep);
    if key(x) == v {
      NoneKept(s, k, key, v);
    } else {
      OtherKeyDropped(x, key, v);
    }
    Reassociate(Seqs.Filter(a, keep), Seqs.Filter([x], keep), Seqs.Filter(b, keep));
  }

  lemma OtherKeyDropped<T>(x: T, key: T -> real, v: real)
    requires key(x) != v
    ensures Seqs.Filter([x], KeyIs(key, v)) == []
  {
    Seqs.FilterSingleton(x, KeyIs(key, v));
  }

  lemma Reassociate<T>(a: seq<T>, x: seq<T>, b: seq<T>)
    requires x == [] || b == []
    ensures a + x + b == (a + b) + x
  {
  }

  lemma FilterSplice<T>(a: seq<T>, x: T, b: seq<T>, keep: T -> bool)
    ensures Seqs.Filter(a + [x] + b, keep) == Seqs.Filter(a, keep) + Seqs.Filter([x], keep) + Seqs.Filter(b, keep)
  {
    Seqs.FilterAppend(a + [x], b, keep);
    Seqs.FilterAppend(a, [x], keep);
  }

  /** Behind the insertion point of an element with key `v`, no key is `v`. */
  lemma NoneKept<T>(s: seq<T>, k: nat, key: T -> real, v: real)
    requires k <= |s|
    requires forall j :: k <= j < |s| ==> v < key(s[j])
    ensures Seqs.Filter(s[k..], KeyIs(key, v)) == []
  {
    var b := s[k..];
    forall j | 0 <= j < |b|
      ensures !KeyIs(key, v)(b[j])
    {
      assert b[j] == s[k + j];
    }
    Seqs.FilterEmpty(b, KeyIs(key, v));
  }

  /** The sort is stable: elements with equal keys keep their relative order. */
  lemma {:induction false} SortStable<T>(s: seq<T>, key: T -> real, v: real)
    ensures Seqs.Filter(SortBy(s, key), KeyIs(key, v)) == Seqs.Filter(s, KeyIs(key, v))
    decreases |s|
  {
    if |s| > 0 {
      var init := s[..|s| - 1];
      var x := s[|s| - 1];
      SortStable(init, key, v);
      InsertStable(SortBy(init, key), x, key, v);
      assert s == init + [x];
      Seqs.FilterAppend(init, [x], KeyIs(key, v));
    }
  }
}

=== FILE: text.dfy ===
/**
 * The JavaScript string operations the catalog relies on, over strings as
 * sequences of characters: `trim`, splitting on whitespace runs and on a single
 * separator, `includes`, the first `\d+` match, decimal rendering of integers and
 * `zeroPad` (script.js:29-32).
 */
module Text {
  import opened Outcomes

  /** The ECMAScript WhiteSpace and LineTerminator code points: what `trim` strips
      and what the regular expression class `\s` matches. */
  predicate IsJsSpace(c: char) {
    var u := c as int;
    || u == 0x09 || u == 0x0A || u == 0x0B || u == 0x0C || u == 0x0D || u == 0x20
    || u == 0xA0 || u == 0x1680 || (0x2000 <= u <= 0x200A) || u == 0x2028
    || u == 0x2029 || u == 0x202F || u == 0x205F || u == 0x3000 || u == 0xFEFF
  }

  predicate AllSpace(s: string) {
    forall i :: 0 <= i < |s| ==> IsJsSpace(s[i])
  }

  predicate NoSpace(s: string) {
    forall i :: 0 <= i < |s| ==> !IsJsSpace(s[i])
  }

  /** The regular expression class `\d` without the `u` flag: ASCII digits only. */
  predicate IsDigit(c: char) {
    '0' <= c <= '9'
  }

  predicate AllDigits(s: string) {
    forall i :: 0 <= i < |s| ==> IsDigit(s[i])
  }

  function Repeat(c: char, n: nat): (r: string)
    ensures |r| == n
    ensures forall i :: 0 <= i < n ==> r[i] == c
  {
    if n == 0 then "" else [c] + Repeat(c, n - 1)
  }

  /** `s` with `f` applied to every character: `toUpperCase`/`toLowerCase` under a
      per-character case map. */
  function MapChars(f: char -> char, s: string): (r: string)
    ensures |r| == |s|
    ensures forall i :: 0 <= i < |s| ==> r[i] == f(s[i])
  {
    seq(|s|, i requires 0 <= i < |s| => f(s[i]))
  }

  /* ---------------- trim ---------------- */

  function TrimStart(s: string): (r: string)
    ensures |r| <= |s| && r == s[|s| - |r|..]
    ensures |r| == 0 || !IsJsSpace(r[0])
    ensures AllSpace(s[..|s| - |r|])
  {
    if |s| > 0 && IsJsSpace(s[0]) then
      var r := TrimStart(s[1..]);
      assert s[1..][|s| - 1 - |r|..] == s[|s| - |r|..];
      assert forall i :: 1 <= i < |s| - |r| ==> s[i] == s[1..][..|s| - 1 - |r|][i - 1];
      r
    else
      s
  }

  function TrimEnd(s: string): (r: string)
    ensures |r| <= |s| && r == s[..|r|]
    ensures |r| == 0 || !IsJsSpace(r[|r| - 1])
    ensures AllSpace(s[|r|..])
  {
    if |s| > 0 && IsJsSpace(s[|s| - 1]) then
      var r := TrimEnd(s[..|s| - 1]);
      assert s[..|s| - 1][..|r|] == s[..|r|];
      assert forall i :: |r| <= i < |s| - 1 ==> s[i] == s[..|s| - 1][|r|..][i - |r|];
      r
    else
      s
  }

  /** `r` is the slice of `s` starting at `k`, with only whitespace around it. */
  predicate SpacedAt(s: string, k: nat, r: string) {
    && k + |r| <= |s|
    && r == s[k..k + |r|]
    && AllSpace(s[..k])
    && AllSpace(s[k + |r|..])
  }

  /** `s.trim()`: the slice of `s` left after removing whitespace at both ends. */
  function Trim(s: string): (r: string)
    ensures |r| <= |s|
    ensures SpacedAt(s, |s| - |TrimStart(s)|, r)
    ensures |r| == 0 || (!IsJsSpace(r[0]) && !IsJsSpace(r[|r| - 1]))
    ensures |r| == 0 <==> AllSpace(s)
  {
    var t := TrimStart(s);
    var r := TrimEnd(t);
    TrimSlice(s, t, r);
    TrimSpacedAt(s, t, r);
    r
  }

  /** A suffix after leading whitespace, cut before trailing whitespace, is a slice
      of `s` with only whitespace around it. */
  lemma TrimSpacedAt(s: string, t: string, r: string)
    requires |t| <= |s| && t == s[|s| - |t|..] && AllSpace(s[..|s| - |t|])
    requires |r| <= |t| && r == t[..|r|] && AllSpace(t[|r|..])
    ensures SpacedAt(s, |s| - |t|, r)
  {
    var k := |s| - |t|;
    assert s[k..k + |r|] == t[..|r|];
    assert s[k + |r|..] == t[|r|..];
  }

  lemma TrimSlice(s: string, t: string, r: string)
    requires t == TrimStart(s) && r == TrimEnd(t)
    ensures |r| == 0 <==> AllSpace(s)
  {
    if |r| == 0 {
      assert |t| == 0;
      assert s[..|s|] == s;
    } else {
      assert t[0] == s[|s| - |t|];
    }
  }

  /* ---------------- whitespace words ---------------- */

  /** The longest prefix of `s` without whitespace. */
  function TakeWord(s: string): (w: string)
    ensures |w| <= |s| && w == s[..|w|]
    ensures NoSpace(w)
    ensures |w| == |s| || IsJsSpace(s[|w|])
  {
    if |s| == 0 || IsJsSpace(s[0]) then "" else [s[0]] + TakeWord(s[1..])
  }

  /** `String(s).trim().split(/\s+/).filter(Boolean)`: the maximal runs of
      non-whitespace characters of `s`, in order. */
  function Words(s: string): (ws: seq<string>)
    ensures forall i :: 0 <= i < |ws| ==> |ws[i]| > 0 && NoSpace(ws[i])
    ensures |ws| == 0 <==> AllSpace(s)
    ensures |s| > 0 && NoSpace(s) ==> ws == [s]
    decreases |s|
  {
    if |s| == 0 then
      []
    else if IsJsSpace(s[0]) then
      var ws := Words(s[1..]);
      assert AllSpace(s[1..]) ==> AllSpace(s) by {
        assert forall i :: 1 <= i < |s| ==> s[i] == s[1..][i - 1];
      }
      ws
    else
      var w := TakeWord(s);
      var rest := Words(s[|w|..]);
      var ws := [w] + rest;
      assert w[0] == s[0];
      assert NoSpace(s) ==> w == s && rest == [];
      assert forall i :: 1 <= i < |ws| ==> ws[i] == rest[i - 1];
      ws
  }

  /** A word that runs into whitespace ends there, whatever follows. */
  lemma {:induction false} TakeWordAppend(a: string, x: string)
    requires |TakeWord(a)| < |a| || (|x| > 0 && IsJsSpace(x[0]))
    ensures TakeWord(a + x) == TakeWord(a)
    decreases |a|
  {
    if |a| == 0 {
      assert (a + x)[0] == x[0];
    } else if !IsJsSpace(a[0]) {
      assert (a + x)[1..] == a[1..] + x;
      TakeWordAppend(a[1..], x);
    }
  }

  /** A whitespace character separates words: the words on either side of it are
      the words of the whole, so `Words` splits exactly at whitespace runs. */
  lemma {:induction false} WordsSplit(a: string, c: char, b: string)
    requires IsJsSpace(c)
    ensures Words(a + [c] + b) == Words(a) + Words(b)
    decreases |a|
  {
    var s := a + [c] + b;
    if |a| == 0 {
      assert s[1..] == b;
    } else if IsJsSpace(a[0]) {
      assert s[1..] == a[1..] + [c] + b;
      WordsSplit(a[1..], c, b);
    } else {
      var w := TakeWord(a);
      assert s == a + ([c] + b);
      TakeWordAppend(a, [c] + b);
      assert w[0] == a[0];
      if |w| == |a| {
        assert s[|w|..] == [c] + b;
        assert ([c] + b)[1..] == b;
        assert a[|w|..] == [];
      } else {
        assert s[|w|..] == a[|w|..] + [c] + b;
        WordsSplit(a[|w|..], c, b);
      }
    }
  }

  /** The characters of `s` that are not whitespace, in order. */
  function RemoveSpaces(s: string): (r: string)
  {
    if |s| == 0 then ""
    else if IsJsSpace(s[0]) then RemoveSpaces(s[1..])
    else [s[0]] + RemoveSpaces(s[1..])
  }

  function Concat(ws: seq<string>): string {
    if |ws| == 0 then "" else ws[0] + Concat(ws[1..])
  }

  lemma {:induction false} RemoveSpacesAppend(a: string, b: string)
    ensures RemoveSpaces(a + b) == RemoveSpaces(a) + RemoveSpaces(b)
    decreases |a|
  {
    if |a| > 0 {
      assert (a + b)[1..] == a[1..] + b;
      RemoveSpacesAppend(a[1..], b);
    } else {
      assert a + b == b;
    }
  }

  lemma {:induction false} RemoveSpacesOfSpace(a: string)
    requires AllSpace(a)
    ensures RemoveSpaces(a) == ""
    decreases |a|
  {
    if |a| > 0 {
      RemoveSpacesOfSpace(a[1..]);
    }
  }

  lemma {:induction false} RemoveSpacesOfWord(a: string)
    requires NoSpace(a)
    ensures RemoveSpaces(a) == a
    decreases |a|
  {
    if |a| > 0 {
      RemoveSpacesOfWord(a[1..]);
      assert a == [a[0]] + a[1..];
    }
  }

  /** Splitting on whitespace loses exactly the whitespace: the words, put back
      together, are the non-whitespace characters of `s` in their original order. */
  lemma {:induction false} WordsKeepAllText(s: string)
    ensures Concat(Words(s)) == RemoveSpaces(s)
    decreases |s|
  {
    if |s| > 0 {
      if IsJsSpace(s[0]) {
        WordsKeepAllText(s[1..]);
      } else {
        var w := TakeWord(s);
        var rest := s[|w|..];
        assert s == w + rest;
        RemoveSpacesAppend(w, rest);
        RemoveSpacesOfWord(w);
        WordsKeepAllText(rest);
        assert ([w] + Words(rest))[1..] == Words(rest);
      }
    }
  }

  /* ---------------- includes ---------------- */

  predicate StartsWith(s: string, p: string) {
    |p| <= |s| && s[..|p|] == p
  }

  /** `q` occurs in `s` starting at index `i`. */
  ghost predicate OccursAt(s: string, q: string, i: int) {
    0 <= i <= |s| - |q| && s[i..i + |q|] == q
  }

  /** `s.includes(q)`: `q` occurs as a contiguous piece of `s`. */
  function Includes(s: string, q: string): (b: bool)
    ensures b <==> exists i :: OccursAt(s, q, i)
    decreases |s|
  {
    if StartsWith(s, q) then
      assert OccursAt(s, q, 0);
      true
    else if |s| == 0 then
      false
    else
      var b := Includes(s[1..], q);
      assert b ==> exists i :: OccursAt(s, q, i) by {
        if b {
          var i :| OccursAt(s[1..], q, i);
          assert s[i + 1..i + 1 + |q|] == s[1..][i..i + |q|];
          assert OccursAt(s, q, i + 1);
        }
      }
      assert (exists i :: OccursAt(s, q, i)) ==> b by {
        if exists i :: OccursAt(s, q, i) {
          var i :| OccursAt(s, q, i);
          assert i != 0;
          assert s[1..][i - 1..i - 1 + |q|] == s[i..i + |q|];
          assert OccursAt(s[1..], q, i - 1);
        }
      }
      b
  }

  /* ---------------- split on one separator ---------------- */

  /** `parts.join(sep)`. */
  function Join(parts: seq<string>, sep: string): string {
    if |parts| == 0 then ""
    else if |parts| == 1 then parts[0]
    else parts[0] + sep + Join(parts[1..], sep)
  }

  /** The longest prefix of `s` not containing `sep`. */
  function TakeUntil(s: string, sep: char): (w: string)
    ensures |w| <= |s| && w == s[..|w|]
    ensures sep !in w
    ensures |w| == |s| || s[|w|] == sep
  {
    if |s| == 0 || s[0] == sep then "" else [s[0]] + TakeUntil(s[1..], sep)
  }

  /** `s.split(sep)` for a one-character separator: the pieces between separators,
      empty pieces included. */
  function SplitOn(s: string, sep: char): (parts: seq<string>)
    ensures |parts| >= 1
    ensures forall i :: 0 <= i < |parts| ==> sep !in parts[i]
    ensures Join(parts, [sep]) == s
    decreases |s|
  {
    var w := TakeUntil(s, sep);
    if |w| == |s| then
      [s]
    else
      var rest := SplitOn(s[|w| + 1..], sep);
      assert ([w] + rest)[1..] == rest;
      assert s == w + [sep] + s[|w| + 1..];
      [w] + rest
  }

  lemma {:induction false} TakeUntilJoined(a: string, sep: char, b: string)
    requires sep !in a
    ensures TakeUntil(a + [sep] + b, sep) == a
    decreases |a|
  {
    if |a| > 0 {
      assert (a + [sep] + b)[1..] == a[1..] + [sep] + b;
      TakeUntilJoined(a[1..], sep, b);
    }
  }

  lemma {:induction false} TakeUntilWhole(a: string, sep: char)
    requires sep !in a
    ensures TakeUntil(a, sep) == a
    decreases |a|
  {
    if |a| > 0 {
      TakeUntilWhole(a[1..], sep);
    }
  }

  /** Splitting undoes joining, when no piece contains the separator. */
  lemma {:induction false} SplitJoin(parts: seq<string>, sep: char)
    requires |parts| >= 1
    requires forall i :: 0 <= i < |parts| ==> sep !in parts[i]
    ensures SplitOn(Join(parts, [sep]), sep) == parts
    decreases |parts|
  {
    if |parts| == 1 {
      TakeUntilWhole(parts[0], sep);
    } else {
      var s := Join(parts, [sep]);
      var tail := Join(parts[1..], [sep]);
      assert s == parts[0] + [sep] + tail;
      TakeUntilJoined(parts[0], sep, tail);
      assert s[|parts[0]| + 1..] == tail;
      SplitJoin(parts[1..], sep);
    }
  }

  /* ---------------- prefixes and first separators ---------------- */

  /** `s` with `prefix` removed, when it starts with it. */
  function After(s: string, prefix: string): (r: Option<string>)
    ensures r.Some? <==> StartsWith(s, prefix)
    ensures r.Some? ==> s == prefix + r.value
  {
    if StartsWith(s, prefix) then Some(s[|prefix|..]) else None
  }

  /** Removing a prefix from a text that starts with it leaves the rest. */
  lemma AfterJoined(prefix: string, rest: string)
    ensures After(prefix + rest, prefix) == Some(rest)
  {
    assert (prefix + rest)[..|prefix|] == prefix;
    assert (prefix + rest)[|prefix|..] == rest;
  }

  /** Splits at the first `sep`: the part before and the part after it. */
  function SplitFirst(s: string, sep: char): (r: Option<(string, string)>)
    ensures r.Some? ==> sep !in r.value.0 && s == r.value.0 + [sep] + r.value.1
    ensures r.None? <==> sep !in s
  {
    var w := TakeUntil(s, sep);
    if |w| == |s| then None else Some((w, s[|w| + 1..]))
  }

  /** Splitting at the first separator finds the first piece again. */
  lemma SplitFirstJoined(a: string, sep: char, b: string)
    requires sep !in a
    ensures SplitFirst(a + [sep] + b, sep) == Some((a, b))
  {
    TakeUntilJoined(a, sep, b);
    assert (a + [sep] + b)[|a| + 1..] == b;
  }

  /* ---------------- digits ---------------- */

  function DigitValue(c: char): nat
    requires IsDigit(c)
  {
    (c as int) - ('0' as int)
  }

  function DigitChar(d: nat): (c: char)
    requires d < 10
    ensures IsDigit(c) && DigitValue(c) == d
  {
    ('0' as int + d) as char
  }

  /** `Number(d)` for a run of ASCII digits: its exact value. */
  function DigitsValue(d: string): nat
    requires AllDigits(d)
  {
    if |d| == 0 then 0 else DigitsValue(d[..|d| - 1]) * 10 + DigitValue(d[|d| - 1])
  }

  /** `String(n)` for a whole number below 10^21: its decimal digits, without leading
      zeros. From 10^21 on, JavaScript writes numbers in exponent form, which this
      function does not produce. */
  function Decimal(n: nat): (r: string)
    ensures |r| >= 1 && AllDigits(r)
    ensures r[0] != '0' || |r| == 1
    ensures DigitsValue(r) == n
  {
    if n < 10 then
      [DigitChar(n)]
    else
      var p := Decimal(n / 10);
      var r := p + [DigitChar(n % 10)];
      assert r[..|r| - 1] == p;
      r
  }

  /** The longest prefix of `s` made of digits. */
  function TakeDigits(s: string): (d: string)
    ensures |d| <= |s| && d == s[..|d|] && AllDigits(d)
    ensures |d| == |s| || !IsDigit(s[|d|])
  {
    if |s| == 0 || !IsDigit(s[0]) then "" else [s[0]] + TakeDigits(s[1..])
  }

  /** `d` is the first maximal run of digits in `s`, and it starts at `k`. */
  ghost predicate FirstDigitRunAt(s: string, k: int, d: string) {
    && 0 <= k && k + |d| <= |s|
    && s[k..k + |d|] == d
    && AllDigits(d)
    && (forall i :: 0 <= i < k ==> !IsDigit(s[i]))
    && (k + |d| == |s| || !IsDigit(s[k + |d|]))
  }

  /** `s.match(/(\d+)/)`: the first run of ASCII digits, or None when `s` has none. */
  function FirstDigitRun(s: string): (r: Option<string>)
    ensures r.None? <==> forall i :: 0 <= i < |s| ==> !IsDigit(s[i])
    ensures r.Some? ==> |r.value| > 0 && AllDigits(r.value)
    ensures r.Some? ==> exists k :: FirstDigitRunAt(s, k, r.value)
  {
    if |s| == 0 then
      None
    else if IsDigit(s[0]) then
      var d := TakeDigits(s);
      assert FirstDigitRunAt(s, 0, d);
      Some(d)
    else
      var r := FirstDigitRun(s[1..]);
      assert r.Some? ==> exists k :: FirstDigitRunAt(s, k, r.value) by {
        if r.Some? {
          var k :| FirstDigitRunAt(s[1..], k, r.value);
          assert s[k + 1..k + 1 + |r.value|] == s[1..][k..k + |r.value|];
          assert forall i :: 1 <= i < k + 1 ==> s[i] == s[1..][i - 1];
          assert FirstDigitRunAt(s, k + 1, r.value);
        }
      }
      assert r.None? ==> forall i :: 0 <= i < |s| ==> !IsDigit(s[i]) by {
        if r.None? {
          assert forall i :: 1 <= i < |s| ==> s[i] == s[1..][i - 1];
        }
      }
      r
  }

  /** A string has at most one first run of digits. */
  lemma FirstDigitRunUnique(s: string, k1: int, d1: string, k2: int, d2: string)
    requires FirstDigitRunAt(s, k1, d1) && |d1| > 0
    requires FirstDigitRunAt(s, k2, d2) && |d2| > 0
    ensures k1 == k2 && d1 == d2
  {
    assert s[k1] == d1[0] && s[k2] == d2[0];
    assert k1 == k2;
  }

  /** `zeroPad(s, width)` (script.js:29-32): `s` left-padded with '0' up to `width`
      characters, and never truncated. */
  function ZeroPad(s: string, width: nat): (r: string)
    ensures |r| == if |s| >= width then |s| else width
    ensures r[|r| - |s|..] == s
    ensures forall i :: 0 <= i < |r| - |s| ==> r[i] == '0'
  {
    if |s| >= width then s else Repeat('0', width - |s|) + s
  }

  /** A run of zeros is worth 0. */
  lemma {:induction false} ZerosValue(z: string)
    requires forall i :: 0 <= i < |z| ==> z[i] == '0'
    ensures AllDigits(z) && DigitsValue(z) == 0
    decreases |z|
  {
    if |z| > 0 {
      ZerosValue(z[..|z| - 1]);
    }
  }

  /** Leading zeros do not change the value of a digit string. */
  lemma {:induction false} LeadingZerosValue(z: string, d: string)
    requires forall i :: 0 <= i < |z| ==> z[i] == '0'
    requires AllDigits(d)
    ensures AllDigits(z + d) && DigitsValue(z + d) == DigitsValue(d)
    decreases |d|
  {
    if |d| == 0 {
      assert z + d == z;
      ZerosValue(z);
    } else {
      var e := d[..|d| - 1];
      assert (z + d)[..|z + d| - 1] == z + e;
      LeadingZerosValue(z, e);
    }
  }

  /** Padding a digit string keeps its value. */
  lemma ZeroPadValue(s: string, width: nat)
    requires AllDigits(s)
    ensures AllDigits(ZeroPad(s, width)) && DigitsValue(ZeroPad(s, width)) == DigitsValue(s)
  {
    if |s| < width {
      LeadingZerosValue(Repeat('0', width - |s|), s);
    }
  }
}

=== FILE: url_state.dfy ===
/**
 * The filter state in the page address (script.js:305-330): `writeStateToUrl`
 * records the non-default filters as query parameters, `readStateFromUrlOnInit`
 * reads them back. Parameters are modelled as the list of name/value pairs a
 * `URLSearchParams` holds; how the engine percent-encodes them is the runtime's
 * `formEncode`, and `history.replaceState`/`location` are left out.
 */
module UrlState {
  import opened Outcomes
  import opened JsCore
  import Text
  import opened CatalogQuery

  /** Name/value pairs in insertion order. */
  type Params = seq<(string, string)>

  /** One optional `params.set(name, value)`. */
  function Opt(present: bool, name: string, value: string): Params {
    if present then [(name, value)] else []
  }

  /** The parameters `writeStateToUrl` sets: each one only when it differs from what
      an empty parameter list would leave in place. */
  function EncodeParams(rt: Runtime, st: FilterState): (ps: Params)
    ensures |ps| <= 5
  {
    Opt(st.query != "", "q", st.query)
    + (Opt(st.category != "" && st.category != AllCategories, "category", st.category)
    + (Opt(st.minPrice.Some?, "min", if st.minPrice.Some? then rt.numberToString(st.minPrice.value) else "")
    + (Opt(st.maxPrice.Some?, "max", if st.maxPrice.Some? then rt.numberToString(st.maxPrice.value) else "")
    + Opt(st.sort != "" && st.sort != DefaultSort, "sort", st.sort))))
  }

  /** `params.toString()`: `name=value` pairs joined by `&`, each side form-encoded. */
  function Serialize(rt: Runtime, ps: Params): (qs: string)
    ensures qs == "" <==> |ps| == 0
  {
    if |ps| == 0 then ""
    else
      var first := rt.formEncode(ps[0].0) + "=" + rt.formEncode(ps[0].1);
      if |ps| == 1 then first else first + "&" + Serialize(rt, ps[1..])
  }

  /** The address `writeStateToUrl` installs: the bare path when there is nothing
      to record, `path?query` otherwise. */
  function NewUrl(rt: Runtime, path: string, st: FilterState): (url: string)
    ensures url == path <==> EncodeParams(rt, st) == []
    ensures url != path ==> url == path + "?" + Serialize(rt, EncodeParams(rt, st))
  {
    var qs := Serialize(rt, EncodeParams(rt, st));
    if qs != "" then path + "?" + qs else path
  }

  /** Nothing is recorded exactly when every filter is at its default. */
  lemma EncodeEmptyIffDefault(rt: Runtime, st: FilterState)
    ensures EncodeParams(rt, st) == [] <==>
      && st.query == ""
      && (st.category == "" || st.category == AllCategories)
      && st.minPrice.None? && st.maxPrice.None?
      && (st.sort == "" || st.sort == DefaultSort)
  {
  }

  /** `params.get(name)`: the value of the first pair with that name. */
  function Get(ps: Params, name: string): (r: Option<string>)
    ensures r.Some? ==> (name, r.value) in ps
  {
    if |ps| == 0 then None
    else if ps[0].0 == name then Some(ps[0].1)
    else Get(ps[1..], name)
  }

  /** `params.get(name)` is null exactly when no pair has that name. */
  lemma {:induction false} GetAbsent(ps: Params, name: string)
    ensures Get(ps, name).None? <==> forall i :: 0 <= i < |ps| ==> ps[i].0 != name
  {
    if |ps| > 0 {
      GetAbsent(ps[1..], name);
      assert forall i :: 1 <= i < |ps| ==> ps[i] == ps[1..][i - 1];
    }
  }

  /** The value found is that of the first pair with the name. */
  lemma {:induction false} GetFirst(ps: Params, name: string)
    requires Get(ps, name).Some?
    ensures exists i :: 0 <= i < |ps| && ps[i] == (name, Get(ps, name).value) && NoneBefore(ps, name, i)
  {
    if ps[0].0 == name {
      assert NoneBefore(ps, name, 0);
    } else {
      GetFirst(ps[1..], name);
      var i :| 0 <= i < |ps[1..]| && ps[1..][i] == (name, Get(ps[1..], name).value) && NoneBefore(ps[1..], name, i);
      assert ps[i + 1] == ps[1..][i];
      assert NoneBefore(ps, name, i + 1);
    }
  }

  /** No pair before position `i` is named `name`. */
  ghost predicate NoneBefore(ps: Params, name: string, i: int) {
    forall j :: 0 <= j < i && j < |ps| ==> ps[j].0 != name
  }

  /** The first pair named `name` in `a + b` is the first in `a`, if `a` has one. */
  lemma {:induction false} GetAppend(a: Params, b: Params, name: string)
    ensures Get(a + b, name) == if Get(a, name).Some? then Get(a, name) else Get(b, name)
    decreases |a|
  {
    if |a| > 0 {
      assert (a + b)[1..] == a[1..] + b;
      GetAppend(a[1..], b, name);
    } else {
      assert a + b == b;
    }
  }

  /** What the page finds under each name in the parameters it wrote itself. */
  lemma GetEncoded(rt: Runtime, st: FilterState)
    ensures Get(EncodeParams(rt, st), "q") == (if st.query != "" then Some(st.query) else None)
    ensures Get(EncodeParams(rt, st), "category") ==
      (if st.category != "" && st.category != AllCategories then Some(st.category) else None)
    ensures Get(EncodeParams(rt, st), "min") ==
      (if st.minPrice.Some? then Some(rt.numberToString(st.minPrice.value)) else None)
    ensures Get(EncodeParams(rt, st), "max") ==
      (if st.maxPrice.Some? then Some(rt.numberToString(st.maxPrice.value)) else None)
    ensures Get(EncodeParams(rt, st), "sort") == (if st.sort != "" && st.sort != DefaultSort then Some(st.sort) else None)
  {
    var p1, v1 := st.query != "", st.query;
    var p2, v2 := st.category != "" && st.category != AllCategories, st.category;
    var p3, v3 := st.minPrice.Some?, if st.minPrice.Some? then rt.numberToString(st.minPrice.value) else "";
    var p4, v4 := st.maxPrice.Some?, if st.maxPrice.Some? then rt.numberToString(st.maxPrice.value) else "";
    var p5, v5 := st.sort != "" && st.sort != DefaultSort, st.sort;
    GetChain(p1, v1, p2, v2, p3, v3, p4, v4, p5, v5, "q");
    GetChain(p1, v1, p2, v2, p3, v3, p4, v4, p5, v5, "category");
    GetChain(p1, v1, p2, v2, p3, v3, p4, v4, p5, v5, "min");
    GetChain(p1, v1, p2, v2, p3, v3, p4, v4, p5, v5, "max");
    GetChain(p1, v1, p2, v2, p3, v3, p4, v4, p5, v5, "sort");
  }

  /** `get` on the five optional pairs finds the first present one with the name. */
  lemma GetChain(p1: bool, v1: string, p2: bool, v2: string, p3: bool, v3: string,
                 p4: bool, v4: string, p5: bool, v5: string, name: string)
    ensures Get(Opt(p1, "q", v1) + (Opt(p2, "category", v2) + (Opt(p3, "min", v3)
                + (Opt(p4, "max", v4) + Opt(p5, "sort", v5)))), name) ==
      if p1 && name == "q" then Some(v1)
      else if p2 && name == "category" then Some(v2)
      else if p3 && name == "min" then Some(v3)
      else if p4 && name == "max" then Some(v4)
      else if p5 && name == "sort" then Some(v5)
      else None
  {
    var e := Opt(p5, "sort", v5);
    var d := Opt(p4, "max", v4) + e;
    var c := Opt(p3, "min", v3) + d;
    var b := Opt(p2, "category", v2) + c;
    GetOpt(p1, "q", v1, b, name);
    GetOpt(p2, "category", v2, c, name);
    GetOpt(p3, "min", v3, d, name);
    GetOpt(p4, "max", v4, e, name);
    GetOpt(p5, "sort", v5, [], name);
    assert e + [] == e;
  }

  /** An optional pair in front decides `get` for its own name and defers to the
      rest for every other. */
  lemma GetOpt(present: bool, k: string, v: string, rest: Params, name: string)
    ensures Get(Opt(present, k, v) + rest, name) == if present && k == name then Some(v) else Get(rest, name)
  {
    if present {
      assert (Opt(present, k, v) + rest)[1..] == rest;
    } else {
      assert Opt(present, k, v) + rest == rest;
    }
  }

  /** `Number(s) || null`: NaN and zero both give null. */
  function NumberOrNull(rt: Runtime, s: string): (r: Option<real>)
    ensures r.Some? <==> rt.toNumber(s).Some? && rt.toNumber(s).value != 0.0
    ensures r.Some? ==> r.value == rt.toNumber(s).value
  {
    match rt.toNumber(s)
    case Some(v) => if v != 0.0 then Some(v) else None
    case None => None
  }

  /** `readStateFromUrlOnInit` (script.js:321-330): each parameter present replaces
      its field of `st`; absent ones leave it alone. */
  function ReadState(rt: Runtime, ps: Params, st: FilterState): (r: FilterState)
    ensures Get(ps, "q").None? ==> r.query == st.query
    ensures Get(ps, "category").None? ==> r.category == st.category
    ensures Get(ps, "min").None? ==> r.minPrice == st.minPrice
    ensures Get(ps, "max").None? ==> r.maxPrice == st.maxPrice
    ensures Get(ps, "sort").None? ==> r.sort == st.sort
    ensures Get(ps, "q").Some? ==> r.query == Get(ps, "q").value
    ensures Get(ps, "category").Some? ==> r.category == Get(ps, "category").value
    ensures Get(ps, "min").Some? ==> r.minPrice == NumberOrNull(rt, Get(ps, "min").value)
    ensures Get(ps, "max").Some? ==> r.maxPrice == NumberOrNull(rt, Get(ps, "max").value)
    ensures Get(ps, "sort").Some? ==> r.sort == Get(ps, "sort").value
  {
    FilterState(
      query := match Get(ps, "q") case Some(v) => v case None => st.query,
      category := match Get(ps, "category") case Some(v) => v case None => st.category,
      minPrice := match Get(ps, "min") case Some(v) => NumberOrNull(rt, v) case None => st.minPrice,
      maxPrice := match Get(ps, "max") case Some(v) => NumberOrNull(rt, v) case None => st.maxPrice,
      sort := match Get(ps, "sort") case Some(v) => v case None => st.sort)
  }

  /** An address without parameters leaves the state as it was. */
  lemma ReadNothing(rt: Runtime, st: FilterState)
    ensures ReadState(rt, [], st) == st
  {
  }

  /** The initial state records nothing, and reading nothing gives it back. */
  lemma InitialRoundTrip(rt: Runtime, path: string)
    ensures EncodeParams(rt, Initial) == []
    ensures NewUrl(rt, path, Initial) == path
    ensures ReadState(rt, EncodeParams(rt, Initial), Initial) == Initial
  {
  }

  /** Printing a number and parsing it back gives the number. */
  ghost predicate ReadsBack(rt: Runtime, v: real) {
    rt.toNumber(rt.numberToString(v)) == Some(v)
  }

  /** A page loaded from the address gets the state that wrote it, provided the
      category and sort are not empty and each price bound is unset or a non-zero
      number that prints and parses back to itself. */
  lemma RoundTrip(rt: Runtime, st: FilterState)
    requires st.category != "" && st.sort != ""
    requires st.minPrice.Some? ==> st.minPrice.value != 0.0 && ReadsBack(rt, st.minPrice.value)
    requires st.maxPrice.Some? ==> st.maxPrice.value != 0.0 && ReadsBack(rt, st.maxPrice.value)
    ensures ReadState(rt, EncodeParams(rt, st), Initial) == st
  {
    GetEncoded(rt, st);
  }

  /** A price bound of 0 is recorded but comes back as null: `Number("0") || null`. */
  lemma ZeroBoundLost(rt: Runtime, st: FilterState)
    requires st.minPrice == Some(0.0) && ReadsBack(rt, 0.0)
    ensures Get(EncodeParams(rt, st), "min").Some?
    ensures ReadState(rt, EncodeParams(rt, st), Initial).minPrice.None?
  {
    GetEncoded(rt, st);
  }
}

=== FILE: users.dfy ===
/**
 * The user registry kept under the storage key "usuarios": a list of
 * `{usuario, senha, nivel}` records. Two pages write it: the user administration
 * page (js/usuarios.js) adds and deletes users, the registration page
 * (js/cadastro-usuario.js) adds them. Both refuse a name that is already taken, so
 * names stay unique.
 *
 * The stored list is a value: `None` when nothing is stored, which both pages read
 * as the empty list (`JSON.parse(null) || []`). Persisting it, rendering the cards
 * and the clock are left out.
 */
module Users {
  import opened Outcomes
  import Text
  import Seqs

  datatype User = User(usuario: string, senha: string, nivel: string)

  /** No two users share a name. */
  predicate UniqueNames(users: seq<User>) {
    forall i, j :: 0 <= i < j < |users| ==> users[i].usuario != users[j].usuario
  }

  predicate HasName(users: seq<User>, name: string) {
    exists i :: 0 <= i < |users| && users[i].usuario == name
  }

  /** `users.find(u => u.usuario === name)`, as an index. */
  function FindByName(users: seq<User>, name: string): (r: Option<nat>)
    ensures r.None? <==> !HasName(users, name)
    ensures r.Some? ==> r.value < |users| && users[r.value].usuario == name
    ensures r.Some? ==> forall j :: 0 <= j < r.value ==> users[j].usuario != name
  {
    if |users| == 0 then None
    else if users[0].usuario == name then Some(0)
    else
      match FindByName(users[1..], name)
      case None =>
        assert forall j :: 1 <= j < |users| ==> users[j] == users[1..][j - 1];
        None
      case Some(k) =>
        assert users[k + 1] == users[1..][k];
        Some(k + 1)
  }

  /** Among unique names, the user found is the only one with that name. */
  lemma FindUnique(users: seq<User>, name: string, i: nat)
    requires UniqueNames(users)
    requires i < |users| && users[i].usuario == name
    ensures FindByName(users, name) == Some(i)
  {
  }

  /* ---------------- adding a user (js/usuarios.js:61-89) ---------------- */

  datatype AddOutcome = MissingFields | NameTaken | Added

  /** The message the administration page shows after an attempt. */
  function AddMessage(o: AddOutcome): (m: string)
    ensures |m| > 0 && (m[0] == '✅' <==> o == Added)
    ensures o != Added ==> m[0] == '❌'
  {
    match o
    case MissingFields => "❌ Preencha todos os campos."
    case NameTaken => "❌ Usuário já existe."
    case Added => "✅ Usuário cadastrado com sucesso!"
  }

  /** The new-user form: name and password are trimmed, the level is taken as
      selected. Blank fields are refused first, then a name already in use; only
      then is the user appended. */
  function AddUser(users: seq<User>, nameInput: string, passwordInput: string, level: string)
    : (r: (AddOutcome, seq<User>))
    ensures r.0 != Added ==> r.1 == users
    ensures r.0 == MissingFields <==>
      Text.Trim(nameInput) == "" || Text.Trim(passwordInput) == "" || level == ""
    ensures r.0 == NameTaken <==>
      && Text.Trim(nameInput) != "" && Text.Trim(passwordInput) != "" && level != ""
      && HasName(users, Text.Trim(nameInput))
    ensures r.0 == Added ==>
      r.1 == users + [User(Text.Trim(nameInput), Text.Trim(passwordInput), level)]
  {
    var name := Text.Trim(nameInput);
    var password := Text.Trim(passwordInput);
    if name == "" || password == "" || level == "" then
      (MissingFields, users)
    else if FindByName(users, name).Some? then
      (NameTaken, users)
    else
      (Added, users + [User(name, password, level)])
  }

  /** Appending a name nobody has keeps the names unique. */
  lemma AppendFreshName(users: seq<User>, u: User)
    requires UniqueNames(users) && !HasName(users, u.usuario)
    ensures UniqueNames(users + [u])
  {
    var r := users + [u];
    forall i, j | 0 <= i < j < |r|
      ensures r[i].usuario != r[j].usuario
    {
      if j == |users| {
        assert r[i] == users[i];
      } else {
        assert r[i] == users[i] && r[j] == users[j];
      }
    }
  }

  /** Adding users never creates two with the same name. */
  lemma AddKeepsNamesUnique(users: seq<User>, nameInput: string, passwordInput: string, level: string)
    requires UniqueNames(users)
    ensures UniqueNames(AddUser(users, nameInput, passwordInput, level).1)
  {
    var name := Text.Trim(nameInput);
    if AddUser(users, nameInput, passwordInput, level).0 == Added {
      AppendFreshName(users, User(name, Text.Trim(passwordInput), level));
    }
  }

  /* ---------------- the administration page (js/usuarios.js) ---------------- */

  /** The page is shown only to someone logged in: a stored, non-empty name. */
  predicate UsersPageOpen(loggedIn: Option<string>) {
    loggedIn.Some? && loggedIn.value != ""
  }

  /** One card of the user list: the name, the level, and whether it carries a
      delete button (the logged-in user's own card reads "(Você)" instead). */
  datatype UserCard = UserCard(usuario: string, nivel: string, deletable: bool)

  /** What the page renders (js/usuarios.js:8-44): nothing without a logged-in user
      (the access-denied notice replaces the page), otherwise one card per user in
      stored order. */
  function UserCards(loggedIn: Option<string>, stored: Option<seq<User>>): (r: Option<seq<UserCard>>)
    ensures r.None? <==> !UsersPageOpen(loggedIn)
    ensures r.Some? ==> |r.value| == |Seqs.Load(stored)|
    ensures r.Some? ==> forall i :: 0 <= i < |r.value| ==>
      && r.value[i].usuario == Seqs.Load(stored)[i].usuario
      && r.value[i].nivel == Seqs.Load(stored)[i].nivel
      && (r.value[i].deletable <==> DeleteOffered(Seqs.Load(stored), loggedIn.value, i))
  {
    if !UsersPageOpen(loggedIn) then
      None
    else
      var users := Seqs.Load(stored);
      Some(seq(|users|, i requires 0 <= i < |users| =>
        UserCard(users[i].usuario, users[i].nivel, users[i].usuario != loggedIn.value)))
  }

  /** A card offers deletion only for a user other than the one logged in. */
  predicate DeleteOffered(users: seq<User>, loggedIn: string, index: nat)
    requires index < |users|
  {
    users[index].usuario != loggedIn
  }

  /** Clicking delete on card `index` and answering the confirmation: a confirmed
      deletion of an offered card removes exactly that user. */
  function DeleteUser(users: seq<User>, loggedIn: string, index: nat, confirmed: bool): (r: seq<User>)
    requires index < |users|
    ensures DeleteOffered(users, loggedIn, index) && confirmed ==> r == Seqs.RemoveAt(users, index)
    ensures !(DeleteOffered(users, loggedIn, index) && confirmed) ==> r == users
  {
    if users[index].usuario != loggedIn && confirmed then Seqs.RemoveAt(users, index) else users
  }

  /** Deleting never removes the logged-in user and keeps names unique; the others
      keep their order. */
  lemma DeleteKeepsSelf(users: seq<User>, loggedIn: string, index: nat, confirmed: bool)
    requires index < |users|
    ensures var r := DeleteUser(users, loggedIn, index, confirmed);
      && (HasName(users, loggedIn) ==> HasName(r, loggedIn))
      && (UniqueNames(users) ==> UniqueNames(r))
  {
    var r := DeleteUser(users, loggedIn, index, confirmed);
    if r != users {
      if HasName(users, loggedIn) {
        var i :| 0 <= i < |users| && users[i].usuario == loggedIn;
        assert i != index;
        if i < index {
          assert r[i] == users[i];
        } else {
          assert r[i - 1] == users[i];
        }
      }
      if UniqueNames(users) {
        forall a, b | 0 <= a < b < |r|
          ensures r[a].usuario != r[b].usuario
        {
          var a' := if a < index then a else a + 1;
          var b' := if b < index then b else b + 1;
          assert r[a] == users[a'] && r[b] == users[b'];
        }
      }
    }
  }

  /* ---------------- the registration page (js/cadastro-usuario.js) ---------------- */

  /** What the registration page leaves behind: the stored list and which of its two
      messages is visible. */
  datatype Registration = Registration(stored: Option<seq<User>>, errorShown: bool, successShown: bool)

  /** The registration form. Blank fields are refused before storage is read; a name
      in use is refused with the stored list untouched; otherwise the user is
      appended to the list read from storage (empty when nothing is stored). */
  function Register(stored: Option<seq<User>>, nameInput: string, passwordInput: string, level: string)
    : (r: Registration)
    ensures r.errorShown != r.successShown
    ensures r.successShown ==>
      && Text.Trim(nameInput) != "" && Text.Trim(passwordInput) != "" && level != ""
      && !HasName(Seqs.Load(stored), Text.Trim(nameInput))
      && r.stored == Some(Seqs.Load(stored) + [User(Text.Trim(nameInput), Text.Trim(passwordInput), level)])
    ensures r.errorShown ==> r.stored == stored
  {
    var (outcome, users) := AddUser(Seqs.Load(stored), nameInput, passwordInput, level);
    if outcome == Added then Registration(Some(users), false, true)
    else Registration(stored, true, false)
  }

  /** Registration succeeds exactly when every field is filled in and the name is
      free, and it keeps the stored names unique. */
  lemma RegisterSucceedsIff(stored: Option<seq<User>>, nameInput: string, passwordInput: string, level: string)
    ensures Register(stored, nameInput, passwordInput, level).successShown <==>
      && Text.Trim(nameInput) != "" && Text.Trim(passwordInput) != "" && level != ""
      && !HasName(Seqs.Load(stored), Text.Trim(nameInput))
    ensures UniqueNames(Seqs.Load(stored)) ==>
      UniqueNames(Seqs.Load(Register(stored, nameInput, passwordInput, level).stored))
  {
    if UniqueNames(Seqs.Load(stored)) {
      AddKeepsNamesUnique(Seqs.Load(stored), nameInput, passwordInput, level);
    }
  }
}

=== FILE: whatsapp_link.dfy ===
/**
 * The "ask for a quote" link of a product card (script.js:505-515): a WhatsApp link
 * to the shop's number whose text names the product and, once codes are assigned,
 * its code.
 *
 * Every caller passes a product it found and a non-empty number, so the product is
 * a canonical `Product` and the number a string.
 */
module WhatsAppLink {
  import opened Outcomes
  import opened JsCore
  import Text
  import opened Normalize
  import Seqs

  const Greeting: string := "Olá! Tenho interesse no produto \""
  const NameClose: string := "\""
  const CodeOpen: string := " (Código: "
  const CodeClose: string := ")"
  const Closing: string := ". Pode me enviar informações e orçamento?"

  const LinkPrefix: string := "https://wa.me/"
  const TextParam: string := "?text="

  /** The code a message shows: only a present, non-empty one (`product.code` is
      truthy). */
  function ShownCode(p: Product): (c: Option<string>)
    ensures c.Some? <==> p.code.Some? && p.code.value != ""
    ensures c.Some? ==> c == p.code
  {
    if p.code.Some? && p.code.value != "" then p.code else None
  }

  /** `codePart`: the code in parentheses, or nothing. */
  function CodePart(code: Option<string>): string {
    match code
    case Some(c) => CodeOpen + c + CodeClose
    case None => ""
  }

  /** The message text (script.js:513). */
  function QuoteText(rt: Runtime, p: Product): string {
    Greeting + ToStr(rt, p.name) + NameClose + CodePart(ShownCode(p)) + Closing
  }

  /** `makeWhatsAppLink(number, product)` (script.js:511-515): the number and the
      text, each percent-encoded. */
  function MakeWhatsAppLink(rt: Runtime, number: string, p: Product): (link: string)
    ensures Text.StartsWith(link, LinkPrefix + rt.encodeUri(number) + TextParam)
    ensures Text.After(link, LinkPrefix + rt.encodeUri(number) + TextParam) == Some(rt.encodeUri(QuoteText(rt, p)))
  {
    Text.AfterJoined(LinkPrefix + rt.encodeUri(number) + TextParam, rt.encodeUri(QuoteText(rt, p)));
    LinkPrefix + rt.encodeUri(number) + TextParam + rt.encodeUri(QuoteText(rt, p))
  }

  /* ---------------- reading a link back ---------------- */

  /** What follows the closing quote: the closing sentence alone, or the code in
      parentheses before it. */
  function ReadTail(tail: string): Option<Option<string>> {
    if tail == Closing then Some(None)
    else
      match Text.After(tail, CodeOpen)
      case None => None
      case Some(codeAndRest) =>
        match Text.SplitFirst(codeAndRest, ')')
        case None => None
        case Some((code, end)) => if end == Closing then Some(Some(code)) else None
  }

  /** The product name and the code a message text names. */
  function ReadQuoteText(text: string): Option<(string, Option<string>)> {
    match Text.After(text, Greeting)
    case None => None
    case Some(rest) =>
      match Text.SplitFirst(rest, '"')
      case None => None
      case Some((name, tail)) =>
        match ReadTail(tail)
        case None => None
        case Some(code) => Some((name, code))
  }

  /** The number and the message a link carries, decoded. */
  function ReadLink(decode: string -> string, link: string): Option<(string, string)> {
    match Text.After(link, LinkPrefix)
    case None => None
    case Some(rest) =>
      match Text.SplitFirst(rest, '?')
      case None => None
      case Some((number, query)) =>
        match Text.After(query, "text=")
        case None => None
        case Some(text) => Some((decode(number), decode(text)))
  }

  /** The code in parentheses is read back, when it holds no `)`. */
  lemma ReadTailCode(code: string)
    requires ')' !in code
    ensures ReadTail(CodePart(Some(code)) + Closing) == Some(Some(code))
  {
    var tail := CodePart(Some(code)) + Closing;
    assert tail == CodeOpen + (code + [')'] + Closing);
    assert tail[0] != Closing[0];
    Text.AfterJoined(CodeOpen, code + [')'] + Closing);
    Text.SplitFirstJoined(code, ')', Closing);
  }

  /** The name is read back up to its closing quote, when it holds no `"`. */
  lemma ReadName(name: string, tail: string)
    requires '"' !in name
    ensures ReadQuoteText(Greeting + (name + ['"'] + tail)) ==
      match ReadTail(tail)
      case None => None
      case Some(c) => Some((name, c))
  {
    Text.AfterJoined(Greeting, name + ['"'] + tail);
    Text.SplitFirstJoined(name, '"', tail);
  }

  /** The message is the greeting, the name, the closing quote and the tail. */
  lemma QuoteTextParts(rt: Runtime, p: Product)
    ensures QuoteText(rt, p) == Greeting + (ToStr(rt, p.name) + ['"'] + (CodePart(ShownCode(p)) + Closing))
  {
    var name, code := ToStr(rt, p.name), CodePart(ShownCode(p));
    assert NameClose == ['"'];
    calc {
      QuoteText(rt, p);
      Greeting + name + NameClose + code + Closing;
      { Seqs.AppendAssoc(Greeting + name + NameClose, code, Closing); }
      Greeting + name + NameClose + (code + Closing);
      { Seqs.AppendAssoc(Greeting + name, NameClose, code + Closing); }
      Greeting + name + (NameClose + (code + Closing));
      { Seqs.AppendAssoc(Greeting, name, NameClose + (code + Closing)); }
      Greeting + (name + (NameClose + (code + Closing)));
      { Seqs.AppendAssoc(name, NameClose, code + Closing); }
      Greeting + (name + NameClose + (code + Closing));
    }
  }

  /** The message names the product, and its code when it has one, so that the shop
      can read them back, as long as the name holds no `"` and the code no `)`
      (assigned codes are letters, digits and hyphens). */
  lemma QuoteTextReadsBack(rt: Runtime, p: Product)
    requires '"' !in ToStr(rt, p.name)
    requires p.code.Some? ==> ')' !in p.code.value
    ensures ReadQuoteText(QuoteText(rt, p)) == Some((ToStr(rt, p.name), ShownCode(p)))
  {
    QuoteTextParts(rt, p);
    ReadName(ToStr(rt, p.name), CodePart(ShownCode(p)) + Closing);
    if ShownCode(p).Some? {
      ReadTailCode(ShownCode(p).value);
    }
  }

  /** Decoding a link gives back the number and the message, as long as decoding
      undoes the percent-encoding and the encoded number holds no `?`
      (encodeURIComponent escapes it). */
  lemma LinkReadsBack(rt: Runtime, decode: string -> string, number: string, p: Product)
    requires decode(rt.encodeUri(number)) == number
    requires decode(rt.encodeUri(QuoteText(rt, p))) == QuoteText(rt, p)
    requires '?' !in rt.encodeUri(number)
    ensures ReadLink(decode, MakeWhatsAppLink(rt, number, p)) == Some((number, QuoteText(rt, p)))
  {
    var n, t := rt.encodeUri(number), rt.encodeUri(QuoteText(rt, p));
    assert MakeWhatsAppLink(rt, number, p) == LinkPrefix + (n + ['?'] + ("text=" + t));
    Text.AfterJoined(LinkPrefix, n + ['?'] + ("text=" + t));
    Text.SplitFirstJoined(n, '?', "text=" + t);
    Text.AfterJoined("text=", t);
  }
}
